=== FILE: README.md ===
# Browser history and bookmark search — a Dafny model

This project models the core of a local search service over a Vivaldi
browser's history and bookmarks. The service reads the browser's `History`
database and `Bookmarks` file and upserts the rows into two PostgreSQL
tables, `history` and `bookmarks`. It backfills embeddings for them and
answers three kinds of request over each table:

- a hybrid search that fuses structured, full-text and vector retrieval;
- a filtered count;
- a grouped aggregate.

Two front ends sit on top:

- `unified_search` searches either table or both, and merges the results by a weighted fused score.
- `search_browser_unified_tool` insists on exactly one table and dispatches between count, aggregate and search.

A migration deduplicates both tables and puts unique indexes on their identity keys.

| module | file | what it holds |
|---|---|---|
| `Basics` | basics.dfy | `Option`, `Result`, Python's `x or None` / `COALESCE(x, '')`, `Take`, `Dedup` |
| `Text` | text.dfy | `str.strip`, blankness, ASCII lower-casing, substring, `isdigit`/`int`, `" ".join`, `replace` |
| `Ordering` | ordering.dfy | descending stable sort with ties in input order, least and greatest elements |
| `Models` | models.dfy | the two tables' rows (`HistoryEntry`, `Bookmark`) as one `Record` with a kind-specific `Detail` |
| `Dates` | dates.dfy | `_parse_date_bound` |
| `Filters` | filters.dfy | `_apply_history_filters` / `_apply_bookmark_filters` |
| `Fusion` | fusion.dfy | the merge and max-fusion of `search`, `_cap_limit` |
| `Retrieval` | retrieval.dfy | the three sub-queries, `search`, `count`, `aggregate` of both engines |
| `Unified` | unified.dfy | `unified_search` |
| `Tool` | tool.dfy | `search_browser_unified_tool` |
| `Identity` | identity.dfy | migration 002: the dedup and the two unique index keys |
| `Sync` | sync.dfy | `upsert_history`, `upsert_bookmarks`, `embed_*_batch`, `run_embedding_backfill` |
| `Reader` | reader.dfy | `_chromium_time_to_utc`, the post-processing in `read_history`, `_walk_bookmarks`, `read_bookmarks` roots |

## Modelling choices

- **Engines as one function.** The two search engines differ only in:
  - their table;
  - their timestamp column (`last_visit_time` or `added_at`);
  - their substring column (`domain` or `folder`).

  One function per operation takes the table `Kind`; the bookmark engine's methods (`hybrid_search.py:300-466`) are the same functions at `Kind == Bookmarks`.
- **Time.** An instant is an integer number of microseconds since the Unix epoch. A calendar day is `86 400 000 000` of them.
- **Parameters for what the code calls into.** These become parameters:
  - ISO date parsing (`fromisoformat`), which gives a day or instant, or the message of the `ValueError` it raises;
  - the full-text match and rank (`plainto_tsquery`, `ts_rank_cd`);
  - the cosine distance;
  - the embedding endpoint;
  - `urlparse`.
- **Tables.** A table is a `map` from id to row.
  - SQL `ORDER BY` leaves ties unspecified. The model breaks them by ascending id, and the engine then sorts stably, so ties keep merge order.
  - A query without `ORDER BY` (the backfill's batch selection) is likewise taken in ascending id order.
  - An upsert's table also carries the next id of the sequence.
- **One clock reading per call.** Every `datetime.now()` of one upsert is taken as a single `now`. A backfill passes one `now` to all of its batches, although each `embed_*_batch` reads the clock afresh (`sync.py:110`, `sync.py:155`). Only the `embedding_computed_at` column sees the difference, and no property depends on its value.
- **Session time zone.** A bare date bound becomes a naive `datetime`, which PostgreSQL interprets in the session's `TimeZone` when it compares it with a `timestamptz` column. The model takes the session zone to be UTC, so a day's bounds are its UTC midnight and the last microsecond before the next one. `Dates.BareDateCoversWholeDay` and `Filters.DateBeforeKeepsWholeDay` hold for that zone.
- **Exceptions.** An exception the code raises is an `Err` carrying its message. One it catches is the value the code returns instead.
- **SHA-256.** The unique indexes and lookups compare `digest(url, 'sha256')`. The hash is taken to be injective, so keys compare URLs directly.
- **The backfill loop.** `run_embedding_backfill` is a `while True` loop with no bound.
  - As written, it is modelled with a fuel bound. `None` means the fuel ran out.
  - The corrected loop needs no fuel: it terminates on the number of rows still to embed.
- **Empty bookmark folders.** The bookmark upsert never writes an empty folder. A pre-existing row with folder `""` is invisible to its lookup for a NULL folder, yet collides with a NULL-folder row in the coalescing unique index (`Sync.EmptyFolderCollides`). The invariant the upsert keeps therefore includes "no row of ours has an empty folder".

## Model

| member | source | states |
|---|---|---|
| Dates.ParseDateBound | src/mcp_server/hybrid_search.py:16-26 | a blank bound fails with "Empty date string"; a bare date is accepted iff it parses, and gives an instant on that day: its first microsecond, or with `end_of_day` its last; a bound with a time part is accepted iff `fromisoformat` parses it (every 'Z' read as +00:00) and is exactly the instant parsed; a bound that does not parse fails with the parser's own `ValueError` message, which in count and aggregate mode reaches the tool's caller |
| Dates.DateTimeIgnoresEndOfDay | src/mcp_server/hybrid_search.py:20-22 | a bound containing 'T' or ' ' is exactly what `fromisoformat` returns for it (with every 'Z' read as +00:00): the date-time it parses or the error it raises, message included; `end_of_day` has no effect |
| Dates.BareDateCoversWholeDay | src/mcp_server/hybrid_search.py:23-26 | the start-of-day and end-of-day bounds of a bare date enclose exactly the instants of that day |
| Filters.Compile | src/mcp_server/hybrid_search.py:33-52 | compiling fails iff some recognised date clause is malformed; otherwise one conjunct per recognised clause (known field, truthy value) |
| Filters.CompileSound | src/mcp_server/hybrid_search.py:33-71 | a compiled filter admits a row iff it is not soft-deleted and satisfies each clause read on its own; unknown fields and empty values constrain nothing |
| Filters.NoFilters | src/mcp_server/hybrid_search.py:33-37 | with no filters only soft-deleted rows are excluded |
| Filters.NullStampFailsDateFilter | src/mcp_server/hybrid_search.py:41-49 | a row without a timestamp fails every date filter |
| Filters.DateBeforeKeepsWholeDay | src/mcp_server/hybrid_search.py:45-49 | in either engine, `date_before` with a bare date admits a row stamped anywhere on that day and rejects one stamped on the next day |
| Fusion.CapLimit | src/mcp_server/hybrid_search.py:29-30 | the limit is clamped into [1, 100], unchanged inside that range |
| Fusion.CombineRanked | src/mcp_server/hybrid_search.py:130-189 | the results are sorted by fused score with ties in first-seen order, one well-formed entry per id, each method score one of that method's hits, no dropped candidate ranks above a kept one, and nothing is dropped unless `top_k` entries are kept |
| Fusion.CombineExecuted | src/mcp_server/hybrid_search.py:142-175 | `methods_executed` lists exactly the methods that ran, answered and found something, in execution order, and covers every method credited to an item |
| Fusion.CombineTiming | src/mcp_server/hybrid_search.py:130-189 | the timing keys are "total" plus one per attempted method; fulltext and vector are attempted only when requested and the query is not blank |
| Fusion.FinalScoreIsMax | src/mcp_server/hybrid_search.py:177-186 | an item's final score is the largest of its method scores and is one of them |
| Fusion.CombineNothing | src/mcp_server/hybrid_search.py:130-189 | when no sub-query answers with a hit, nothing is returned and no method is credited |
| Retrieval.StructuredScoreDecays | src/mcp_server/hybrid_search.py:194-203 | the structured score is 1.0 at rank 0, falls 0.03 per place, and never goes below 0.3 |
| Retrieval.FulltextScore | src/mcp_server/hybrid_search.py:205-218 | a full-text rank is clamped into [0.1, 1], unchanged inside that range |
| Retrieval.VectorScore | src/mcp_server/hybrid_search.py:220-234 | a cosine distance becomes the similarity 1 - d clamped into [0, 1] |
| Retrieval.RankingSpec | src/mcp_server/hybrid_search.py:194-234 | `WHERE … ORDER BY … LIMIT`: at most `limit` qualifying rows, distinct, best first, and no better qualifying row left out |
| Retrieval.SearchSound | src/mcp_server/hybrid_search.py:130-189 | every item a search returns is a stored, not soft-deleted row that satisfies every filter clause |
| Retrieval.SearchMalformedFilter | src/mcp_server/hybrid_search.py:154-175 | a malformed date filter makes every sub-query fail: no items, no executed methods, but timing for every attempted method |
| Retrieval.ZeroEmbeddingSkipsVector | src/mcp_server/hybrid_search.py:220-234 | a query whose embedding is empty or all zeros never credits the vector method |
| Retrieval.WrongDimensionSkipsVector | src/mcp_server/hybrid_search.py:170-176 | a query embedding whose length is not `EMBEDDING_DIM` makes `_vector` raise when its statement binds the embedding to the `Vector(EMBEDDING_DIM)` column type; the exception is caught, so the vector method is neither executed nor credited |
| Retrieval.SearchScoresBounded | src/mcp_server/hybrid_search.py:130-234 | every score an item carries, and its fused score, lies in [0, 1] |
| Retrieval.SearchScoreFloors | src/mcp_server/hybrid_search.py:194-218 | a structured score is at least 0.3 and a full-text score at least 0.1 |
| Retrieval.Count | src/mcp_server/hybrid_search.py:244-257 | count fails iff a date filter is malformed, and otherwise is the number of rows the filters admit clause by clause |
| Retrieval.Aggregate | src/mcp_server/hybrid_search.py:259-297 | any field but the table's own label field gives no groups; otherwise it fails iff a date filter is malformed and returns at most `top_n` groups |
| Retrieval.AggregateGroups | src/mcp_server/hybrid_search.py:259-297 | the groups have distinct non-empty labels and non-increasing counts; each count is the number of admitted rows with that label; no label left out has more rows than a group returned; every label appears unless `top_n` groups were returned |
| Unified.UnifiedSearch | src/mcp_server/server.py:74-155 | an exception gives the error "Search failed: " + message; otherwise success with at most the clamped `top_k` results |
| Unified.FusedScoreBetween | src/mcp_server/server.py:131-139 | the weighted fused score lies between any lower and upper bound of an item's scores |
| Unified.FusedScoreSingle | src/mcp_server/server.py:133-139 | an item found by one method keeps that method's score |
| Unified.AssembleRanking | src/mcp_server/server.py:141-152 | `total_available` counts the whole merged list; the results are its best `top_k` by fused score (no merged item left out ranks above one kept), ties in merged order, and a permutation of it when it fits |
| Unified.MergeOrder | src/mcp_server/server.py:106-128 | history items come first, then bookmark items, each unchanged and tagged with its engine |
| Unified.AssembleMethods | src/mcp_server/server.py:114-128 | the executed methods are de-duplicated in first-seen order: exactly history's methods in their order, then the bookmark engine's methods history did not run, in their order |
| Unified.UnifiedSources | src/mcp_server/server.py:106-128 | every result came from an engine that was asked for |
| Unified.UnifiedMethods | src/mcp_server/server.py:106-128 | the response's executed methods are the union of both engines' methods in first-seen order: history's list, then the bookmark engine's other methods in their order (for a bookmarks-only search, that engine's list unchanged) |
| Unified.UnifiedScoresBounded | src/mcp_server/server.py:131-141 | every merged item's fused score lies in [0, 1] |
| Unified.UnifiedTiming | src/mcp_server/server.py:112-125 | `history_total` is a timing key iff history was searched, `bookmarks_total` iff bookmarks were |
| Unified.TimingDisjoint | src/mcp_server/server.py:112-125 | the prefixes keep the two engines' timing keys apart, and no key is lost |
| Tool.UnifiedTool | src/mcp_server/tools.py:96-99 | both or neither table selected gives the source error |
| Tool.ToolRejectsSources | src/mcp_server/tools.py:96-99 | the refusal is an error whose message names the exactly-one-source rule |
| Tool.ToolCount | src/mcp_server/tools.py:106-110 | count mode is the selected table's count: it fails iff a date filter is malformed, and otherwise returns the number of admitted rows |
| Tool.ToolRejectsGroupBy | src/mcp_server/tools.py:112-127 | aggregating by a field the selected table cannot be grouped by fails with a message naming the field and the table |
| Tool.ToolAggregate | src/mcp_server/tools.py:112-124 | aggregating by the table's own field returns at most the clamped `aggregate_top_n` groups, largest first, each a distinct label with its count; no label left out is larger than a group returned, and every label is present when fewer groups come back |
| Tool.ToolSearch | src/mcp_server/tools.py:129-147 | any other request searches the selected table only and returns the engine's results unchanged, with `total_available` their number |
| Identity.DeleteShadowedUnique | migrations/versions/002_add_unique_constraints.py:21-35 | the surviving rows are unchanged input rows, and no two share a key |
| Identity.DeleteShadowedKeepsKeys | migrations/versions/002_add_unique_constraints.py:21-35 | every key survives, on a row with an id at least as large; a row survives iff no row with its key has a larger id |
| Identity.DeleteShadowedIdempotent | migrations/versions/002_add_unique_constraints.py:21-35 | running the dedup again deletes nothing |
| Identity.MigrationSucceeds | migrations/versions/002_add_unique_constraints.py:21-45 | after the dedup both unique indexes can be created |
| Identity.HistoryNullBrowsersDistinct | migrations/versions/002_add_unique_constraints.py:24-41 | the history index admits two rows with the same URL and NULL browsers, while the dedup (NULL equal to NULL) keeps only the larger id |
| Identity.BookmarkNullFolderCollides | migrations/versions/002_add_unique_constraints.py:43-45 | in the bookmark index a NULL folder and an empty folder collide |
| Sync.TextForEmbeddingShape | src/ingest/sync.py:16-18 | the embedded text is non-empty for a non-empty URL, is the stripped URL without title and extra, and is the three parts joined by spaces when all are present |
| Sync.RefreshKeepsIdentity | src/ingest/sync.py:35-74 | an update writes only title, the visit columns (history) or `added_at` (bookmarks), and `updated_at`; id, URL, browser, folder and embedding are untouched |
| Sync.Upsert | src/ingest/sync.py:25-87 | a successful upsert returns the number of input rows |
| Sync.StepFacts | src/ingest/sync.py:27-52 | one row keeps the loop invariant and every row's identity, leaves a row for its key, and inserts only when no row had that key |
| Sync.UpsertFacts | src/ingest/sync.py:25-87 | on a table with unique keys the upsert never raises, keeps every row's identity, and leaves exactly one row per input key |
| Sync.UpsertCoveredInsertsNothing | src/ingest/sync.py:25-87 | when every input key already has a row, nothing is inserted |
| Sync.UpsertIdempotent | src/ingest/sync.py:25-87 | upserting the same rows a second time inserts no row |
| Sync.IndexGivesUnique | migrations/versions/002_add_unique_constraints.py:39-45 | a table that satisfies the unique index satisfies the upsert's lookup invariant |
| Sync.UpsertKeepsIndex | src/ingest/sync.py:25-87 | an upsert on a table that satisfies the unique index leaves one that still does, so the flush succeeds |
| Sync.EmptyFolderCollides | src/ingest/sync.py:60-85 | a row of ours with an empty folder is missed by the NULL-folder lookup; the insert that follows violates the bookmark index |
| Sync.Batch | src/ingest/sync.py:92-99 | a batch selects at most `batch_size` rows, all vivaldi, unembedded and not deleted, listed in id order, and is non-empty while such rows exist |
| Sync.EmbedBatchFacts | src/ingest/sync.py:90-116 | a batch returns 0 and writes nothing when nothing is selected, the encoder raises, or the reply is not a list of the right length; otherwise it returns the number selected; only selected rows change |
| Sync.WriteVectorsRows | src/ingest/sync.py:110-114 | a row gets a vector iff its item has length `EMBEDDING_DIM`, stamped with the batch's single timestamp; other rows stay as they were |
| Sync.EmbedBatchMonotone | src/ingest/sync.py:90-116 | a batch returning 0 changes nothing, and no batch removes an embedding |
| Sync.DrainFacts | src/ingest/sync.py:121-126 | when the loop ends, it ended on a batch that returns 0, and it has only added embeddings |
| Sync.DrainNeverStops | src/ingest/sync.py:121-126 | as written, an encoder answering with vectors of the wrong length keeps the loop going for any fuel |
| Sync.BackfillNeverStops | src/ingest/sync.py:119-132 | as written, such an encoder and one pending history row keep the backfill from finishing |
| Sync.EmbedBatchFixedCounts | src/ingest/sync.py:90-91 | the corrected batch makes the same writes and returns exactly the number of rows embedded |
| Sync.DrainFixedFacts | src/ingest/sync.py:121-126 | the corrected loop terminates, reports exactly the rows it embedded, and stops on a batch that embeds nothing |
| Sync.DrainFixedWrongLength | src/ingest/sync.py:121-126 | with the wrong-length encoder the corrected loop stops at once and changes nothing |
| Sync.BackfillFixedFacts | src/ingest/sync.py:119-132 | each corrected total is the number of rows embedded in its table, and afterwards neither table has a batch left that would embed anything |
| Reader.ChromiumTime | src/ingest/vivaldi_reader.py:13-17 | a value is converted iff it is present and positive |
| Reader.ChromiumRoundTrip | src/ingest/vivaldi_reader.py:10-17 | every instant after 1601 is recovered from its Chromium timestamp; the offset itself is the Unix epoch |
| Reader.ChromiumTimeMonotone | src/ingest/vivaldi_reader.py:13-17 | the conversion keeps the order of positive timestamps |
| Reader.ShapeVisit | src/ingest/vivaldi_reader.py:50-60 | a kept row has a non-empty stripped URL, a title that is stripped or None when blank, `visit_count` defaulting to 0, and a timestamp iff the raw one is positive |
| Reader.ReadHistorySpec | src/ingest/vivaldi_reader.py:48-61 | the output is exactly the rows with a non-blank URL, shaped, in input order |
| Reader.ReadHistoryAppend | src/ingest/vivaldi_reader.py:49-60 | rows are processed one at a time: the output of two batches is the two outputs in sequence |
| Reader.AddedAtUnits | src/ingest/vivaldi_reader.py:73-85 | digit strings are read as integers; integers above 10^12 are Chromium microseconds, the rest Unix milliseconds; anything else gives no timestamp |
| Reader.LeafYields | src/ingest/vivaldi_reader.py:69-92 | a node with a `"url"` key yields one record iff its stripped URL is non-empty, and its children are never read |
| Reader.NestWalk | src/ingest/vivaldi_reader.py:93-97 | paths compose: walking a chain of folders titled t1 … tn from a non-empty path p is walking the innermost node from `p/t1/…/tn`, each title stripped and an empty one kept as an empty segment |
| Reader.NestedFolderPath | src/ingest/vivaldi_reader.py:64-98 | a bookmark nested under folders t1 … tn below the root folder name p (never empty, lines 117-118) yields exactly one record, filed under `p/t1/…/tn`, with its URL stripped, its title stripped or None when blank and its date converted |
| Reader.WalkAllAppend | src/ingest/vivaldi_reader.py:96-97 | siblings are walked in order, so the output is in depth-first pre-order |
| Reader.WalkUnder | src/ingest/vivaldi_reader.py:86-97 | below a non-empty path every record's folder is that path or lies beneath it |
| Reader.WalkClean | src/ingest/vivaldi_reader.py:64-98 | every record has a non-empty stripped URL, a stripped non-empty title when present, and a non-empty folder when present |
| Reader.WalkIgnoresPath | src/ingest/vivaldi_reader.py:64-98 | the path only affects folders: walking under another path yields the same URLs, titles and timestamps in the same order |
| Reader.RootFolderNames | src/ingest/vivaldi_reader.py:113-117 | the roots start at "Bookmarks bar", "Other" and "Synced" |
| Reader.ReadBookmarksParts | src/ingest/vivaldi_reader.py:113-118 | the output is the bookmark bar's records, then Other's, then Synced's, a missing root contributing nothing |
| Reader.ReadBookmarksOrder | src/ingest/vivaldi_reader.py:111-119 | every record is clean and under one of the three roots, and records are grouped by root in visiting order |
| Reader.ReadBookmarksOnlyRoots | src/ingest/vivaldi_reader.py:111-118 | entries of `roots` other than the three are never read |

## Findings

| source | as written | input that shows it | evidently intended | confidence | as-written member | corrected member |
|---|---|---|---|---|---|---|
| src/ingest/sync.py:116 | `embed_history_batch` (and `embed_bookmarks_batch`, line 161) returns `len(entries)`, the number of rows selected, although its docstring says it returns the count updated; `run_embedding_backfill` loops until a batch returns 0 | an encoder that answers every batch with a list of the right length whose vectors are not `EMBEDDING_DIM` long, plus one pending row: every batch selects the same rows, writes nothing and returns their number, so the `while True` loop never ends | return the number of rows actually given an embedding, so the loop stops on a batch that embeds nothing | not executed | Sync.DrainNeverStops, Sync.BackfillNeverStops | Sync.DrainFixedFacts, Sync.BackfillFixedFacts |

## Left out

- File and database I/O: reading the `History` database and `Bookmarks` file, the SQL query of `read_history` (the `TRIM(url) != ''` filter and `ORDER BY last_visit_time DESC`), JSON decoding and its error, sessions, flushes and commits. The model starts from the rows and trees they produce.
- PostgreSQL internals: `plainto_tsquery`, `ts_rank_cd`, pgvector distance, the HNSW index and the tsvector trigger. They are parameters.
- `ILIKE` wildcards: a `%` or `_` inside a filter value is taken literally, and so is a backslash, which PostgreSQL's default `ILIKE` escape character would otherwise apply to the next character. Case folding is ASCII only.
- Filters.Clause: filter values are strings or absent. A filter is an arbitrary JSON object, so its value may also be a number, a boolean, a list or an object. The code tests it with Python truthiness and then uses `str(value)` or `f"%{value}%"` (`hybrid_search.py:40-51`, `hybrid_search.py:62-69`): `0` and `false` are ignored, `1` filters on `"1"` and `true` on `"True"`. The model covers only the string case, where truthiness means non-empty.
- Floating point: scores and weights are exact reals. Timestamps are exact integers, so the float division in `_chromium_time_to_utc` and the millisecond branch is not modelled.
- Timing values: only the keys of the timing dictionaries are modelled, since their values are wall-clock measurements.
- `datetime.now()`: one `now` per upsert, and one `now` shared by all batches of a backfill, where the code reads the clock once per batch.
- Session time zone: a naive date bound is read as UTC. Another session `TimeZone` would shift every bare-date bound by its offset.
- `urlparse` (`_domain_from_url`): a parameter `domainOf`.
- The HTTP/MCP server, configuration, the CLI and the daemon.
- Unified.Weight: the `0.5` default weight for an unknown method is not modelled, because every score key is one of the three methods.
- Reader.AddedAt: `datetime.fromtimestamp` range errors are not modelled. Every millisecond value gives an instant, though Python returns None on a caught range error and raises on an uncaught `OverflowError`.
- Reader.ChromiumTime: a timestamp beyond year 9999 is converted, where Python would raise.
- Reader.DateNumber: `str.isdigit` is restricted to ASCII digits. Python also accepts other Unicode digits.
- Reader.TitleCase: `str.title` is modelled on ASCII letters only, which is all the root keys contain.
- Sync.Drain: the as-written loop carries a fuel bound, and running out of fuel is `None`, because Dafny functions must terminate. The corrected loop needs no fuel.

=== FILE: basics.dfy ===
/** Small shared vocabulary: optional values, error-carrying results and the
    two Python idioms the repository leans on (`x or None`, `COALESCE(x, '')`). */
module Basics {

  /** A nullable column or an absent dictionary key. */
  datatype Option<+T> = None | Some(value: T)

  /** A value, or the message of the exception the Python code would raise. */
  datatype Result<+T> = Ok(value: T) | Err(message: string)

  /** Python `s or None` on a string: the empty string becomes NULL. */
  function OrNone(s: string): Option<string>
  {
    if s == "" then None else Some(s)
  }

  /** Python `(x or "")` and SQL `COALESCE(x, '')` on a nullable string. */
  function OrEmpty(o: Option<string>): string
  {
    match o
    case None => ""
    case Some(s) => s
  }

  /** The normalisation `x or None` applied to an already optional string. */
  function Normalize(o: Option<string>): Option<string>
  {
    OrNone(OrEmpty(o))
  }

  function Min(a: int, b: int): int { if a <= b then a else b }

  function Max(a: int, b: int): int { if a >= b then a else b }

  /** The first `n` elements of `s`, or all of `s` when it is shorter (Python `s[:n]`). */
  function Take<T>(s: seq<T>, n: nat): (r: seq<T>)
    ensures |r| == Min(n, |s|)
    ensures r == s[..|r|]
  {
    if |s| <= n then s else s[..n]
  }

  /** `a` is an initial segment of `b`. */
  predicate IsPrefix<T(==)>(a: seq<T>, b: seq<T>)
  {
    |a| <= |b| && a == b[..|a|]
  }

  /** No element occurs twice. */
  predicate Distinct<T(==)>(s: seq<T>)
  {
    forall i, j :: 0 <= i < j < |s| ==> s[i] != s[j]
  }

  /** `s` with repeats dropped, each element kept where it first occurs: the
      `if m not in acc: acc.append(m)` loop. */
  function Dedup<T(==,!new)>(s: seq<T>): (r: seq<T>)
    ensures Distinct(r)
    ensures forall x :: x in r <==> x in s
    ensures |r| <= |s|
  {
    if s == [] then []
    else
      var r := Dedup(s[..|s| - 1]);
      var x := s[|s| - 1];
      assert s == s[..|s| - 1] + [x];
      if x in r then r else r + [x]
  }

  /** `[x for x in s if x not in drop]`. */
  function Without<T(==)>(s: seq<T>, drop: seq<T>): seq<T>
  {
    if s == [] then [] else (if s[0] in drop then [] else [s[0]]) + Without(s[1..], drop)
  }

  /** `[f(x) for x in s]`. */
  function MapSeq<A, B>(s: seq<A>, f: A -> B): (r: seq<B>)
    ensures |r| == |s| && forall i :: 0 <= i < |s| ==> r[i] == f(s[i])
  {
    seq(|s|, i requires 0 <= i < |s| => f(s[i]))
  }
}

=== FILE: dates.dfy ===
/** Date bounds for the `date_after` / `date_before` filters. ISO parsing
    itself (`date.fromisoformat`, `datetime.fromisoformat`) is supplied by a
    `Calendar`; what is modelled is the dispatch between a bare date and a
    date-time and the end-of-day rule.

    A bare date gives a naive `datetime`, which PostgreSQL reads in the
    session's `TimeZone` when it compares it with a `timestamptz` column;
    the model takes that zone to be UTC, so day `d` starts at
    `d * MICROS_PER_DAY`. */
module Dates {
  import opened Basics
  import opened Text
  import opened Models

  const MICROS_PER_DAY: int := 86_400_000_000

  /** ISO parsers: a bare date to its day number (days since 1970-01-01), a
      date-time to its instant; where Python raises `ValueError`, an `Err`
      carrying that exception's message (`Invalid isoformat string: '...'`
      for a malformed string, a range message such as `month must be in
      1..12` for a well-formed one naming no such day). */
  datatype Calendar = Calendar(date: string -> Result<int>, dateTime: string -> Result<Instant>)

  /** The test that routes a bound to the date-time parser. */
  predicate HasTimePart(s: string)
  {
    'T' in s || ' ' in s
  }

  /** `_parse_date_bound(s, end_of_day)`. */
  function ParseDateBound(cal: Calendar, s: string, endOfDay: bool): (r: Result<Instant>)
    ensures IsBlank(s) ==> r == Err("Empty date string")
    ensures !IsBlank(s) && !HasTimePart(Strip(s)) ==>
      && (r.Ok? <==> cal.date(Strip(s)).Ok?)
      && (r.Err? ==> r == Err(cal.date(Strip(s)).message))
    ensures !IsBlank(s) && !HasTimePart(Strip(s)) && r.Ok? ==>
      && r.value / MICROS_PER_DAY == cal.date(Strip(s)).value
      && (endOfDay ==> (r.value + 1) % MICROS_PER_DAY == 0)
      && (!endOfDay ==> r.value % MICROS_PER_DAY == 0)
    ensures !IsBlank(s) && HasTimePart(Strip(s)) ==>
      var dt := cal.dateTime(ReplaceChar(Strip(s), 'Z', "+00:00"));
      r == dt
  {
    var t := Strip(s);
    if t == [] then Err("Empty date string")
    else if HasTimePart(t) then
      match cal.dateTime(ReplaceChar(t, 'Z', "+00:00"))
      case Ok(v) => Ok(v)
      case Err(m) => Err(m)
    else
      match cal.date(t)
      case Ok(d) =>
        if endOfDay then
          DayArithmetic(d, d * MICROS_PER_DAY + MICROS_PER_DAY - 1);
          Ok(d * MICROS_PER_DAY + MICROS_PER_DAY - 1)
        else
          DayArithmetic(d, d * MICROS_PER_DAY);
          Ok(d * MICROS_PER_DAY)
      case Err(m) => Err(m)
  }

  /** An instant belongs to day `d` exactly when it lies in `d`'s 24 hours. */
  lemma DayArithmetic(d: int, t: int)
    ensures t / MICROS_PER_DAY == d <==> d * MICROS_PER_DAY <= t < d * MICROS_PER_DAY + MICROS_PER_DAY
    ensures t == d * MICROS_PER_DAY ==> t % MICROS_PER_DAY == 0
    ensures t == d * MICROS_PER_DAY + MICROS_PER_DAY - 1 ==> (t + 1) % MICROS_PER_DAY == 0
  {
    var q := t / MICROS_PER_DAY;
    assert t == q * MICROS_PER_DAY + t % MICROS_PER_DAY;
    if t == d * MICROS_PER_DAY + MICROS_PER_DAY - 1 {
      assert t + 1 == (d + 1) * MICROS_PER_DAY;
    }
  }

  /** A bound written with a time part is the instant `fromisoformat` gives
      for it once every `Z` reads `+00:00`, or the error it raises, whatever
      `end_of_day` says. */
  lemma DateTimeIgnoresEndOfDay(cal: Calendar, s: string)
    requires !IsBlank(s) && HasTimePart(Strip(s))
    ensures ParseDateBound(cal, s, true) == ParseDateBound(cal, s, false)
    ensures ParseDateBound(cal, s, false) == cal.dateTime(ReplaceChar(Strip(s), 'Z', "+00:00"))
  {
  }

  /** For a bare date `d`, the start-of-day and end-of-day bounds enclose
      exactly the instants of day `d`. */
  lemma BareDateCoversWholeDay(cal: Calendar, s: string, t: Instant)
    requires !IsBlank(s) && !HasTimePart(Strip(s)) && cal.date(Strip(s)).Ok?
    ensures ParseDateBound(cal, s, false).Ok? && ParseDateBound(cal, s, true).Ok?
    ensures ParseDateBound(cal, s, false).value <= t <= ParseDateBound(cal, s, true).value
        <==> t / MICROS_PER_DAY == cal.date(Strip(s)).value
  {
    DayArithmetic(cal.date(Strip(s)).value, t);
  }
}

=== FILE: filters.dfy ===
/** `_apply_history_filters` and `_apply_bookmark_filters`: filter clauses
    compiled into a conjunction of conditions over a record, always together
    with the soft-delete exclusion. */
module Filters {
  import opened Basics
  import opened Text
  import opened Models
  import opened Dates

  /** One `{"field": …, "value": …}` filter dictionary; `value` is `None`
      when the key is missing or null. */
  datatype Clause = Clause(field: string, value: Option<string>)

  /** One SQL `WHERE` conjunct. */
  datatype Cond =
    | NotBefore(bound: Instant)     // stamp >= bound
    | NotAfter(bound: Instant)      // stamp <= bound
    | LabelContains(needle: string) // label ILIKE '%needle%'

  /** Python truthiness of the clause value. */
  predicate Truthy(v: Option<string>)
  {
    v.Some? && v.value != ""
  }

  /** The substring-filter field of each kind. */
  function LabelField(k: Kind): string
  {
    if k == History then "domain" else "folder"
  }

  predicate IsDateField(field: string)
  {
    field == "date_after" || field == "date_before"
  }

  /** The clause adds a conjunct: its field is known to the kind and its value is truthy. */
  predicate Recognized(k: Kind, c: Clause)
  {
    Truthy(c.value) && (IsDateField(c.field) || c.field == LabelField(k))
  }

  /** The bound a date clause denotes; `date_before` means the end of a bare date's day. */
  function DateBound(cal: Calendar, c: Clause): Result<Instant>
    requires Truthy(c.value)
  {
    ParseDateBound(cal, c.value.value, c.field == "date_before")
  }

  /** A recognized date clause whose value does not parse. */
  predicate Malformed(k: Kind, cal: Calendar, c: Clause)
  {
    Recognized(k, c) && IsDateField(c.field) && DateBound(cal, c).Err?
  }

  function CountRecognized(k: Kind, filters: seq<Clause>): nat
  {
    if filters == [] then 0
    else (if Recognized(k, filters[0]) then 1 else 0) + CountRecognized(k, filters[1..])
  }

  /** The conjunct a recognized clause adds. */
  function CompileClause(cal: Calendar, c: Clause): Result<Cond>
    requires Truthy(c.value)
  {
    if IsDateField(c.field) then
      match DateBound(cal, c)
      case Ok(t) => Ok(if c.field == "date_after" then NotBefore(t) else NotAfter(t))
      case Err(e) => Err(e)
    else Ok(LabelContains(c.value.value))
  }

  /** Compiles the clauses in order; the first malformed date raises. */
  function Compile(k: Kind, cal: Calendar, filters: seq<Clause>): (r: Result<seq<Cond>>)
    ensures r.Err? <==> exists i :: 0 <= i < |filters| && Malformed(k, cal, filters[i])
    ensures r.Ok? ==> |r.value| == CountRecognized(k, filters)
  {
    if filters == [] then Ok([])
    else
      var c := filters[0];
      var rest := Compile(k, cal, filters[1..]);
      assert forall i :: 1 <= i < |filters| ==> filters[i] == filters[1..][i - 1];
      if !Recognized(k, c) then rest
      else match CompileClause(cal, c)
        case Err(e) => Err(e)
        case Ok(cond) =>
          match rest
          case Err(e) => Err(e)
          case Ok(conds) => Ok([cond] + conds)
  }

  predicate Holds(c: Cond, r: Record)
  {
    match c
    case NotBefore(t) => r.Stamp().Some? && r.Stamp().value >= t
    case NotAfter(t) => r.Stamp().Some? && r.Stamp().value <= t
    case LabelContains(v) => r.Label().Some? && ContainsIgnoringCase(r.Label().value, v)
  }

  /** The full `WHERE` clause: not soft-deleted and every conjunct. */
  predicate Passes(conds: seq<Cond>, r: Record)
  {
    r.deletedAt.None? && forall i :: 0 <= i < |conds| ==> Holds(conds[i], r)
  }

  /** What one clause, read on its own, demands of a record. */
  predicate ClauseHolds(k: Kind, cal: Calendar, c: Clause, r: Record)
  {
    if !Recognized(k, c) then true
    else if c.field == "date_after" then
      DateBound(cal, c).Ok? && r.Stamp().Some? && r.Stamp().value >= DateBound(cal, c).value
    else if c.field == "date_before" then
      DateBound(cal, c).Ok? && r.Stamp().Some? && r.Stamp().value <= DateBound(cal, c).value
    else
      r.Label().Some? && ContainsIgnoringCase(r.Label().value, c.value.value)
  }

  /** A compiled filter admits a record exactly when the record is not
      soft-deleted and satisfies every clause taken on its own; unknown
      fields and empty values constrain nothing. */
  lemma {:induction false} CompileSound(k: Kind, cal: Calendar, filters: seq<Clause>, r: Record)
    requires Compile(k, cal, filters).Ok?
    ensures Passes(Compile(k, cal, filters).value, r)
        <==> r.deletedAt.None? && forall i :: 0 <= i < |filters| ==> ClauseHolds(k, cal, filters[i], r)
  {
    if filters != [] {
      CompileSound(k, cal, filters[1..], r);
      var conds := Compile(k, cal, filters).value;
      var rest := Compile(k, cal, filters[1..]).value;
      assert forall i :: 1 <= i < |filters| ==> filters[i] == filters[1..][i - 1];
      if Recognized(k, filters[0]) {
        assert conds == [conds[0]] + rest;
        assert Holds(conds[0], r) <==> ClauseHolds(k, cal, filters[0], r);
        PassesCons(conds[0], rest, r);
      }
      assert (forall i :: 0 <= i < |filters| ==> ClauseHolds(k, cal, filters[i], r))
        <==> ClauseHolds(k, cal, filters[0], r)
             && (forall i :: 0 <= i < |filters[1..]| ==> ClauseHolds(k, cal, filters[1..][i], r));
    }
  }

  /** A record passes a condition list with one more condition in front
      exactly when it also meets that condition. */
  lemma PassesCons(c: Cond, rest: seq<Cond>, r: Record)
    ensures Passes([c] + rest, r) <==> Holds(c, r) && Passes(rest, r)
  {
    var conds := [c] + rest;
    assert conds[0] == c;
    if Holds(c, r) && Passes(rest, r) {
      forall i | 0 <= i < |conds| ensures Holds(conds[i], r) {
        if i > 0 { assert conds[i] == rest[i - 1]; }
      }
      assert Passes(conds, r);
    }
    if Passes(conds, r) {
      assert Holds(conds[0], r);
      forall i | 0 <= i < |rest| ensures Holds(rest[i], r) {
        assert rest[i] == conds[i + 1];
      }
      assert Passes(rest, r);
    }
  }

  /** With no filters only soft-deleted rows are excluded. */
  lemma NoFilters(k: Kind, cal: Calendar, r: Record)
    ensures Compile(k, cal, []) == Ok([])
    ensures Passes([], r) <==> r.deletedAt.None?
  {
  }

  /** A row without a timestamp fails every date filter. */
  lemma NullStampFailsDateFilter(k: Kind, cal: Calendar, filters: seq<Clause>, i: int, r: Record)
    requires Compile(k, cal, filters).Ok?
    requires 0 <= i < |filters| && Recognized(k, filters[i]) && IsDateField(filters[i].field)
    requires r.Stamp().None?
    ensures !Passes(Compile(k, cal, filters).value, r)
  {
    CompileSound(k, cal, filters, r);
    assert !ClauseHolds(k, cal, filters[i], r);
  }

  /** `date_before` with a bare date keeps a row timestamped anywhere on that
      day and drops one timestamped on the next day, in either engine. */
  lemma DateBeforeKeepsWholeDay(k: Kind, cal: Calendar, s: string, r: Record)
    requires !IsBlank(s) && !HasTimePart(Strip(s)) && cal.date(Strip(s)).Ok?
    requires r.deletedAt.None? && r.Stamp().Some?
    ensures var day := cal.date(Strip(s)).value;
      var t := r.Stamp().value;
      Compile(k, cal, [Clause("date_before", Some(s))]).Ok?
      && (t / MICROS_PER_DAY == day ==> Passes(Compile(k, cal, [Clause("date_before", Some(s))]).value, r))
      && (t / MICROS_PER_DAY == day + 1 ==> !Passes(Compile(k, cal, [Clause("date_before", Some(s))]).value, r))
  {
    var day := cal.date(Strip(s)).value;
    var t := r.Stamp().value;
    var c := Clause("date_before", Some(s));
    assert Recognized(k, c) && !Malformed(k, cal, c);
    CompileSound(k, cal, [c], r);
    BareDateCoversWholeDay(cal, s, t);
    var hi := ParseDateBound(cal, s, true).value;
    DayArithmetic(day, hi);
    DayArithmetic(day + 1, t);
  }
}

=== FILE: fusion.dfy ===
/** The kind-independent half of `HybridHistorySearchEngine.search` and
    `HybridBookmarkSearchEngine.search`: method gating, merging the
    sub-query batches by record id, max-of-scores fusion, the stable
    descending sort and the `top_k` cut. */
module Fusion {
  import opened Basics
  import opened Text
  import opened Ordering

  datatype Method = Structured | Fulltext | Vector

  /** The method's name in requests, timings and `methods_executed`. */
  function Name(m: Method): string
  {
    match m
    case Structured => "structured"
    case Fulltext => "fulltext"
    case Vector => "vector"
  }

  /** Execution order of the methods within one search. */
  function Rank(m: Method): nat
  {
    match m
    case Structured => 0
    case Fulltext => 1
    case Vector => 2
  }

  /** One `(row, score)` pair of a sub-query, the row given by its id. */
  datatype Hit = Hit(id: int, score: real)

  /** What a sub-query produced, or `Raised` when it threw (caught and logged). */
  datatype Answer<+T> = Answered(value: T) | Raised

  /** `all_results[item_id]`: the per-method scores and the contributing methods. */
  datatype Fused = Fused(id: int, scores: map<Method, real>, methods: seq<Method>)

  /** What `search` returns: the ranked items, the keys of the timing
      dictionary (the timings themselves are wall-clock values) and
      `methods_executed`. */
  datatype Outcome = Outcome(results: seq<Fused>, timing: set<string>, executed: seq<Method>)

  /** `_cap_limit` and the identical inline clamps of the front ends. */
  function CapLimit(limit: int): (r: int)
    ensures 1 <= r <= 100
    ensures 1 <= limit <= 100 ==> r == limit
    ensures limit < 1 ==> r == 1
    ensures limit > 100 ==> r == 100
  {
    Min(Max(1, limit), 100)
  }

  /** `methods or ["structured", "fulltext", "vector"]`. */
  function Requested(methods: Option<seq<string>>): seq<string>
  {
    if methods.None? || methods.value == [] then ["structured", "fulltext", "vector"]
    else methods.value
  }

  /** The method is attempted: requested, and for fulltext and vector the
      query is not blank. */
  predicate Runs(m: Method, requested: seq<string>, query: string)
  {
    Name(m) in requested && (m == Structured || !IsBlank(query))
  }

  // ---------------------------------------------------------------- merge

  predicate MethodsOrdered(ms: seq<Method>)
  {
    forall i, j :: 0 <= i < j < |ms| ==> Rank(ms[i]) < Rank(ms[j])
  }

  /** The keys of the score map are exactly the methods list, which has no
      duplicates and follows execution order. */
  predicate WellFormed(e: Fused)
  {
    |e.methods| > 0 && MethodsOrdered(e.methods) && forall m :: m in e.scores <==> m in e.methods
  }

  predicate DistinctIds(acc: seq<Fused>)
  {
    forall i, j :: 0 <= i < j < |acc| ==> acc[i].id != acc[j].id
  }

  function Ids(acc: seq<Fused>): set<int>
  {
    set e | e in acc :: e.id
  }

  function HitIds(batch: seq<Hit>): set<int>
  {
    set h | h in batch :: h.id
  }

  /** The batch a method contributed, given the three batches. */
  function BatchOf(m: Method, sb: seq<Hit>, fb: seq<Hit>, vb: seq<Hit>): seq<Hit>
  {
    match m
    case Structured => sb
    case Fulltext => fb
    case Vector => vb
  }

  /** The merge invariant: well-formed entries with distinct ids, methods no
      later than `m`, and every recorded score one of that method's hits. */
  predicate Merged(acc: seq<Fused>, m: Method, sb: seq<Hit>, fb: seq<Hit>, vb: seq<Hit>)
  {
    DistinctIds(acc) && forall i :: 0 <= i < |acc| ==> EntryOk(acc[i], m, sb, fb, vb)
  }

  /** One merged entry: well-formed, no method later than `m`, and every
      recorded score one of that method's hits for the entry's id. */
  predicate EntryOk(e: Fused, m: Method, sb: seq<Hit>, fb: seq<Hit>, vb: seq<Hit>)
  {
    && WellFormed(e)
    && (forall x :: x in e.methods ==> Rank(x) <= Rank(m))
    && (forall x :: x in e.scores ==> Hit(e.id, e.scores[x]) in BatchOf(x, sb, fb, vb))
  }

  /** Position of the entry for `id`, or -1. */
  function Find(acc: seq<Fused>, id: int): (i: int)
    ensures -1 <= i < |acc|
    ensures i >= 0 ==> acc[i].id == id
    ensures i < 0 ==> forall j :: 0 <= j < |acc| ==> acc[j].id != id
  {
    if acc == [] then -1
    else if acc[|acc| - 1].id == id then |acc| - 1
    else Find(acc[..|acc| - 1], id)
  }

  /** `add_batch`'s loop body for one `(item, score)`. */
  function AddHit(acc: seq<Fused>, h: Hit, m: Method): seq<Fused>
  {
    var i := Find(acc, h.id);
    if i < 0 then acc + [Fused(h.id, map[m := h.score], [m])]
    else acc[i := Bump(acc[i], h, m)]
  }

  /** A later hit for an id already seen: the method's score is overwritten
      and the method appended once. */
  function Bump(e: Fused, h: Hit, m: Method): Fused
  {
    Fused(e.id, e.scores[m := h.score], if m in e.methods then e.methods else e.methods + [m])
  }

  lemma AddHitKeeps(acc: seq<Fused>, h: Hit, m: Method, sb: seq<Hit>, fb: seq<Hit>, vb: seq<Hit>)
    requires Merged(acc, m, sb, fb, vb) && h in BatchOf(m, sb, fb, vb)
    ensures Merged(AddHit(acc, h, m), m, sb, fb, vb)
  {
    if Find(acc, h.id) < 0 {
      AddHitNew(acc, h, m, sb, fb, vb);
    } else {
      AddHitSeen(acc, h, m, sb, fb, vb);
    }
  }

  lemma AddHitNew(acc: seq<Fused>, h: Hit, m: Method, sb: seq<Hit>, fb: seq<Hit>, vb: seq<Hit>)
    requires Merged(acc, m, sb, fb, vb) && h in BatchOf(m, sb, fb, vb)
    requires Find(acc, h.id) < 0
    ensures Merged(AddHit(acc, h, m), m, sb, fb, vb)
  {
    var e := Fused(h.id, map[m := h.score], [m]);
    var r := AddHit(acc, h, m);
    assert r == acc + [e];
    assert EntryOk(e, m, sb, fb, vb);
    forall j | 0 <= j < |acc| ensures acc[j].id != h.id {
    }
  }

  /** A hit adds its id and keeps the existing entries' ids in place. */
  lemma AddHitIds(acc: seq<Fused>, h: Hit, m: Method)
    ensures Ids(AddHit(acc, h, m)) == Ids(acc) + {h.id}
    ensures |AddHit(acc, h, m)| >= |acc|
    ensures forall j :: 0 <= j < |acc| ==> AddHit(acc, h, m)[j].id == acc[j].id
  {
    var i := Find(acc, h.id);
    if i < 0 {
      IdsAppend(acc, Fused(h.id, map[m := h.score], [m]));
    } else {
      IdsUpdate(acc, i, Bump(acc[i], h, m));
      assert acc[i] in acc;
    }
  }

  lemma IdsAppend(acc: seq<Fused>, e: Fused)
    ensures Ids(acc + [e]) == Ids(acc) + {e.id}
  {
    var r := acc + [e];
    forall id | id in Ids(r) ensures id in Ids(acc) + {e.id} {
      var f :| f in r && f.id == id;
      if f != e { assert f in acc; }
    }
    forall id | id in Ids(acc) ensures id in Ids(r) {
      var f :| f in acc && f.id == id;
      assert f in r;
    }
    assert e in r;
  }

  lemma IdsUpdate(acc: seq<Fused>, i: int, e: Fused)
    requires 0 <= i < |acc| && acc[i].id == e.id
    ensures Ids(acc[i := e]) == Ids(acc)
  {
    var r := acc[i := e];
    forall id | id in Ids(r) ensures id in Ids(acc) {
      var f :| f in r && f.id == id;
      var j :| 0 <= j < |r| && r[j] == f;
      assert acc[j] in acc && acc[j].id == id;
    }
    forall id | id in Ids(acc) ensures id in Ids(r) {
      var f :| f in acc && f.id == id;
      var j :| 0 <= j < |acc| && acc[j] == f;
      assert r[j] in r && r[j].id == id;
    }
  }

  lemma AddHitSeen(acc: seq<Fused>, h: Hit, m: Method, sb: seq<Hit>, fb: seq<Hit>, vb: seq<Hit>)
    requires Merged(acc, m, sb, fb, vb) && h in BatchOf(m, sb, fb, vb)
    requires Find(acc, h.id) >= 0
    ensures Merged(AddHit(acc, h, m), m, sb, fb, vb)
  {
    var i := Find(acc, h.id);
    var e' := Bump(acc[i], h, m);
    var r := acc[i := e'];
    assert AddHit(acc, h, m) == r;
    BumpOk(acc[i], h, m, sb, fb, vb);
    forall j | 0 <= j < |r| ensures EntryOk(r[j], m, sb, fb, vb) {
      if j != i { assert r[j] == acc[j]; }
    }
    forall j, k | 0 <= j < k < |r| ensures r[j].id != r[k].id {
      assert r[j].id == acc[j].id && r[k].id == acc[k].id;
    }
  }

  lemma BumpOk(e: Fused, h: Hit, m: Method, sb: seq<Hit>, fb: seq<Hit>, vb: seq<Hit>)
    requires EntryOk(e, m, sb, fb, vb) && e.id == h.id && h in BatchOf(m, sb, fb, vb)
    ensures EntryOk(Bump(e, h, m), m, sb, fb, vb)
  {
    var ms := Bump(e, h, m).methods;
    if m !in e.methods {
      forall a, b | 0 <= a < b < |ms| ensures Rank(ms[a]) < Rank(ms[b]) {
        if b == |e.methods| {
          assert ms[a] == e.methods[a];
          assert e.methods[a] in e.methods;
        }
      }
    }
  }

  /** `add_batch(batch, m)`: hits merged in order, later scores of the same
      id overwriting earlier ones. */
  function AddBatch(acc: seq<Fused>, batch: seq<Hit>, m: Method): seq<Fused>
    decreases |batch|
  {
    if batch == [] then acc else AddBatch(AddHit(acc, batch[0], m), batch[1..], m)
  }

  lemma AddBatchKeeps(acc: seq<Fused>, batch: seq<Hit>, m: Method, sb: seq<Hit>, fb: seq<Hit>, vb: seq<Hit>)
    requires Merged(acc, m, sb, fb, vb)
    requires forall h :: h in batch ==> h in BatchOf(m, sb, fb, vb)
    ensures Merged(AddBatch(acc, batch, m), m, sb, fb, vb)
    ensures Ids(AddBatch(acc, batch, m)) == Ids(acc) + HitIds(batch)
    ensures |AddBatch(acc, batch, m)| >= |acc|
    ensures forall j :: 0 <= j < |acc| ==> AddBatch(acc, batch, m)[j].id == acc[j].id
  {
    AddBatchMerged(acc, batch, m, sb, fb, vb);
    AddBatchIds(acc, batch, m);
  }

  /** Merging a batch of the method's own hits keeps the merge invariant. */
  lemma {:induction false} AddBatchMerged(acc: seq<Fused>, batch: seq<Hit>, m: Method, sb: seq<Hit>, fb: seq<Hit>, vb: seq<Hit>)
    requires Merged(acc, m, sb, fb, vb)
    requires forall h :: h in batch ==> h in BatchOf(m, sb, fb, vb)
    ensures Merged(AddBatch(acc, batch, m), m, sb, fb, vb)
    decreases |batch|
  {
    if batch != [] {
      assert batch[0] in batch;
      AddHitKeeps(acc, batch[0], m, sb, fb, vb);
      assert forall h :: h in batch[1..] ==> h in BatchOf(m, sb, fb, vb) by {
        assert forall h :: h in batch[1..] ==> h in batch;
      }
      AddBatchMerged(AddHit(acc, batch[0], m), batch[1..], m, sb, fb, vb);
    }
  }

  /** Merging a batch adds its ids and keeps the existing entries in place. */
  lemma {:induction false} AddBatchIds(acc: seq<Fused>, batch: seq<Hit>, m: Method)
    ensures Ids(AddBatch(acc, batch, m)) == Ids(acc) + HitIds(batch)
    ensures |AddBatch(acc, batch, m)| >= |acc|
    ensures forall j :: 0 <= j < |acc| ==> AddBatch(acc, batch, m)[j].id == acc[j].id
    decreases |batch|
  {
    if batch != [] {
      AddHitIds(acc, batch[0], m);
      AddBatchIds(AddHit(acc, batch[0], m), batch[1..], m);
      HitIdsCons(batch);
    }
  }

  lemma HitIdsCons(batch: seq<Hit>)
    requires batch != []
    ensures HitIds(batch) == {batch[0].id} + HitIds(batch[1..])
  {
    assert batch == [batch[0]] + batch[1..];
  }

  /** Raising the method bound keeps the merge invariant. */
  lemma MergedLater(acc: seq<Fused>, m: Method, n: Method, sb: seq<Hit>, fb: seq<Hit>, vb: seq<Hit>)
    requires Merged(acc, m, sb, fb, vb) && Rank(m) <= Rank(n)
    ensures Merged(acc, n, sb, fb, vb)
  {
  }

  /** The three batches merged in execution order. */
  function MergeAll(sb: seq<Hit>, fb: seq<Hit>, vb: seq<Hit>): seq<Fused>
  {
    AddBatch(AddBatch(AddBatch([], sb, Structured), fb, Fulltext), vb, Vector)
  }

  lemma MergeAllProps(sb: seq<Hit>, fb: seq<Hit>, vb: seq<Hit>)
    ensures Merged(MergeAll(sb, fb, vb), Vector, sb, fb, vb)
    ensures Ids(MergeAll(sb, fb, vb)) == HitIds(sb) + HitIds(fb) + HitIds(vb)
  {
    var a := AddBatch([], sb, Structured);
    AddBatchKeeps([], sb, Structured, sb, fb, vb);
    MergedLater(a, Structured, Fulltext, sb, fb, vb);
    var b := AddBatch(a, fb, Fulltext);
    AddBatchKeeps(a, fb, Fulltext, sb, fb, vb);
    MergedLater(b, Fulltext, Vector, sb, fb, vb);
    AddBatchKeeps(b, vb, Vector, sb, fb, vb);
  }

  // ---------------------------------------------------------------- fusion

  /** The largest of the scores the listed methods gave. */
  function MaxOf(scores: map<Method, real>, ms: seq<Method>): real
  {
    if ms == [] then 0.0
    else
      var here := if ms[0] in scores then scores[ms[0]] else 0.0;
      if |ms| == 1 then here
      else
        var rest := MaxOf(scores, ms[1..]);
        if here >= rest then here else rest
  }

  lemma {:induction false} MaxOfIsMax(scores: map<Method, real>, ms: seq<Method>)
    requires |ms| > 0 && forall m :: m in ms ==> m in scores
    ensures exists m :: m in ms && MaxOf(scores, ms) == scores[m]
    ensures forall m :: m in ms ==> scores[m] <= MaxOf(scores, ms)
  {
    if |ms| > 1 {
      MaxOfIsMax(scores, ms[1..]);
      assert forall m :: m in ms ==> m == ms[0] || m in ms[1..];
      var here := scores[ms[0]];
      if here < MaxOf(scores, ms[1..]) {
        var w :| w in ms[1..] && MaxOf(scores, ms[1..]) == scores[w];
        assert w in ms;
      }
    } else {
      assert forall m :: m in ms ==> m == ms[0];
      assert ms[0] in ms && MaxOf(scores, ms) == scores[ms[0]];
    }
  }

  /** `max(res["scores"].values())`. */
  function FinalScore(e: Fused): real
  {
    MaxOf(e.scores, e.methods)
  }

  /** The final score of a well-formed entry is the largest of its method scores. */
  lemma FinalScoreIsMax(e: Fused)
    requires WellFormed(e)
    ensures exists m :: m in e.methods && FinalScore(e) == e.scores[m]
    ensures forall m :: m in e.scores ==> e.scores[m] <= FinalScore(e)
  {
    MaxOfIsMax(e.scores, e.methods);
  }

  function FusedKey(e: Fused): Key
  {
    Key(FinalScore(e), None)
  }

  /** The hits a method contributes: none unless it runs and answers. */
  function Contribution(run: bool, ans: Answer<seq<Hit>>): seq<Hit>
  {
    if run && ans.Answered? then ans.value else []
  }

  /** The methods whose batch was non-empty, in execution order. */
  function Executed(s: seq<Hit>, f: seq<Hit>, v: seq<Hit>): seq<Method>
  {
    (if s != [] then [Structured] else []) + (if f != [] then [Fulltext] else []) + (if v != [] then [Vector] else [])
  }

  function TimingKeys(requested: seq<string>, query: string): set<string>
  {
    {"total"}
    + (if Runs(Structured, requested, query) then {"structured"} else {})
    + (if Runs(Fulltext, requested, query) then {"fulltext"} else {})
    + (if Runs(Vector, requested, query) then {"vector"} else {})
  }

  /** The items merged from the batches of the methods that ran. */
  function Candidates(query: string, methods: Option<seq<string>>,
                      s: Answer<seq<Hit>>, f: Answer<seq<Hit>>, v: Answer<seq<Hit>>): seq<Fused>
  {
    var req := Requested(methods);
    MergeAll(Contribution(Runs(Structured, req, query), s),
             Contribution(Runs(Fulltext, req, query), f),
             Contribution(Runs(Vector, req, query), v))
  }

  /** `search` once the three sub-query answers are known. */
  function Combine(query: string, methods: Option<seq<string>>, topK: nat,
                   s: Answer<seq<Hit>>, f: Answer<seq<Hit>>, v: Answer<seq<Hit>>): (out: Outcome)
    ensures |out.results| <= topK
    ensures "total" in out.timing
  {
    var req := Requested(methods);
    var sb := Contribution(Runs(Structured, req, query), s);
    var fb := Contribution(Runs(Fulltext, req, query), f);
    var vb := Contribution(Runs(Vector, req, query), v);
    Outcome(Ranked(sb, fb, vb, topK), TimingKeys(req, query), Executed(sb, fb, vb))
  }

  /** Merge, sort by fused score, cut at `top_k`. */
  function Ranked(sb: seq<Hit>, fb: seq<Hit>, vb: seq<Hit>, topK: nat): seq<Fused>
  {
    Take(SortDesc(MergeAll(sb, fb, vb), FusedKey), topK)
  }

  /** The contribution of each method is its batch in the merge. */
  lemma ContributionIsBatch(query: string, methods: Option<seq<string>>,
                            s: Answer<seq<Hit>>, f: Answer<seq<Hit>>, v: Answer<seq<Hit>>, m: Method)
    ensures var req := Requested(methods);
      BatchOf(m, Contribution(Runs(Structured, req, query), s),
                 Contribution(Runs(Fulltext, req, query), f),
                 Contribution(Runs(Vector, req, query), v))
      == Contribution(Runs(m, req, query), Pick(m, s, f, v))
  {
  }

  lemma RankedProps(sb: seq<Hit>, fb: seq<Hit>, vb: seq<Hit>, topK: nat)
    ensures var out := Ranked(sb, fb, vb, topK);
      && SortedDesc(out, FusedKey)
      && DistinctIds(out)
      && (forall i :: 0 <= i < |out| ==> WellFormed(out[i]))
      && (forall i, m :: 0 <= i < |out| && m in out[i].scores ==> Hit(out[i].id, out[i].scores[m]) in BatchOf(m, sb, fb, vb))
      && KeepsBest(out, MergeAll(sb, fb, vb), FusedKey)
      && (|out| < topK ==> Ids(out) == Ids(MergeAll(sb, fb, vb)))
      && (forall k :: IsPrefix(WithKey(out, FusedKey, k), WithKey(MergeAll(sb, fb, vb), FusedKey, k)))
  {
    var merged := MergeAll(sb, fb, vb);
    MergeAllProps(sb, fb, vb);
    var sorted := SortDesc(merged, FusedKey);
    CutProps(merged, sorted, Take(sorted, topK), topK, sb, fb, vb);
  }

  /** The ranked items: sorted by fused score, ties in first-seen order, one
      well-formed entry per id, every score one of the hits its method
      returned, no dropped candidate ranking above a kept one, and nothing
      dropped unless `top_k` entries are kept. */
  lemma CombineRanked(query: string, methods: Option<seq<string>>, topK: nat,
                      s: Answer<seq<Hit>>, f: Answer<seq<Hit>>, v: Answer<seq<Hit>>)
    ensures var out := Combine(query, methods, topK, s, f, v);
      && SortedDesc(out.results, FusedKey)
      && DistinctIds(out.results)
      && (forall i :: 0 <= i < |out.results| ==> WellFormed(out.results[i]))
      && (forall i, m :: 0 <= i < |out.results| && m in out.results[i].scores ==>
            Pick(m, s, f, v).Answered? && Hit(out.results[i].id, out.results[i].scores[m]) in Pick(m, s, f, v).value)
      && KeepsBest(out.results, Candidates(query, methods, s, f, v), FusedKey)
      && (|out.results| < topK ==> Ids(out.results) == Ids(Candidates(query, methods, s, f, v)))
      && (forall k :: IsPrefix(WithKey(out.results, FusedKey, k), WithKey(Candidates(query, methods, s, f, v), FusedKey, k)))
  {
    var req := Requested(methods);
    var sb := Contribution(Runs(Structured, req, query), s);
    var fb := Contribution(Runs(Fulltext, req, query), f);
    var vb := Contribution(Runs(Vector, req, query), v);
    var results := Ranked(sb, fb, vb, topK);
    assert Combine(query, methods, topK, s, f, v).results == results;
    assert Candidates(query, methods, s, f, v) == MergeAll(sb, fb, vb);
    RankedProps(sb, fb, vb, topK);
    forall i, m | 0 <= i < |results| && m in results[i].scores
      ensures Pick(m, s, f, v).Answered? && Hit(results[i].id, results[i].scores[m]) in Pick(m, s, f, v).value
    {
      ContributionIsBatch(query, methods, s, f, v, m);
      assert Hit(results[i].id, results[i].scores[m]) in BatchOf(m, sb, fb, vb);
    }
  }

  /** `methods_executed`: exactly the methods that ran, answered and found
      something, in execution order; every method credited to an item is
      among them. */
  lemma CombineExecuted(query: string, methods: Option<seq<string>>, topK: nat,
                        s: Answer<seq<Hit>>, f: Answer<seq<Hit>>, v: Answer<seq<Hit>>)
    ensures var out := Combine(query, methods, topK, s, f, v);
      && (forall m :: m in out.executed <==>
            Runs(m, Requested(methods), query) && Pick(m, s, f, v).Answered? && Pick(m, s, f, v).value != [])
      && MethodsOrdered(out.executed)
      && (forall i, m :: 0 <= i < |out.results| && m in out.results[i].methods ==> m in out.executed)
  {
    var req := Requested(methods);
    var sb := Contribution(Runs(Structured, req, query), s);
    var fb := Contribution(Runs(Fulltext, req, query), f);
    var vb := Contribution(Runs(Vector, req, query), v);
    var results := Ranked(sb, fb, vb, topK);
    var executed := Executed(sb, fb, vb);
    assert Combine(query, methods, topK, s, f, v) == Outcome(results, TimingKeys(req, query), executed);
    ExecutedProps(sb, fb, vb, topK);
    forall m ensures BatchOf(m, sb, fb, vb) != [] <==> Runs(m, req, query) && Pick(m, s, f, v).Answered? && Pick(m, s, f, v).value != [] {
      ContributionIsBatch(query, methods, s, f, v, m);
    }
  }

  /** Method `m` is neither executed nor credited to any item. */
  predicate NotCredited(out: Outcome, m: Method)
  {
    m !in out.executed && forall i :: 0 <= i < |out.results| ==> m !in out.results[i].methods
  }

  /** A method that raised or found nothing is never credited. */
  lemma CombineWithout(query: string, methods: Option<seq<string>>, topK: nat,
                       s: Answer<seq<Hit>>, f: Answer<seq<Hit>>, v: Answer<seq<Hit>>, m: Method)
    requires !(Pick(m, s, f, v).Answered? && Pick(m, s, f, v).value != [])
    ensures NotCredited(Combine(query, methods, topK, s, f, v), m)
  {
    CombineExecuted(query, methods, topK, s, f, v);
  }

  lemma ExecutedProps(sb: seq<Hit>, fb: seq<Hit>, vb: seq<Hit>, topK: nat)
    ensures forall m :: m in Executed(sb, fb, vb) <==> BatchOf(m, sb, fb, vb) != []
    ensures MethodsOrdered(Executed(sb, fb, vb))
    ensures forall i, m :: 0 <= i < |Ranked(sb, fb, vb, topK)| && m in Ranked(sb, fb, vb, topK)[i].methods ==>
      m in Executed(sb, fb, vb)
  {
    ExecutedIff(sb, fb, vb);
    RankedCredited(sb, fb, vb, topK);
  }

  lemma ExecutedIff(sb: seq<Hit>, fb: seq<Hit>, vb: seq<Hit>)
    ensures forall m :: m in Executed(sb, fb, vb) <==> BatchOf(m, sb, fb, vb) != []
    ensures MethodsOrdered(Executed(sb, fb, vb))
  {
    var e := Executed(sb, fb, vb);
    forall m ensures m in e <==> BatchOf(m, sb, fb, vb) != [] {
      match m
      case Structured =>
      case Fulltext =>
      case Vector =>
    }
  }

  lemma RankedCredited(sb: seq<Hit>, fb: seq<Hit>, vb: seq<Hit>, topK: nat)
    ensures forall i, m :: 0 <= i < |Ranked(sb, fb, vb, topK)| && m in Ranked(sb, fb, vb, topK)[i].methods ==>
      BatchOf(m, sb, fb, vb) != []
  {
    var results := Ranked(sb, fb, vb, topK);
    RankedProps(sb, fb, vb, topK);
    forall i, m | 0 <= i < |results| && m in results[i].methods ensures BatchOf(m, sb, fb, vb) != [] {
      assert m in results[i].scores;
      assert Hit(results[i].id, results[i].scores[m]) in BatchOf(m, sb, fb, vb);
    }
  }

  /** Every item's id satisfies `ok`. */
  predicate ResultsOk(results: seq<Fused>, ok: int -> bool)
  {
    forall i :: 0 <= i < |results| ==> ok(results[i].id)
  }

  /** Whatever holds of the id of every hit the sub-queries answered holds
      of every item returned. */
  lemma CombineKeepsIds(query: string, methods: Option<seq<string>>, topK: nat,
                        s: Answer<seq<Hit>>, f: Answer<seq<Hit>>, v: Answer<seq<Hit>>, ok: int -> bool)
    requires forall m, h :: Pick(m, s, f, v).Answered? && h in Pick(m, s, f, v).value ==> ok(h.id)
    ensures ResultsOk(Combine(query, methods, topK, s, f, v).results, ok)
  {
    var out := Combine(query, methods, topK, s, f, v);
    CombineRanked(query, methods, topK, s, f, v);
    forall i | 0 <= i < |out.results| ensures ok(out.results[i].id) {
      var e := out.results[i];
      var m := e.methods[0];
      assert m in e.methods && m in e.scores;
      assert Hit(e.id, e.scores[m]) in Pick(m, s, f, v).value;
    }
  }

  /** Bounds on every hit score the sub-queries answered bound every score
      an item carries, and its fused score. */
  lemma CombineKeepsScores(query: string, methods: Option<seq<string>>, topK: nat,
                           s: Answer<seq<Hit>>, f: Answer<seq<Hit>>, v: Answer<seq<Hit>>, lo: real, hi: real)
    requires forall m, h :: Pick(m, s, f, v).Answered? && h in Pick(m, s, f, v).value ==> lo <= h.score <= hi
    ensures forall i :: 0 <= i < |Combine(query, methods, topK, s, f, v).results| ==>
      var e := Combine(query, methods, topK, s, f, v).results[i];
      (forall m :: m in e.scores ==> lo <= e.scores[m] <= hi) && lo <= FinalScore(e) <= hi
  {
    var out := Combine(query, methods, topK, s, f, v);
    CombineRanked(query, methods, topK, s, f, v);
    forall i | 0 <= i < |out.results|
      ensures (forall m :: m in out.results[i].scores ==> lo <= out.results[i].scores[m] <= hi)
        && lo <= FinalScore(out.results[i]) <= hi
    {
      var e := out.results[i];
      forall m | m in e.scores ensures lo <= e.scores[m] <= hi {
        assert Hit(e.id, e.scores[m]) in Pick(m, s, f, v).value;
      }
      FinalScoreIsMax(e);
    }
  }

  /** Every hit of an answer scores at least `lo`. */
  predicate Floor(a: Answer<seq<Hit>>, lo: real)
  {
    a.Answered? ==> forall h :: h in a.value ==> lo <= h.score
  }

  /** Every item credited to method `m` carries a score of at least `lo` for it. */
  predicate MethodFloor(results: seq<Fused>, m: Method, lo: real)
  {
    forall i :: 0 <= i < |results| && m in results[i].scores ==> lo <= results[i].scores[m]
  }

  /** A lower bound on the hits one method answered bounds that method's
      score in every item. */
  lemma CombineMethodFloor(query: string, methods: Option<seq<string>>, topK: nat,
                           s: Answer<seq<Hit>>, f: Answer<seq<Hit>>, v: Answer<seq<Hit>>, m: Method, lo: real)
    requires Floor(Pick(m, s, f, v), lo)
    ensures MethodFloor(Combine(query, methods, topK, s, f, v).results, m, lo)
  {
    var out := Combine(query, methods, topK, s, f, v);
    CombineRanked(query, methods, topK, s, f, v);
    forall i | 0 <= i < |out.results| && m in out.results[i].scores ensures lo <= out.results[i].scores[m] {
      assert Hit(out.results[i].id, out.results[i].scores[m]) in Pick(m, s, f, v).value;
    }
  }

  /** When no sub-query answers with a hit, nothing is returned or credited. */
  lemma CombineNothing(query: string, methods: Option<seq<string>>, topK: nat,
                       s: Answer<seq<Hit>>, f: Answer<seq<Hit>>, v: Answer<seq<Hit>>)
    requires forall m :: Pick(m, s, f, v).Answered? ==> Pick(m, s, f, v).value == []
    ensures Combine(query, methods, topK, s, f, v).results == []
    ensures Combine(query, methods, topK, s, f, v).executed == []
  {
    var req := Requested(methods);
    assert Pick(Structured, s, f, v) == s && Pick(Fulltext, s, f, v) == f && Pick(Vector, s, f, v) == v;
    var sb := Contribution(Runs(Structured, req, query), s);
    var fb := Contribution(Runs(Fulltext, req, query), f);
    var vb := Contribution(Runs(Vector, req, query), v);
    assert sb == [] && fb == [] && vb == [];
    assert Combine(query, methods, topK, s, f, v) == Outcome(Ranked(sb, fb, vb, topK), TimingKeys(req, query), Executed(sb, fb, vb));
    assert MergeAll(sb, fb, vb) == [];
  }

  /** The timing keys: `total` plus one per method attempted. */
  lemma CombineTiming(query: string, methods: Option<seq<string>>, topK: nat,
                      s: Answer<seq<Hit>>, f: Answer<seq<Hit>>, v: Answer<seq<Hit>>)
    ensures var out := Combine(query, methods, topK, s, f, v);
      && (forall m :: Name(m) in out.timing <==> Runs(m, Requested(methods), query))
      && out.timing <= {"total", "structured", "fulltext", "vector"}
  {
    var req := Requested(methods);
    assert Combine(query, methods, topK, s, f, v).timing == TimingKeys(req, query);
    TimingKeysNamed(req, query);
  }

  lemma TimingKeysNamed(req: seq<string>, query: string)
    ensures forall m :: Name(m) in TimingKeys(req, query) <==> Runs(m, req, query)
    ensures TimingKeys(req, query) <= {"total", "structured", "fulltext", "vector"}
  {
    forall m ensures Name(m) in TimingKeys(req, query) <==> Runs(m, req, query) {
      match m
      case Structured =>
      case Fulltext =>
      case Vector =>
    }
  }

  /** The answer of method `m`. */
  function Pick(m: Method, s: Answer<seq<Hit>>, f: Answer<seq<Hit>>, v: Answer<seq<Hit>>): Answer<seq<Hit>>
  {
    match m
    case Structured => s
    case Fulltext => f
    case Vector => v
  }

  lemma CutProps(merged: seq<Fused>, sorted: seq<Fused>, results: seq<Fused>, topK: nat,
                 sb: seq<Hit>, fb: seq<Hit>, vb: seq<Hit>)
    requires Merged(merged, Vector, sb, fb, vb)
    requires sorted == SortDesc(merged, FusedKey) && results == Take(sorted, topK)
    ensures DistinctIds(results)
    ensures forall i :: 0 <= i < |results| ==> WellFormed(results[i])
    ensures forall i, m :: 0 <= i < |results| && m in results[i].scores ==>
      Hit(results[i].id, results[i].scores[m]) in BatchOf(m, sb, fb, vb)
    ensures KeepsBest(results, merged, FusedKey)
    ensures |results| < topK ==> Ids(results) == Ids(merged)
    ensures forall k :: IsPrefix(WithKey(results, FusedKey, k), WithKey(merged, FusedKey, k))
  {
    CutOf(merged, FusedKey, topK);
    forall i | 0 <= i < |results| ensures EntryOk(results[i], Vector, sb, fb, vb) {
      MemberEntryOk(merged, results[i], sb, fb, vb);
    }
    DistinctIdsOfCut(merged, sorted, results);
    if |results| < topK {
      forall e ensures e in results <==> e in merged {
        assert e in results <==> e in multiset(results);
        assert e in merged <==> e in multiset(merged);
      }
    }
  }

  lemma MemberEntryOk(merged: seq<Fused>, e: Fused, sb: seq<Hit>, fb: seq<Hit>, vb: seq<Hit>)
    requires Merged(merged, Vector, sb, fb, vb) && e in merged
    ensures EntryOk(e, Vector, sb, fb, vb)
  {
    var j :| 0 <= j < |merged| && merged[j] == e;
  }

  lemma DistinctIdsOfCut(merged: seq<Fused>, sorted: seq<Fused>, results: seq<Fused>)
    requires DistinctIds(merged)
    requires multiset(sorted) == multiset(merged)
    requires IsPrefix(results, sorted)
    ensures DistinctIds(results)
  {
    DistinctIdsPermutation(merged, sorted);
  }

  /** Distinct ids survive any reordering. */
  lemma DistinctIdsPermutation(a: seq<Fused>, b: seq<Fused>)
    requires DistinctIds(a) && multiset(a) == multiset(b)
    ensures DistinctIds(b)
  {
    AtMostOnce(a);
    forall i, j | 0 <= i < j < |b| ensures b[i].id != b[j].id {
      if b[i] == b[j] {
        TwiceCounted(b, i, j);
      } else {
        assert b[i] in multiset(a) && b[j] in multiset(a);
        assert b[i] in a && b[j] in a;
        SameIdSameEntry(a, b[i], b[j]);
      }
    }
  }

  /** In a list with distinct ids every element occurs at most once. */
  lemma {:induction false} AtMostOnce(a: seq<Fused>)
    requires DistinctIds(a)
    ensures forall e :: multiset(a)[e] <= 1
  {
    if a != [] {
      AtMostOnce(a[1..]);
      assert a == [a[0]] + a[1..];
      assert multiset(a) == multiset{a[0]} + multiset(a[1..]);
      assert forall y :: 0 <= y < |a[1..]| ==> a[1..][y] == a[y + 1];
    }
  }

  lemma SameIdSameEntry(a: seq<Fused>, e1: Fused, e2: Fused)
    requires DistinctIds(a) && e1 in a && e2 in a
    ensures e1.id == e2.id ==> e1 == e2
  {
  }

  lemma TwiceCounted(b: seq<Fused>, i: int, j: int)
    requires 0 <= i < j < |b| && b[i] == b[j]
    ensures multiset(b)[b[i]] >= 2
  {
    assert b == b[..i] + [b[i]] + b[i + 1..j] + [b[j]] + b[j + 1..];
  }
}

=== FILE: identity.dfy ===
/** The identity keys of the two tables and the migration that makes them
    unique (`002_add_unique_constraints`): it deletes every row for which a
    row with the same key and a larger id exists, then creates one unique
    index per table.

    The index columns are `digest(url, 'sha256')`; SHA-256 is taken to be
    injective, so the keys compare URLs directly. */
module Identity {
  import opened Basics
  import opened Ordering
  import opened Models

  /** The folder column of a bookmark row (history rows have none). */
  function Folder(r: Record): Option<string>
  {
    if r.detail.Saved? then r.detail.folder else None
  }

  /** The history dedup key: `url` and `browser`, compared with `IS NOT
      DISTINCT FROM`, so two NULL browsers are equal. */
  datatype HistoryKey = HistoryKey(url: string, browser: Option<string>)

  /** The bookmark key: `url`, `COALESCE(folder, '')`, `COALESCE(browser, '')`;
      the dedup and the unique index use the same one. */
  datatype BookmarkKey = BookmarkKey(url: string, folder: string, browser: string)

  function HistoryKeyOf(r: Record): HistoryKey
  {
    HistoryKey(r.url, r.browser)
  }

  function BookmarkKeyOf(r: Record): BookmarkKey
  {
    BookmarkKey(r.url, OrEmpty(Folder(r)), OrEmpty(r.browser))
  }

  /** Some row with a larger id has the same key as row `id`. */
  predicate Shadowed<K(==)>(store: Store, key: Record -> K, id: int)
    requires id in store
  {
    exists o :: o in store && id < o && key(store[o]) == key(store[id])
  }

  /** `DELETE FROM t a USING t b WHERE <same key> AND a.id < b.id`. */
  function DeleteShadowed<K(==)>(store: Store, key: Record -> K): Store
  {
    map id | id in store && !Shadowed(store, key, id) :: store[id]
  }

  function DedupHistory(store: Store): Store
  {
    DeleteShadowed(store, HistoryKeyOf)
  }

  function DedupBookmarks(store: Store): Store
  {
    DeleteShadowed(store, BookmarkKeyOf)
  }

  /** The surviving rows are unchanged rows of the input, and no two share a key. */
  lemma DeleteShadowedUnique<K>(store: Store, key: Record -> K)
    ensures var r := DeleteShadowed(store, key);
      && (forall id :: id in r ==> id in store && r[id] == store[id])
      && (forall a, b :: a in r && b in r && key(r[a]) == key(r[b]) ==> a == b)
  {
    var r := DeleteShadowed(store, key);
    forall a, b | a in r && b in r && key(r[a]) == key(r[b]) ensures a == b {
      SurvivorsDiffer(store, key, a, b);
      SurvivorsDiffer(store, key, b, a);
    }
  }

  lemma SurvivorsDiffer<K>(store: Store, key: Record -> K, a: int, b: int)
    requires a in store && b in store && !Shadowed(store, key, a)
    ensures a < b ==> key(store[b]) != key(store[a])
  {
  }

  /** Every key survives, carried by the row with the largest id among the
      rows that share it; in particular a row whose key is unique is kept. */
  lemma DeleteShadowedKeepsKeys<K>(store: Store, key: Record -> K, id: int)
    requires id in store
    ensures var r := DeleteShadowed(store, key);
      exists s :: s in r && id <= s && key(r[s]) == key(store[id])
    ensures var r := DeleteShadowed(store, key);
      id in r <==> forall o :: o in store && key(store[o]) == key(store[id]) ==> o <= id
  {
    var same := set o | o in store && key(store[o]) == key(store[id]);
    assert id in same;
    MaxExists(same);
    var s :| IsGreatest(s, same);
    forall o | o in store && s < o ensures key(store[o]) != key(store[s]) {
      assert key(store[o]) == key(store[s]) ==> o in same;
    }
    assert !Shadowed(store, key, s);
    var r := DeleteShadowed(store, key);
    assert s in r && id <= s && key(r[s]) == key(store[id]);
    if forall o :: o in store && key(store[o]) == key(store[id]) ==> o <= id {
      assert !Shadowed(store, key, id);
    }
  }

  /** Running the dedup a second time deletes nothing. */
  lemma DeleteShadowedIdempotent<K>(store: Store, key: Record -> K)
    ensures DeleteShadowed(DeleteShadowed(store, key), key) == DeleteShadowed(store, key)
  {
    var r := DeleteShadowed(store, key);
    DeleteShadowedUnique(store, key);
    forall id | id in r ensures !Shadowed(r, key, id) {
      forall o | o in r && id < o ensures key(r[o]) != key(r[id]) { }
    }
  }

  /** `uq_history_url_browser` on `(digest(url), browser)`: PostgreSQL treats
      NULLs as distinct in a unique index, so two rows conflict only when
      their URLs are equal and their browsers are the same non-NULL value. */
  predicate HistoryIndexAdmits(store: Store)
  {
    forall a, b :: a in store && b in store && a != b && store[a].url == store[b].url && store[a].browser.Some? ==>
      store[a].browser != store[b].browser
  }

  /** `uq_bookmarks_url_folder_browser`: the coalesced key is unique. */
  predicate BookmarkIndexAdmits(store: Store)
  {
    forall a, b :: a in store && b in store && a != b ==> BookmarkKeyOf(store[a]) != BookmarkKeyOf(store[b])
  }

  /** After the dedup both indexes can be created. */
  lemma MigrationSucceeds(history: Store, bookmarks: Store)
    ensures HistoryIndexAdmits(DedupHistory(history))
    ensures BookmarkIndexAdmits(DedupBookmarks(bookmarks))
  {
    DeleteShadowedUnique(history, HistoryKeyOf);
    DeleteShadowedUnique(bookmarks, BookmarkKeyOf);
  }

  /** The history index, unlike the dedup, does not merge NULL browsers: two
      rows with the same URL and no browser are admitted by the index, while
      the dedup keeps only the one with the larger id. */
  lemma HistoryNullBrowsersDistinct(x: Record, y: Record)
    requires x.id < y.id && x.url == y.url && x.browser.None? && y.browser.None?
    ensures HistoryIndexAdmits(map[x.id := x, y.id := y])
    ensures DedupHistory(map[x.id := x, y.id := y]) == map[y.id := y]
  {
    var store := map[x.id := x, y.id := y];
    assert y.id in store && x.id < y.id && HistoryKeyOf(store[y.id]) == HistoryKeyOf(store[x.id]);
    assert Shadowed(store, HistoryKeyOf, x.id);
    assert !Shadowed(store, HistoryKeyOf, y.id);
    assert DedupHistory(store).Keys == {y.id};
  }

  /** The bookmark index coalesces: a NULL folder and an empty folder for the
      same URL and browser collide. */
  lemma BookmarkNullFolderCollides(x: Record, y: Record)
    requires x.id != y.id && x.url == y.url && x.browser == y.browser
    requires Folder(x) == None && Folder(y) == Some("")
    ensures !BookmarkIndexAdmits(map[x.id := x, y.id := y])
  {
    var store := map[x.id := x, y.id := y];
    assert BookmarkKeyOf(store[x.id]) == BookmarkKeyOf(store[y.id]);
  }
}

=== FILE: models.dfy ===
/** The stored records (the `history` and `bookmarks` tables) and the
    in-memory store the rest of the model queries. */
module Models {
  import opened Basics
  import opened Ordering

  /** Length every persisted embedding must have. */
  const EMBEDDING_DIM: nat := 768

  /** Browser tag written by ingestion. */
  const BROWSER: string := "vivaldi"

  /** An instant, in microseconds since 1970-01-01T00:00:00 UTC. */
  type Instant = int

  /** The two item kinds. */
  datatype Kind = History | Bookmarks

  /** The columns in which a visit row and a bookmark row differ. */
  datatype Detail =
    | Visit(domain: Option<string>, lastVisitTime: Option<Instant>, visitCount: int)
    | Saved(folder: Option<string>, addedAt: Option<Instant>)

  /** One row of `history` (with a `Visit` detail) or `bookmarks` (with a
      `Saved` detail). The store-maintained `search_tsv` column is not a
      field: full-text matching is an oracle over the record. */
  datatype Record = Record(
    id: int,
    url: string,
    title: Option<string>,
    snippet: Option<string>,
    detail: Detail,
    browser: Option<string>,
    embedding: Option<seq<real>>,
    embeddingComputedAt: Option<Instant>,
    createdAt: Instant,
    updatedAt: Instant,
    deletedAt: Option<Instant>)
  {
    /** The recency column: `last_visit_time` for visits, `added_at` for bookmarks. */
    function Stamp(): Option<Instant>
    {
      match detail
      case Visit(_, t, _) => t
      case Saved(_, t) => t
    }

    /** The grouping and substring-filter column: `domain` or `folder`. */
    function Label(): Option<string>
    {
      match detail
      case Visit(d, _, _) => d
      case Saved(f, _) => f
    }

    predicate IsKind(k: Kind)
    {
      if k == History then detail.Visit? else detail.Saved?
    }
  }

  /** A table: rows by primary key. */
  type Store = map<int, Record>

  /** Every row is stored under its own id. */
  predicate WellKeyed(store: Store)
  {
    forall id :: id in store ==> store[id].id == id
  }

  /** Ids of the rows satisfying `pred`, ascending. */
  function Select(store: Store, pred: Record -> bool): (r: seq<int>)
    ensures forall i, j :: 0 <= i < j < |r| ==> r[i] < r[j]
    ensures forall id :: id in r <==> id in store && pred(store[id])
  {
    Keep(SortedIds(store.Keys), store, pred)
  }

  /** `Select` yields exactly as many ids as any set describing the same rows. */
  lemma SelectCount(store: Store, pred: Record -> bool, s: set<int>)
    requires forall id :: id in s <==> id in store && pred(store[id])
    ensures |Select(store, pred)| == |s|
  {
    IncreasingCard(Select(store, pred), s);
  }

  /** The elements of `ids` whose row satisfies `pred`, in order. */
  function Keep(ids: seq<int>, store: Store, pred: Record -> bool): (r: seq<int>)
    requires forall id :: id in ids ==> id in store
    requires forall i, j :: 0 <= i < j < |ids| ==> ids[i] < ids[j]
    ensures forall i, j :: 0 <= i < j < |r| ==> r[i] < r[j]
    ensures forall id :: id in r <==> id in ids && pred(store[id])
  {
    if ids == [] then []
    else
      var rest := Keep(ids[1..], store, pred);
      assert forall id :: id in rest ==> ids[0] < id by {
        forall id | id in rest ensures ids[0] < id {
          var k :| 0 <= k < |ids[1..]| && ids[1..][k] == id;
          assert ids[k + 1] == id;
        }
      }
      assert ids[0] in ids;
      forall j | 0 <= j < |rest| ensures ids[0] < rest[j] {
        assert rest[j] in rest;
      }
      if pred(store[ids[0]]) then [ids[0]] + rest else rest
  }

  /** A strictly increasing sequence has as many elements as the set of its members. */
  lemma {:induction false} IncreasingCard(s: seq<int>, members: set<int>)
    requires forall i, j :: 0 <= i < j < |s| ==> s[i] < s[j]
    requires forall x :: x in s <==> x in members
    ensures |s| == |members|
  {
    if s == [] {
      assert forall x :: x !in members;
      assert members == {};
    } else {
      var rest := members - {s[0]};
      forall x ensures x in s[1..] <==> x in rest {
        if x in s[1..] {
          var k :| 0 <= k < |s[1..]| && s[1..][k] == x;
          assert s[k + 1] == x && s[0] < x;
        }
        if x in rest {
          var k :| 0 <= k < |s| && s[k] == x;
          assert k != 0;
          assert s[1..][k - 1] == x;
        }
      }
      IncreasingCard(s[1..], rest);
    }
  }
}

=== FILE: ordering.dfy ===
/** Ordering machinery shared by every ranked list in the system.

    A `Key` is what the SQL `ORDER BY` clauses and Python's `sort(key=…,
    reverse=True)` compare: a real-valued primary component, sorted
    descending, and an optional timestamp tie-breaker sorted descending with
    NULLs last (`.desc().nullslast()`). `SortDesc` is a stable descending
    sort: equal keys keep their input order, as Python's `list.sort` promises. */
module Ordering {
  import opened Basics

  datatype Key = Key(primary: real, secondary: Option<int>)

  /** Descending order on the optional tie-breaker, NULL sorting last. */
  predicate SecondaryAtLeast(a: Option<int>, b: Option<int>)
  {
    match b
    case None => true
    case Some(y) => a.Some? && a.value >= y
  }

  /** `a` may be placed before `b` in a descending ranking. */
  predicate AtLeast(a: Key, b: Key)
  {
    a.primary > b.primary || (a.primary == b.primary && SecondaryAtLeast(a.secondary, b.secondary))
  }

  lemma AtLeastReflexive(a: Key)
    ensures AtLeast(a, a)
  {
  }

  lemma AtLeastTotal(a: Key, b: Key)
    ensures AtLeast(a, b) || AtLeast(b, a)
  {
  }

  lemma AtLeastTransitive(a: Key, b: Key, c: Key)
    requires AtLeast(a, b) && AtLeast(b, c)
    ensures AtLeast(a, c)
  {
  }

  lemma AtLeastAntisymmetric(a: Key, b: Key)
    requires AtLeast(a, b) && AtLeast(b, a)
    ensures a == b
  {
  }

  /** Every element may precede every later one. */
  predicate SortedDesc<T>(s: seq<T>, key: T -> Key)
  {
    forall i, j :: 0 <= i < j < |s| ==> AtLeast(key(s[i]), key(s[j]))
  }

  /** The elements of `s` whose key is exactly `k`, in their order in `s`. */
  function WithKey<T>(s: seq<T>, key: T -> Key, k: Key): seq<T>
  {
    if s == [] then []
    else (if key(s[0]) == k then [s[0]] else []) + WithKey(s[1..], key, k)
  }

  lemma {:induction false} WithKeyAppend<T>(a: seq<T>, b: seq<T>, key: T -> Key, k: Key)
    ensures WithKey(a + b, key, k) == WithKey(a, key, k) + WithKey(b, key, k)
  {
    if a == [] {
      assert a + b == b;
    } else {
      assert (a + b)[1..] == a[1..] + b;
      WithKeyAppend(a[1..], b, key, k);
    }
  }

  /** Places `x` in front of the first element it may precede. */
  function Insert<T(==,!new)>(x: T, s: seq<T>, key: T -> Key): (r: seq<T>)
    requires SortedDesc(s, key)
    ensures multiset(r) == multiset(s) + multiset{x}
    ensures forall y :: y in r <==> y == x || y in s
    ensures SortedDesc(r, key)
    ensures forall k :: WithKey(r, key, k) == if key(x) == k then [x] + WithKey(s, key, k) else WithKey(s, key, k)
  {
    if s == [] then
      assert [x][1..] == [];
      [x]
    else if AtLeast(key(x), key(s[0])) then
      InsertFront(x, s, key);
      [x] + s
    else
      var rest := Insert(x, s[1..], key);
      InsertBehind(x, s, rest, key);
      assert s == [s[0]] + s[1..];
      [s[0]] + rest
  }

  lemma InsertFront<T>(x: T, s: seq<T>, key: T -> Key)
    requires s != [] && SortedDesc(s, key) && AtLeast(key(x), key(s[0]))
    ensures SortedDesc([x] + s, key)
    ensures forall k :: WithKey([x] + s, key, k) == if key(x) == k then [x] + WithKey(s, key, k) else WithKey(s, key, k)
  {
    var r := [x] + s;
    forall i, j | 0 <= i < j < |r|
      ensures AtLeast(key(r[i]), key(r[j]))
    {
      if i == 0 {
        AtLeastReflexive(key(s[0]));
        if j > 1 { AtLeastTransitive(key(x), key(s[0]), key(s[j - 1])); }
      }
    }
    forall k
      ensures WithKey(r, key, k) == if key(x) == k then [x] + WithKey(s, key, k) else WithKey(s, key, k)
    {
      assert r[1..] == s;
    }
  }

  lemma InsertBehind<T(!new)>(x: T, s: seq<T>, rest: seq<T>, key: T -> Key)
    requires s != [] && SortedDesc(s, key) && !AtLeast(key(x), key(s[0]))
    requires forall y :: y in rest <==> y == x || y in s[1..]
    requires SortedDesc(rest, key)
    requires forall k :: WithKey(rest, key, k) == if key(x) == k then [x] + WithKey(s[1..], key, k) else WithKey(s[1..], key, k)
    ensures SortedDesc([s[0]] + rest, key)
    ensures forall k :: WithKey([s[0]] + rest, key, k) == if key(x) == k then [x] + WithKey(s, key, k) else WithKey(s, key, k)
  {
    var r := [s[0]] + rest;
    AtLeastTotal(key(x), key(s[0]));
    forall i, j | 0 <= i < j < |r|
      ensures AtLeast(key(r[i]), key(r[j]))
    {
      if i == 0 {
        assert r[j] in rest;
        if r[j] != x {
          var m :| 0 <= m < |s[1..]| && s[1..][m] == r[j];
          assert s[m + 1] == r[j];
        }
      }
    }
    forall k
      ensures WithKey(r, key, k) == if key(x) == k then [x] + WithKey(s, key, k) else WithKey(s, key, k)
    {
      assert r[1..] == rest;
      assert s == [s[0]] + s[1..];
      WithKeyAppend([s[0]], s[1..], key, k);
      assert [s[0]][1..] == [];
      if key(x) == k {
        AtLeastReflexive(k);
        assert key(s[0]) != k;
      }
    }
  }

  /** Stable descending sort (insertion sort). */
  function SortDesc<T(==,!new)>(s: seq<T>, key: T -> Key): (r: seq<T>)
    ensures multiset(r) == multiset(s)
    ensures |r| == |s|
    ensures SortedDesc(r, key)
    ensures forall k :: WithKey(r, key, k) == WithKey(s, key, k)
  {
    if s == [] then []
    else
      var rest := SortDesc(s[1..], key);
      var r := Insert(s[0], rest, key);
      SortStep(s, rest, r, key);
      r
  }

  lemma SortStep<T>(s: seq<T>, rest: seq<T>, r: seq<T>, key: T -> Key)
    requires s != []
    requires multiset(rest) == multiset(s[1..])
    requires forall k :: WithKey(rest, key, k) == WithKey(s[1..], key, k)
    requires multiset(r) == multiset(rest) + multiset{s[0]}
    requires forall k :: WithKey(r, key, k) == if key(s[0]) == k then [s[0]] + WithKey(rest, key, k) else WithKey(rest, key, k)
    ensures multiset(r) == multiset(s)
    ensures forall k :: WithKey(r, key, k) == WithKey(s, key, k)
  {
    assert s == [s[0]] + s[1..];
  }

  /** The elements of a ranking that do not make the cut rank no higher than
      any element that does. */
  lemma TakeKeepsBest<T>(r: seq<T>, key: T -> Key, n: nat, i: int, j: int)
    requires SortedDesc(r, key)
    requires 0 <= i < Min(n, |r|) && Min(n, |r|) <= j < |r|
    ensures AtLeast(key(Take(r, n)[i]), key(r[j]))
  {
  }

  /** No element of `s` left out of `r` ranks above an element of `r`. */
  predicate KeepsBest<T(==)>(r: seq<T>, s: seq<T>, key: T -> Key)
  {
    forall x, i :: x in s && x !in r && 0 <= i < |r| ==> AtLeast(key(r[i]), key(x))
  }

  /** Cutting a descending sort keeps the best elements. */
  lemma CutKeepsBest<T(!new)>(s: seq<T>, key: T -> Key, n: nat)
    ensures KeepsBest(Take(SortDesc(s, key), n), s, key)
  {
    var sorted := SortDesc(s, key);
    var r := Take(sorted, n);
    assert forall t :: 0 <= t < |r| ==> sorted[t] in r by {
      forall t | 0 <= t < |r| ensures sorted[t] in r { assert r[t] == sorted[t]; }
    }
    forall x, i | x in s && x !in r && 0 <= i < |r| ensures AtLeast(key(r[i]), key(x)) {
      assert x in multiset(s);
      var j :| 0 <= j < |sorted| && sorted[j] == x;
      TakeKeepsBest(sorted, key, n, i, j);
    }
  }

  /** The first `n` of a descending sort: as many as there are up to `n`,
      in order, drawn from the list, none left out ranking above one kept,
      all of it when it is no longer than `n`, and for each key a prefix of
      the elements with that key, in their input order. */
  lemma CutOf<T(!new)>(s: seq<T>, key: T -> Key, n: nat)
    ensures var r := Take(SortDesc(s, key), n);
      && |r| == Min(n, |s|)
      && SortedDesc(r, key)
      && (forall i :: 0 <= i < |r| ==> r[i] in s)
      && KeepsBest(r, s, key)
      && (|s| <= n ==> multiset(r) == multiset(s))
      && (forall k :: IsPrefix(WithKey(r, key, k), WithKey(s, key, k)))
  {
    var sorted := SortDesc(s, key);
    var r := Take(sorted, n);
    CutKeepsBest(s, key, n);
    forall i | 0 <= i < |r| ensures r[i] in s {
      assert r[i] == sorted[i] && sorted[i] in multiset(sorted);
    }
    forall k ensures IsPrefix(WithKey(r, key, k), WithKey(s, key, k)) {
      assert sorted == r + sorted[|r|..];
      WithKeyAppend(r, sorted[|r|..], key, k);
    }
  }

  /** The first `n` of a descending sort of a list without repeats: drawn
      from the list, without repeats, in order, and all of it when fewer
      than `n` come back. */
  lemma TopOf<T(!new)>(s: seq<T>, key: T -> Key, n: nat)
    requires Distinct(s)
    ensures var r := Take(SortDesc(s, key), n);
      && (forall i :: 0 <= i < |r| ==> r[i] in s)
      && Distinct(r)
      && SortedDesc(r, key)
      && (|r| < n ==> forall x :: x in s ==> x in r)
  {
    var sorted := SortDesc(s, key);
    forall x ensures x in sorted <==> x in s {
      assert x in sorted <==> x in multiset(sorted);
      assert x in s <==> x in multiset(s);
    }
    DistinctPermutation(s, sorted);
    var r := Take(sorted, n);
    forall i | 0 <= i < |r| ensures r[i] in s {
      assert r[i] == sorted[i] && sorted[i] in sorted;
    }
    if |r| < n {
      assert r == sorted;
    }
  }

  /** Every non-empty set of integers has a least member. */
  lemma {:induction false} MinExists(s: set<int>)
    requires s != {}
    ensures exists m :: IsLeast(m, s)
    decreases |s|
  {
    if forall y :: y !in s {
      assert false;
    }
    var x :| x in s;
    if s == {x} {
      assert IsLeast(x, s);
    } else {
      MinExists(s - {x});
      var m :| IsLeast(m, s - {x});
      var b := if x < m then x else m;
      forall y | y in s ensures b <= y {
        if y != x { assert y in s - {x}; }
      }
      assert IsLeast(b, s);
    }
  }
  /** `m` is the smallest member of `s`. */
  predicate IsLeast(m: int, s: set<int>) { m in s && forall y :: y in s ==> m <= y }

  function Least(s: set<int>): (m: int)
    requires s != {}
    ensures IsLeast(m, s)
  {
    MinExists(s);
    var m :| IsLeast(m, s);
    m
  }
  /** `m` is the largest member of `s`. */
  predicate IsGreatest(m: int, s: set<int>) { m in s && forall y :: y in s ==> y <= m }

  /** Every non-empty set of integers has a largest member. */
  lemma {:induction false} MaxExists(s: set<int>)
    requires s != {}
    ensures exists m :: IsGreatest(m, s)
    decreases |s|
  {
    if forall y :: y !in s {
      assert false;
    }
    var x :| x in s;
    if s == {x} {
      assert IsGreatest(x, s);
    } else {
      MaxExists(s - {x});
      var m :| IsGreatest(m, s - {x});
      var b := if x > m then x else m;
      forall y | y in s ensures y <= b {
        if y != x { assert y in s - {x}; }
      }
      assert IsGreatest(b, s);
    }
  }

  /** The members of a set of ids in ascending order: the order in which the
      model enumerates a table whose `ORDER BY` leaves ties unspecified. */
  function SortedIds(s: set<int>): (r: seq<int>)
    ensures forall i, j :: 0 <= i < j < |r| ==> r[i] < r[j]
    ensures forall x :: x in r <==> x in s
    ensures |r| == |s|
    decreases |s|
  {
    if s == {} then []
    else
      var m := Least(s);
      var rest := SortedIds(s - {m});
      assert forall x :: x in rest ==> m < x;
      [m] + rest
  }

  /** In a list without repeats every element is counted at most once. */
  lemma {:induction false} CountAtMostOne<T>(a: seq<T>)
    requires Distinct(a)
    ensures forall x :: multiset(a)[x] <= 1
  {
    if a != [] {
      CountAtMostOne(a[1..]);
      assert a == [a[0]] + a[1..];
      assert multiset(a) == multiset{a[0]} + multiset(a[1..]);
      assert forall y :: 0 <= y < |a[1..]| ==> a[1..][y] == a[y + 1];
    }
  }

  /** Reordering a list without repeats cannot create one. */
  lemma DistinctPermutation<T>(a: seq<T>, b: seq<T>)
    requires Distinct(a) && multiset(a) == multiset(b)
    ensures Distinct(b)
  {
    CountAtMostOne(a);
    forall i, j | 0 <= i < j < |b| ensures b[i] != b[j] {
      RepeatCounted(b, i, j);
    }
  }

  lemma RepeatCounted<T>(b: seq<T>, i: int, j: int)
    requires 0 <= i < j < |b|
    ensures b[i] == b[j] ==> multiset(b)[b[i]] >= 2
  {
    assert b == b[..i] + [b[i]] + b[i + 1..j] + [b[j]] + b[j + 1..];
  }
}

=== FILE: reader.dfy ===
/** The pure part of the Vivaldi reader: Chromium timestamps, the
    post-processing of the rows read from the `History` database, the walk
    over the `Bookmarks` tree and the choice of its roots. The SQLite query
    and the JSON parsing are left to the caller: their results are the
    inputs here. */
module Reader {
  import opened Basics
  import opened Text
  import opened Models

  /** Seconds from 1601-01-01 to 1970-01-01, both UTC. */
  const CHROMIUM_EPOCH_OFFSET_SEC: nat := 11_644_473_600

  /** The same offset in microseconds, the unit of an `Instant`. */
  const OFFSET_US: nat := CHROMIUM_EPOCH_OFFSET_SEC * 1_000_000

  /** Values of `date_added` above this are Chromium microseconds. */
  const CHROMIUM_THRESHOLD: nat := 1_000_000_000_000

  // ---------------------------------------------------------------- time

  /** `_chromium_time_to_utc`: microseconds since 1601 to an instant, with
      NULL and non-positive values giving `None`. */
  function ChromiumTime(us: Option<int>): (t: Option<Instant>)
    ensures t.Some? <==> us.Some? && us.value > 0
  {
    if us.None? || us.value <= 0 then None else Some(us.value - OFFSET_US)
  }

  /** The Chromium timestamp of an instant. */
  function ToChromium(t: Instant): int
  {
    t + OFFSET_US
  }

  /** Every instant after 1601 is read back from its Chromium timestamp, and
      the Chromium timestamp of the Unix epoch is the offset itself. */
  lemma ChromiumRoundTrip(t: Instant)
    requires t > -(OFFSET_US as int)
    ensures ChromiumTime(Some(ToChromium(t))) == Some(t)
    ensures ChromiumTime(Some(OFFSET_US)) == Some(0)
  {
  }

  /** The conversion keeps the order of positive timestamps. */
  lemma ChromiumTimeMonotone(a: int, b: int)
    requires 0 < a < b
    ensures ChromiumTime(Some(a)).value < ChromiumTime(Some(b)).value
  {
  }

  // ---------------------------------------------------------------- history

  /** One row of the `urls` query: NULL columns are `None`. */
  datatype RawVisit = RawVisit(url: Option<string>, title: Option<string>, visitCount: Option<int>, lastVisitTime: Option<int>)

  /** The dictionary `read_history` produces for a row. */
  datatype HistoryRow = HistoryRow(url: string, title: Option<string>, lastVisitTime: Option<Instant>, visitCount: int, domain: string)

  /** The row is skipped: its URL is NULL or whitespace only. */
  predicate BlankUrl(r: RawVisit)
  {
    IsBlank(OrEmpty(r.url))
  }

  /** Python `x or 0` on a nullable integer. */
  function OrZero(v: Option<int>): int
  {
    if v.None? then 0 else v.value
  }

  /** The stripped text, or `None` when nothing is left (`s.strip() or None`). */
  function Cleaned(s: Option<string>): (r: Option<string>)
    ensures r.None? <==> IsBlank(OrEmpty(s))
    ensures r.Some? ==> r.value == Strip(OrEmpty(s)) && Strip(r.value) == r.value
  {
    StripIdempotent(OrEmpty(s));
    OrNone(Strip(OrEmpty(s)))
  }

  /** The record built from a row that is kept. The domain comes from
      `urlparse`, which is a parameter here. */
  function ShapeVisit(r: RawVisit, domainOf: string -> string): (v: HistoryRow)
    requires !BlankUrl(r)
    ensures v.url != [] && Strip(v.url) == v.url && v.url == Strip(OrEmpty(r.url))
    ensures v.title.None? <==> IsBlank(OrEmpty(r.title))
    ensures v.title.Some? ==> v.title.value != [] && Strip(v.title.value) == v.title.value
    ensures v.visitCount == (if r.visitCount == Some(0) || r.visitCount.None? then 0 else r.visitCount.value)
    ensures v.lastVisitTime.Some? <==> r.lastVisitTime.Some? && r.lastVisitTime.value > 0
    ensures v.domain == domainOf(v.url)
  {
    StripIdempotent(OrEmpty(r.url));
    var url := Strip(OrEmpty(r.url));
    HistoryRow(url, Cleaned(r.title), ChromiumTime(r.lastVisitTime), OrZero(r.visitCount), domainOf(url))
  }

  /** The post-processing loop of `read_history`: each row in turn is
      skipped or appended. */
  function ReadHistory(rows: seq<RawVisit>, domainOf: string -> string): seq<HistoryRow>
  {
    FilterMap(rows, r => !BlankUrl(r), r requires !BlankUrl(r) => ShapeVisit(r, domainOf))
  }

  /** `[f(x) for x in s if keep(x)]`, built from the back. */
  function FilterMap<A(!new), B>(s: seq<A>, keep: A -> bool, f: A --> B): seq<B>
    requires forall x :: keep(x) ==> f.requires(x)
  {
    if s == [] then []
    else FilterMap(s[..|s| - 1], keep, f) + (if keep(s[|s| - 1]) then [f(s[|s| - 1])] else [])
  }

  /** The positions of the elements of `s` that `keep` accepts, in order. */
  function Positions<T>(s: seq<T>, keep: T -> bool): seq<nat>
  {
    if s == [] then []
    else Positions(s[..|s| - 1], keep) + (if keep(s[|s| - 1]) then [|s| - 1] else [])
  }

  /** The positions are increasing, and a position is listed iff `keep`
      accepts its element. */
  lemma {:induction false} PositionsFacts<T>(s: seq<T>, keep: T -> bool)
    ensures var idx := Positions(s, keep);
      && (forall i :: 0 <= i < |idx| ==> idx[i] < |s| && keep(s[idx[i]]))
      && (forall i, j :: 0 <= i < j < |idx| ==> idx[i] < idx[j])
      && (forall j :: 0 <= j < |s| ==> (j in idx <==> keep(s[j])))
    decreases |s|
  {
    if s != [] {
      var init := s[..|s| - 1];
      PositionsFacts(init, keep);
      var prev := Positions(init, keep);
      var idx := Positions(s, keep);
      assert forall j :: 0 <= j < |init| ==> init[j] == s[j];
      assert forall i :: 0 <= i < |prev| ==> idx[i] == prev[i];
      forall j | 0 <= j < |s| ensures j in idx <==> keep(s[j]) {
        if j < |init| {
          assert j in idx <==> j in prev;
        }
      }
    }
  }

  /** The output of a filter-map is `f` of the kept elements, in order. */
  lemma {:induction false} FilterMapFacts<A(!new), B>(s: seq<A>, keep: A -> bool, f: A --> B)
    requires forall x :: keep(x) ==> f.requires(x)
    ensures var out := FilterMap(s, keep, f);
      var idx := Positions(s, keep);
      && |out| == |idx|
      && forall i :: 0 <= i < |out| ==> idx[i] < |s| && keep(s[idx[i]]) && out[i] == f(s[idx[i]])
    decreases |s|
  {
    PositionsFacts(s, keep);
    if s != [] {
      var init := s[..|s| - 1];
      FilterMapFacts(init, keep, f);
      PositionsFacts(init, keep);
      assert forall j :: 0 <= j < |init| ==> init[j] == s[j];
    }
  }

  lemma {:induction false} FilterMapAppend<A(!new), B>(a: seq<A>, b: seq<A>, keep: A -> bool, f: A --> B)
    requires forall x :: keep(x) ==> f.requires(x)
    ensures FilterMap(a + b, keep, f) == FilterMap(a, keep, f) + FilterMap(b, keep, f)
    decreases |b|
  {
    if b != [] {
      var b' := b[..|b| - 1];
      FilterMapAppend(a, b', keep, f);
      assert (a + b)[..|a + b| - 1] == a + b';
      assert (a + b)[|a + b| - 1] == b[|b| - 1];
    } else {
      assert a + b == a;
    }
  }

  /** The positions of the rows that are kept. */
  function KeptRows(rows: seq<RawVisit>): seq<nat>
  {
    Positions(rows, r => !BlankUrl(r))
  }

  /** The output is exactly the kept rows, shaped, in input order: the
      `i`-th record comes from the `i`-th row with a non-blank URL. */
  lemma ReadHistorySpec(rows: seq<RawVisit>, domainOf: string -> string)
    ensures var out := ReadHistory(rows, domainOf);
      var idx := KeptRows(rows);
      && |out| == |idx|
      && (forall i, j :: 0 <= i < j < |idx| ==> idx[i] < idx[j])
      && (forall j :: 0 <= j < |rows| ==> (j in idx <==> !BlankUrl(rows[j])))
      && forall i :: 0 <= i < |out| ==> idx[i] < |rows| && !BlankUrl(rows[idx[i]]) && out[i] == ShapeVisit(rows[idx[i]], domainOf)
  {
    PositionsFacts(rows, r => !BlankUrl(r));
    FilterMapFacts(rows, r => !BlankUrl(r), r requires !BlankUrl(r) => ShapeVisit(r, domainOf));
  }

  /** Rows are processed one by one: reading two batches of rows gives the
      two outputs one after the other. */
  lemma ReadHistoryAppend(a: seq<RawVisit>, b: seq<RawVisit>, domainOf: string -> string)
    ensures ReadHistory(a + b, domainOf) == ReadHistory(a, domainOf) + ReadHistory(b, domainOf)
  {
    FilterMapAppend(a, b, r => !BlankUrl(r), r requires !BlankUrl(r) => ShapeVisit(r, domainOf));
  }

  // ---------------------------------------------------------------- bookmarks

  /** A node's `"url"` entry: the key may be missing, or present and null. */
  datatype UrlEntry = NoUrlKey | UrlKey(url: Option<string>)

  /** A node's `date_added` entry as the JSON decoder produced it. `Other`
      stands for a float, list or object. */
  datatype DateAdded = Absent | JsonBool(flag: bool) | JsonInt(n: int) | JsonText(s: string) | Other

  /** A node of the bookmark tree: a missing or null `title` is `None`, and
      missing or null `children` the empty list. */
  datatype Node = Node(title: Option<string>, url: UrlEntry, dateAdded: DateAdded, children: seq<Node>)

  /** The dictionary `_walk_bookmarks` produces for a leaf. */
  datatype BookmarkRow = BookmarkRow(url: string, title: Option<string>, folder: Option<string>, addedAt: Option<Instant>)

  /** `date_added` as an integer, if it is one: a string of digits is
      converted, and a JSON boolean is a Python `int`. */
  function DateNumber(d: DateAdded): Option<int>
  {
    match d
    case JsonInt(n) => Some(n)
    case JsonBool(flag) => Some(if flag then 1 else 0)
    case JsonText(s) => if AllDigits(s) then Some(DigitsValue(s)) else None
    case _ => None
  }

  /** The timestamp of a leaf: above 10^12 the value is Chromium
      microseconds, otherwise milliseconds since the Unix epoch. */
  function AddedAt(d: DateAdded): Option<Instant>
  {
    match DateNumber(d)
    case None => None
    case Some(n) => if n > CHROMIUM_THRESHOLD then ChromiumTime(Some(n)) else Some(n * 1000)
  }

  /** Which unit a value is read in, for every kind of `date_added`. */
  lemma AddedAtUnits(d: DateAdded)
    ensures d.JsonInt? && d.n > CHROMIUM_THRESHOLD ==> AddedAt(d) == Some(d.n - OFFSET_US)
    ensures d.JsonInt? && d.n <= CHROMIUM_THRESHOLD ==> AddedAt(d).Some? && AddedAt(d).value / 1000 == d.n
    ensures d.JsonText? ==> (AddedAt(d).Some? <==> AllDigits(d.s))
    ensures d.JsonText? && AllDigits(d.s) ==> AddedAt(d) == AddedAt(JsonInt(DigitsValue(d.s)))
    ensures d.JsonBool? ==> AddedAt(d) == Some(if d.flag then 1000 else 0)
    ensures d.Absent? || d.Other? ==> AddedAt(d).None?
  {
  }

  /** The path a folder hands to its children. */
  function ChildPath(folderPath: string, title: string): string
  {
    if folderPath != "" then folderPath + "/" + title else title
  }

  /** `_walk_bookmarks`: a node with a `"url"` key is a leaf and yields one
      record when its stripped URL is non-empty; any other node is a folder
      whose children are walked in order. */
  function Walk(n: Node, folderPath: string): seq<BookmarkRow>
    decreases n
  {
    var title := Strip(OrEmpty(n.title));
    if n.url.UrlKey? then
      var url := Strip(OrEmpty(n.url.url));
      if url != "" then [BookmarkRow(url, OrNone(title), OrNone(folderPath), AddedAt(n.dateAdded))] else []
    else WalkAll(n.children, ChildPath(folderPath, title))
  }

  function WalkAll(ns: seq<Node>, folderPath: string): seq<BookmarkRow>
    decreases ns
  {
    if ns == [] then [] else Walk(ns[0], folderPath) + WalkAll(ns[1..], folderPath)
  }

  predicate IsLeaf(n: Node)
  {
    n.url.UrlKey?
  }

  /** A leaf yields exactly one record iff its stripped URL is non-empty,
      and its children are never looked at. */
  lemma LeafYields(n: Node, folderPath: string, children: seq<Node>)
    requires IsLeaf(n)
    ensures |Walk(n, folderPath)| <= 1
    ensures |Walk(n, folderPath)| == 1 <==> !IsBlank(OrEmpty(n.url.url))
    ensures Walk(n.(children := children), folderPath) == Walk(n, folderPath)
  {
  }

  /** Walking a list of siblings is walking each in turn: the output is in
      pre-order. */
  lemma {:induction false} WalkAllAppend(a: seq<Node>, b: seq<Node>, folderPath: string)
    ensures WalkAll(a + b, folderPath) == WalkAll(a, folderPath) + WalkAll(b, folderPath)
    decreases |a|
  {
    if a == [] {
      assert a + b == b;
    } else {
      assert (a + b)[0] == a[0] && (a + b)[1..] == a[1..] + b;
      WalkAllAppend(a[1..], b, folderPath);
    }
  }

  /** A leaf under a chain of folders titled `ts`, outermost first: each
      folder has the next one as its only child. */
  function Nest(ts: seq<Option<string>>, leaf: Node): Node
    decreases |ts|
  {
    if ts == [] then leaf else Node(ts[0], NoUrlKey, Absent, [Nest(ts[1..], leaf)])
  }

  /** `/t1/t2/.../tn` for the stripped titles `ts`. */
  function Suffix(ts: seq<Option<string>>): string
    decreases |ts|
  {
    if ts == [] then "" else "/" + Strip(OrEmpty(ts[0])) + Suffix(ts[1..])
  }

  /** A folder with one child yields what the child yields under the
      folder's path. */
  lemma OnlyChildWalk(n: Node, p: string)
    requires !IsLeaf(n) && |n.children| == 1
    ensures Walk(n, p) == Walk(n.children[0], ChildPath(p, Strip(OrEmpty(n.title))))
  {
    var q := ChildPath(p, Strip(OrEmpty(n.title)));
    assert n.children[1..] == [];
    assert WalkAll(n.children, q) == Walk(n.children[0], q) + WalkAll([], q);
  }

  /** Regrouping a path: `(p + "/" + t) + rest` is `p + ("/" + t + rest)`.
      Stated apart so that it is proved outside the walk's context. */
  lemma RegroupPath(p: string, t: string, rest: string)
    ensures (p + "/" + t) + rest == p + ("/" + t + rest)
  {
  }

  /** Walking the chain from a non-empty path is walking the leaf from the
      path extended by every title. */
  lemma {:induction false} NestWalk(ts: seq<Option<string>>, leaf: Node, p: string)
    requires p != ""
    ensures Walk(Nest(ts, leaf), p) == Walk(leaf, p + Suffix(ts))
    decreases |ts|
  {
    if ts == [] {
      assert p + Suffix(ts) == p;
    } else {
      var t := Strip(OrEmpty(ts[0]));
      var q := p + "/" + t;
      OnlyChildWalk(Nest(ts, leaf), p);
      NestWalk(ts[1..], leaf, q);
      assert Suffix(ts) == "/" + t + Suffix(ts[1..]);
      RegroupPath(p, t, Suffix(ts[1..]));
    }
  }

  /** Paths compose: a bookmark reached from the root path `p` through folders
      titled `t1 ... tn` is filed under `p/t1/.../tn`, each title stripped
      and an empty title kept as an empty segment. Its URL and title are
      stripped and its date converted. */
  lemma NestedFolderPath(ts: seq<Option<string>>, leaf: Node, p: string)
    requires p != "" && IsLeaf(leaf) && !IsBlank(OrEmpty(leaf.url.url))
    ensures Walk(Nest(ts, leaf), p)
      == [BookmarkRow(Strip(OrEmpty(leaf.url.url)), Cleaned(leaf.title), Some(p + Suffix(ts)), AddedAt(leaf.dateAdded))]
  {
    NestWalk(ts, leaf, p);
    var f := p + Suffix(ts);
    assert f != "" by {
      assert f[..|p|] == p;
    }
  }

  /** `f` is the folder `p` or lies somewhere below it. */
  predicate Under(f: string, p: string)
  {
    f == p || p + "/" <= f
  }

  lemma UnderParent(f: string, p: string, t: string)
    requires Under(f, p + "/" + t)
    ensures Under(f, p)
  {
    var q := p + "/" + t;
    assert (p + "/") <= q by {
      assert q[..|p| + 1] == p + "/";
    }
    if f != q {
      assert q + "/" <= f;
      assert (q + "/")[..|p| + 1] == p + "/";
    }
  }

  /** Below a non-empty path, every record carries a folder under that path. */
  lemma {:induction false} WalkUnder(n: Node, folderPath: string)
    requires folderPath != ""
    ensures forall i :: 0 <= i < |Walk(n, folderPath)| ==>
      Walk(n, folderPath)[i].folder.Some? && Under(Walk(n, folderPath)[i].folder.value, folderPath)
    decreases n
  {
    if !IsLeaf(n) {
      var t := Strip(OrEmpty(n.title));
      var cp := folderPath + "/" + t;
      WalkAllUnder(n.children, cp);
      forall i | 0 <= i < |Walk(n, folderPath)|
        ensures Walk(n, folderPath)[i].folder.Some? && Under(Walk(n, folderPath)[i].folder.value, folderPath)
      {
        UnderParent(Walk(n, folderPath)[i].folder.value, folderPath, t);
      }
    }
  }

  lemma {:induction false} WalkAllUnder(ns: seq<Node>, folderPath: string)
    requires folderPath != ""
    ensures forall i :: 0 <= i < |WalkAll(ns, folderPath)| ==>
      WalkAll(ns, folderPath)[i].folder.Some? && Under(WalkAll(ns, folderPath)[i].folder.value, folderPath)
    decreases ns
  {
    if ns != [] {
      WalkUnder(ns[0], folderPath);
      WalkAllUnder(ns[1..], folderPath);
    }
  }

  /** What every record of the walk satisfies: a non-empty stripped URL, a
      title that is stripped and non-empty when present, a non-empty folder
      when present. */
  predicate Clean(r: BookmarkRow)
  {
    && r.url != [] && Strip(r.url) == r.url
    && (r.title.Some? ==> r.title.value != [] && Strip(r.title.value) == r.title.value)
    && (r.folder.Some? ==> r.folder.value != [])
  }

  lemma {:induction false} WalkClean(n: Node, folderPath: string)
    ensures forall i :: 0 <= i < |Walk(n, folderPath)| ==> Clean(Walk(n, folderPath)[i])
    decreases n
  {
    if IsLeaf(n) {
      StripIdempotent(OrEmpty(n.url.url));
      StripIdempotent(OrEmpty(n.title));
    } else {
      WalkAllClean(n.children, ChildPath(folderPath, Strip(OrEmpty(n.title))));
    }
  }

  lemma {:induction false} WalkAllClean(ns: seq<Node>, folderPath: string)
    ensures forall i :: 0 <= i < |WalkAll(ns, folderPath)| ==> Clean(WalkAll(ns, folderPath)[i])
    decreases ns
  {
    if ns != [] {
      WalkClean(ns[0], folderPath);
      WalkAllClean(ns[1..], folderPath);
    }
  }

  /** A record with its folder forgotten. */
  function NoFolder(items: seq<BookmarkRow>): (r: seq<BookmarkRow>)
    ensures |r| == |items|
    ensures forall i :: 0 <= i < |items| ==> r[i] == items[i].(folder := None)
  {
    seq(|items|, i requires 0 <= i < |items| => items[i].(folder := None))
  }

  /** The path reaches only the folders: walking the same tree under another
      path yields the same records, in the same order, with the same URLs,
      titles and timestamps. */
  lemma {:induction false} WalkIgnoresPath(n: Node, p: string, q: string)
    ensures NoFolder(Walk(n, p)) == NoFolder(Walk(n, q))
    decreases n
  {
    if !IsLeaf(n) {
      var t := Strip(OrEmpty(n.title));
      WalkAllIgnoresPath(n.children, ChildPath(p, t), ChildPath(q, t));
    }
  }

  lemma {:induction false} WalkAllIgnoresPath(ns: seq<Node>, p: string, q: string)
    ensures NoFolder(WalkAll(ns, p)) == NoFolder(WalkAll(ns, q))
    decreases ns
  {
    if ns != [] {
      WalkIgnoresPath(ns[0], p, q);
      WalkAllIgnoresPath(ns[1..], p, q);
      NoFolderAppend(Walk(ns[0], p), WalkAll(ns[1..], p));
      NoFolderAppend(Walk(ns[0], q), WalkAll(ns[1..], q));
    }
  }

  lemma NoFolderAppend(a: seq<BookmarkRow>, b: seq<BookmarkRow>)
    ensures NoFolder(a + b) == NoFolder(a) + NoFolder(b)
  {
  }

  // ---------------------------------------------------------------- roots

  /** The roots `read_bookmarks` visits, in order. */
  const RootKeys: seq<string> := ["bookmark_bar", "other", "synced"]

  predicate IsAsciiLetter(c: char)
  {
    'a' <= c <= 'z' || 'A' <= c <= 'Z'
  }

  function UpperChar(c: char): char
  {
    if 'a' <= c <= 'z' then (c as int - 32) as char else c
  }

  /** Python `str.title` on ASCII text: a letter is upper-cased after a
      non-letter and lower-cased after a letter. */
  function TitleCase(s: string, afterLetter: bool): (r: string)
    ensures |r| == |s|
  {
    if s == [] then []
    else
      var c := s[0];
      [if !IsAsciiLetter(c) then c else if afterLetter then LowerChar(c) else UpperChar(c)]
        + TitleCase(s[1..], IsAsciiLetter(c))
  }

  /** The path a root starts with. */
  function RootFolder(key: string): string
  {
    if key == "bookmark_bar" then "Bookmarks bar" else TitleCase(ReplaceChar(key, '_', " "), false)
  }

  /** The three roots start at "Bookmarks bar", "Other" and "Synced". */
  lemma RootFolderNames()
    ensures RootFolder(RootKeys[0]) == "Bookmarks bar"
    ensures RootFolder(RootKeys[1]) == "Other"
    ensures RootFolder(RootKeys[2]) == "Synced"
  {
    OtherName();
    SyncedName();
  }

  lemma OtherName()
    ensures RootFolder("other") == "Other"
  {
    assert "other"[0] != "bookmark_bar"[0];
    assert "other"[1..] == "ther";
    PlainRootFolder("other", "Other");
  }

  lemma SyncedName()
    ensures RootFolder("synced") == "Synced"
  {
    assert "synced"[0] != "bookmark_bar"[0];
    assert "synced"[1..] == "ynced";
    PlainRootFolder("synced", "Synced");
  }

  /** A root key other than the bookmark bar that is one lower-case word
      names its root with that word capitalised. */
  lemma PlainRootFolder(key: string, name: string)
    requires key != "bookmark_bar"
    requires key != [] && forall i :: 0 <= i < |key| ==> 'a' <= key[i] <= 'z'
    requires name == [UpperChar(key[0])] + key[1..]
    ensures RootFolder(key) == name
  {
    assert '_' !in key;
    Capitalized(key);
  }

  /** A word of lower-case letters is title-cased by upper-casing its first letter. */
  lemma Capitalized(s: string)
    requires s != [] && forall i :: 0 <= i < |s| ==> 'a' <= s[i] <= 'z'
    ensures TitleCase(s, false) == [UpperChar(s[0])] + s[1..]
  {
    LowerTail(s[1..]);
  }

  /** After a letter, lower-case letters are left alone. */
  lemma {:induction false} LowerTail(s: string)
    requires forall i :: 0 <= i < |s| ==> 'a' <= s[i] <= 'z'
    ensures TitleCase(s, true) == s
    decreases |s|
  {
    if s != [] {
      LowerTail(s[1..]);
    }
  }

  /** The roots in `keys`, in order; a missing or null root is skipped. */
  function ReadRoots(roots: map<string, Node>, keys: seq<string>): seq<BookmarkRow>
  {
    ConcatMap(keys, key => RootRecords(roots, key))
  }

  /** The concatenation of `f(x)` over `xs`. */
  function ConcatMap<A, B>(xs: seq<A>, f: A -> seq<B>): seq<B>
  {
    if xs == [] then [] else f(xs[0]) + ConcatMap(xs[1..], f)
  }

  lemma ConcatMapThree<A, B>(a: A, b: A, c: A, f: A -> seq<B>)
    ensures ConcatMap([a, b, c], f) == f(a) + f(b) + f(c)
  {
    assert [a, b, c][1..] == [b, c];
    assert [b, c][1..] == [c];
    assert [c][1..] == [];
    assert ConcatMap([c], f) == f(c);
    assert ConcatMap([b, c], f) == f(b) + f(c);
  }

  /** `read_bookmarks` after the file is parsed: `roots` maps each present,
      non-null entry of `"roots"` to its node. */
  function ReadBookmarks(roots: map<string, Node>): seq<BookmarkRow>
  {
    ReadRoots(roots, RootKeys)
  }

  /** Which root a folder lies under: 0, 1 or 2 in visiting order. */
  function RootIndex(f: string): nat
  {
    if Under(f, "Bookmarks bar") then 0 else if Under(f, "Other") then 1 else 2
  }

  /** A path under one root is under no other. */
  lemma RootsApart(f: string)
    ensures Under(f, "Other") ==> !Under(f, "Bookmarks bar")
    ensures Under(f, "Synced") ==> !Under(f, "Bookmarks bar") && !Under(f, "Other")
  {
    if Under(f, "Other") { assert f[0] == 'O'; }
    if Under(f, "Synced") { assert f[0] == 'S'; }
  }

  /** The records a root yields, or none when the root is missing. */
  function RootRecords(roots: map<string, Node>, key: string): seq<BookmarkRow>
  {
    if key in roots then Walk(roots[key], RootFolder(key)) else []
  }

  /** Every record of a root is clean and lies under that root's path. */
  lemma RootRecordsUnder(roots: map<string, Node>, key: string, name: string, i: nat)
    requires i < 3 && key == RootKeys[i] && name == RootFolder(key)
    requires name == ["Bookmarks bar", "Other", "Synced"][i]
    ensures OfRoot(RootRecords(roots, key), i)
  {
    if key in roots {
      var part := Walk(roots[key], name);
      WalkUnder(roots[key], name);
      WalkClean(roots[key], name);
      forall j | 0 <= j < |part| ensures RootIndex(part[j].folder.value) == i {
        RootsApart(part[j].folder.value);
      }
    }
  }

  /** The output is the records of the three roots, one root after another. */
  lemma ReadBookmarksParts(roots: map<string, Node>)
    ensures ReadBookmarks(roots)
      == RootRecords(roots, "bookmark_bar") + RootRecords(roots, "other") + RootRecords(roots, "synced")
  {
    ConcatMapThree("bookmark_bar", "other", "synced", key => RootRecords(roots, key));
  }

  /** Every record is clean and lies under one of the three roots, and the
      records of the bookmark bar come first, then those of "Other", then
      those of "Synced". */
  lemma ReadBookmarksOrder(roots: map<string, Node>)
    ensures var out := ReadBookmarks(roots);
      && (forall j :: 0 <= j < |out| ==> Clean(out[j]) && out[j].folder.Some?)
      && (forall j, k :: 0 <= j < k < |out| ==> RootIndex(out[j].folder.value) <= RootIndex(out[k].folder.value))
  {
    RootFolderNames();
    RootRecordsUnder(roots, "bookmark_bar", "Bookmarks bar", 0);
    RootRecordsUnder(roots, "other", "Other", 1);
    RootRecordsUnder(roots, "synced", "Synced", 2);
    ReadBookmarksParts(roots);
    ThreeParts(RootRecords(roots, "bookmark_bar"), RootRecords(roots, "other"), RootRecords(roots, "synced"));
  }

  /** All clean records of root 0, then of root 1, then of root 2. */
  predicate OfRoot(p: seq<BookmarkRow>, i: nat)
  {
    forall j :: 0 <= j < |p| ==> Clean(p[j]) && p[j].folder.Some? && RootIndex(p[j].folder.value) == i
  }

  lemma ThreeParts(p0: seq<BookmarkRow>, p1: seq<BookmarkRow>, p2: seq<BookmarkRow>)
    requires OfRoot(p0, 0) && OfRoot(p1, 1) && OfRoot(p2, 2)
    ensures var out := p0 + p1 + p2;
      && (forall j :: 0 <= j < |out| ==> Clean(out[j]) && out[j].folder.Some?)
      && (forall j, k :: 0 <= j < k < |out| ==> RootIndex(out[j].folder.value) <= RootIndex(out[k].folder.value))
  {
    var out := p0 + p1 + p2;
    forall j | 0 <= j < |out|
      ensures Clean(out[j]) && out[j].folder.Some?
      ensures RootIndex(out[j].folder.value) == (if j < |p0| then 0 else if j < |p0| + |p1| then 1 else 2)
    {
      if j < |p0| {
        assert out[j] == p0[j];
      } else if j < |p0| + |p1| {
        assert out[j] == p1[j - |p0|];
      } else {
        assert out[j] == p2[j - |p0| - |p1|];
      }
    }
  }

  /** Entries of `"roots"` other than the three are never read. */
  lemma ReadBookmarksOnlyRoots(roots: map<string, Node>)
    ensures ReadBookmarks(roots) == ReadBookmarks(map k | k in roots && k in RootKeys :: roots[k])
  {
    var kept := map k | k in roots && k in RootKeys :: roots[k];
    ReadBookmarksParts(roots);
    ReadBookmarksParts(kept);
    assert RootRecords(roots, "bookmark_bar") == RootRecords(kept, "bookmark_bar");
    assert RootRecords(roots, "other") == RootRecords(kept, "other");
    assert RootRecords(roots, "synced") == RootRecords(kept, "synced");
  }
}

=== FILE: retrieval.dfy ===
/** `HybridHistorySearchEngine` and `HybridBookmarkSearchEngine`: the three
    sub-queries, `search`, `count` and `aggregate` over one table.

    The two engines differ only in the kind-specific columns (`domain` and
    `last_visit_time` against `folder` and `added_at`), which `Record.Label`
    and `Record.Stamp` select, and in the name of the substring-filter field,
    which `LabelField` selects. The full-text match and rank and the cosine
    distance are Postgres functions and are supplied by a `Backend`. */
module Retrieval {
  import opened Basics
  import opened Text
  import opened Ordering
  import opened Models
  import opened Dates
  import opened Filters
  import opened Fusion

  /** The embedding service as `encode_sync` sees a single string: whether an
      endpoint is configured, and what the endpoint answers. */
  datatype Encoder = Encoder(configured: bool, remote: string -> Answer<seq<real>>)

  function Zeros(n: nat): (r: seq<real>)
    ensures |r| == n && forall i :: 0 <= i < n ==> r[i] == 0.0
  {
    seq(n, _ => 0.0)
  }

  /** `encode_sync(text)`: the empty text is the zero vector without a request,
      no endpoint raises, otherwise the endpoint answers. */
  function EncodeQuery(e: Encoder, text: string): Answer<seq<real>>
  {
    if text == "" then Answered(Zeros(EMBEDDING_DIM))
    else if !e.configured then Raised
    else e.remote(text)
  }

  /** The database-side functions a search consults. */
  datatype Backend = Backend(
    cal: Calendar,
    tsMatch: (Record, string) -> bool,         // search_tsv IS NOT NULL AND search_tsv @@ plainto_tsquery('simple', q)
    tsRank: (Record, string) -> real,          // ts_rank_cd(search_tsv, plainto_tsquery('simple', q))
    distance: (seq<real>, seq<real>) -> real,  // pgvector cosine distance
    encoder: Encoder)

  // ---------------------------------------------------------------- scores

  /** Score of the `i`-th row of the structured ranking. */
  function StructuredScore(i: nat): (r: real)
    ensures 0.3 <= r <= 1.0
    ensures i == 0 ==> r == 1.0
  {
    var decayed := 1.0 - (i as real) * 0.03;
    if 0.3 >= decayed then 0.3 else decayed
  }

  /** The structured score never rises with rank, falls by 0.03 per place
      down to rank 23, and is 0.3 from rank 24 on. */
  lemma StructuredScoreDecays(i: nat, j: nat)
    requires i <= j
    ensures StructuredScore(j) <= StructuredScore(i)
    ensures i <= 23 ==> StructuredScore(i) == 1.0 - (i as real) * 0.03
    ensures i >= 24 ==> StructuredScore(i) == 0.3
  {
  }

  /** A full-text rank clamped to [0.1, 1]. */
  function FulltextScore(rank: real): (r: real)
    ensures 0.1 <= r <= 1.0
    ensures 0.1 <= rank <= 1.0 ==> r == rank
  {
    if rank >= 1.0 then 1.0 else if rank <= 0.1 then 0.1 else rank
  }

  lemma FulltextScoreMonotone(a: real, b: real)
    requires a <= b
    ensures FulltextScore(a) <= FulltextScore(b)
  {
  }

  /** A cosine distance turned into a similarity clamped to [0, 1]. */
  function VectorScore(d: real): (r: real)
    ensures 0.0 <= r <= 1.0
    ensures 0.0 <= d <= 1.0 ==> r == 1.0 - d
  {
    if 1.0 - d <= 0.0 then 0.0 else if 1.0 - d >= 1.0 then 1.0 else 1.0 - d
  }

  lemma VectorScoreAntitone(a: real, b: real)
    requires a <= b
    ensures VectorScore(b) <= VectorScore(a)
  {
  }

  // ---------------------------------------------------------------- ranking

  /** `WHERE pred ORDER BY key LIMIT limit` over a table: the ids of at most
      `limit` qualifying rows, best first, none better left out. */
  function Ranking(store: Store, pred: Record -> bool, key: int -> Key, limit: nat): seq<int>
  {
    Take(SortDesc(Select(store, pred), key), limit)
  }

  lemma RankingSpec(store: Store, pred: Record -> bool, key: int -> Key, limit: nat)
    ensures var r := Ranking(store, pred, key, limit);
      && |r| <= limit
      && (forall i :: 0 <= i < |r| ==> r[i] in store && pred(store[r[i]]))
      && Distinct(r)
      && SortedDesc(r, key)
      && (|r| < limit ==> forall id :: id in store && pred(store[id]) ==> id in r)
      && (forall id, i :: id in store && pred(store[id]) && id !in r && 0 <= i < |r| ==> AtLeast(key(r[i]), key(id)))
  {
    var all := Select(store, pred);
    var r := Take(SortDesc(all, key), limit);
    assert Distinct(all);
    TopOf(all, key, limit);
    CutKeepsBest(all, key, limit);
    Selected(store, pred, all, r);
  }

  lemma Selected(store: Store, pred: Record -> bool, all: seq<int>, r: seq<int>)
    requires forall id :: id in all <==> id in store && pred(store[id])
    requires forall i :: 0 <= i < |r| ==> r[i] in all
    ensures forall i :: 0 <= i < |r| ==> r[i] in store && pred(store[r[i]])
  {
    forall i | 0 <= i < |r| ensures r[i] in store && pred(store[r[i]]) {
      var id := r[i];
      assert id in all;
      assert id in store && pred(store[id]);
    }
  }

  /** Pairs each ranked id with the score its method gives it. */
  function Scored(ranked: seq<int>, score: (nat, int) -> real): (hits: seq<Hit>)
    ensures |hits| == |ranked|
    ensures forall i :: 0 <= i < |hits| ==> hits[i] == Hit(ranked[i], score(i, ranked[i]))
  {
    seq(|ranked|, i requires 0 <= i < |ranked| => Hit(ranked[i], score(i, ranked[i])))
  }

  function StampOf(store: Store, id: int): Option<Instant>
  {
    if id in store then store[id].Stamp() else None
  }

  // ---------------------------------------------------------------- sub-queries

  /** `ORDER BY stamp DESC NULLS LAST`. */
  function RecencyKey(store: Store): int -> Key
  {
    id => Key(0.0, StampOf(store, id))
  }

  /** `_structured(filters, limit)`. */
  function StructuredHits(store: Store, conds: seq<Cond>, limit: nat): seq<Hit>
  {
    Scored(Ranking(store, r => Passes(conds, r), RecencyKey(store), limit), StructuredAt)
  }

  function StructuredAt(i: nat, id: int): real
  {
    StructuredScore(i)
  }

  /** Structured hits are scored by position: the first 1.0, each later one
      no higher than any before it. */
  lemma StructuredScoresFall(ranked: seq<int>)
    ensures var hits := Scored(ranked, StructuredAt);
      && (forall i :: 0 <= i < |hits| ==> hits[i].id == ranked[i] && hits[i].score == StructuredScore(i))
      && (forall i, j :: 0 <= i < j < |hits| ==> hits[j].score <= hits[i].score)
  {
    var hits := Scored(ranked, StructuredAt);
    forall i, j | 0 <= i < j < |hits| ensures hits[j].score <= hits[i].score {
      StructuredScoreDecays(i, j);
    }
  }

  function RankOf(b: Backend, store: Store, query: string, id: int): real
  {
    if id in store then b.tsRank(store[id], query) else 0.0
  }

  /** `ORDER BY rank DESC, stamp DESC NULLS LAST`. */
  function RankKey(b: Backend, store: Store, query: string): int -> Key
  {
    id => Key(RankOf(b, store, query, id), StampOf(store, id))
  }

  /** The full-text predicate: the filters and a match of the query. */
  predicate TextMatch(b: Backend, conds: seq<Cond>, query: string, r: Record)
  {
    Passes(conds, r) && b.tsMatch(r, query)
  }

  /** `_fulltext(query, filters, limit)`. */
  function FulltextHits(b: Backend, store: Store, conds: seq<Cond>, query: string, limit: nat): seq<Hit>
  {
    Scored(Ranking(store, r => TextMatch(b, conds, query, r), RankKey(b, store, query), limit),
           (i: nat, id: int) => FulltextScore(RankOf(b, store, query, id)))
  }

  function DistanceOf(b: Backend, store: Store, qv: seq<real>, id: int): real
  {
    if id in store && store[id].embedding.Some? then b.distance(store[id].embedding.value, qv) else 0.0
  }

  /** `ORDER BY distance, stamp DESC NULLS LAST`: the nearest first. */
  function NearnessKey(b: Backend, store: Store, qv: seq<real>): int -> Key
  {
    id => Key(-DistanceOf(b, store, qv, id), StampOf(store, id))
  }

  /** The vector predicate: the filters and a stored embedding. */
  predicate Embedded(conds: seq<Cond>, r: Record)
  {
    Passes(conds, r) && r.embedding.Some?
  }

  predicate HasNonZero(v: seq<real>)
  {
    exists i :: 0 <= i < |v| && v[i] != 0.0
  }

  /** `_vector(query, filters, limit)` given the compiled filters: the query
      is embedded first, an empty or all-zero embedding gives no hits before
      the filters are looked at, a malformed filter then raises, and so does
      executing the statement when the embedding is not `EMBEDDING_DIM` long
      (the `Vector(EMBEDDING_DIM)` column type rejects the bound parameter,
      whether or not any row matches). */
  function VectorAnswer(b: Backend, store: Store, compiled: Result<seq<Cond>>, query: string, limit: nat): Answer<seq<Hit>>
  {
    match EncodeQuery(b.encoder, query)
    case Raised => Raised
    case Answered(qv) =>
      if !HasNonZero(qv) then Answered([])
      else if compiled.Err? then Raised
      else if |qv| != EMBEDDING_DIM then Raised
      else Answered(Scored(Ranking(store, r => Embedded(compiled.value, r), NearnessKey(b, store, qv), limit),
                           (i: nat, id: int) => VectorScore(DistanceOf(b, store, qv, id))))
  }

  /** The three sub-query answers; `_apply_*_filters` raising on a malformed
      date makes the structured and full-text queries raise. */
  function StructuredAnswer(store: Store, compiled: Result<seq<Cond>>, limit: nat): Answer<seq<Hit>>
  {
    if compiled.Err? then Raised else Answered(StructuredHits(store, compiled.value, limit))
  }

  function FulltextAnswer(b: Backend, store: Store, compiled: Result<seq<Cond>>, query: string, limit: nat): Answer<seq<Hit>>
  {
    if compiled.Err? then Raised else Answered(FulltextHits(b, store, compiled.value, query, limit))
  }

  // ---------------------------------------------------------------- search

  /** `search(query, methods, filters, top_k)` of the engine for kind `k`
      over its table `store`; each sub-query asks for `top_k * 2` rows. */
  function Search(k: Kind, b: Backend, store: Store, query: string, methods: Option<seq<string>>,
                  filters: seq<Clause>, topK: nat): (out: Outcome)
    ensures |out.results| <= topK
  {
    var compiled := Compile(k, b.cal, filters);
    var limit := topK * 2;
    Combine(query, methods, topK,
            StructuredAnswer(store, compiled, limit),
            FulltextAnswer(b, store, compiled, query, limit),
            VectorAnswer(b, store, compiled, query, limit))
  }

  /** The row behind an id is stored, not soft-deleted, and satisfies every
      filter clause. */
  predicate Qualifies(k: Kind, cal: Calendar, store: Store, filters: seq<Clause>, id: int)
  {
    id in store && store[id].deletedAt.None?
    && forall i :: 0 <= i < |filters| ==> ClauseHolds(k, cal, filters[i], store[id])
  }

  predicate HitsQualify(k: Kind, cal: Calendar, store: Store, filters: seq<Clause>, ans: Answer<seq<Hit>>)
  {
    ans.Answered? ==> forall h :: h in ans.value ==> Qualifies(k, cal, store, filters, h.id)
  }

  lemma RankingQualifies(k: Kind, cal: Calendar, store: Store, filters: seq<Clause>,
                         pred: Record -> bool, key: int -> Key, limit: nat, score: (nat, int) -> real)
    requires Compile(k, cal, filters).Ok?
    requires forall r :: pred(r) ==> Passes(Compile(k, cal, filters).value, r)
    ensures HitsQualify(k, cal, store, filters, Answered(Scored(Ranking(store, pred, key, limit), score)))
  {
    var ranked := Ranking(store, pred, key, limit);
    RankingSpec(store, pred, key, limit);
    forall i | 0 <= i < |ranked| ensures Qualifies(k, cal, store, filters, ranked[i]) {
      CompileSound(k, cal, filters, store[ranked[i]]);
    }
    ScoredIds(ranked, score, id => Qualifies(k, cal, store, filters, id));
  }

  lemma ScoredIds(ranked: seq<int>, score: (nat, int) -> real, ok: int -> bool)
    requires forall i :: 0 <= i < |ranked| ==> ok(ranked[i])
    ensures forall h :: h in Scored(ranked, score) ==> ok(h.id)
  {
    var hits := Scored(ranked, score);
    forall h | h in hits ensures ok(h.id) {
      var i :| 0 <= i < |hits| && hits[i] == h;
    }
  }

  lemma AnswersQualify(k: Kind, b: Backend, store: Store, query: string, filters: seq<Clause>, limit: nat)
    ensures var compiled := Compile(k, b.cal, filters);
      && HitsQualify(k, b.cal, store, filters, StructuredAnswer(store, compiled, limit))
      && HitsQualify(k, b.cal, store, filters, FulltextAnswer(b, store, compiled, query, limit))
      && HitsQualify(k, b.cal, store, filters, VectorAnswer(b, store, compiled, query, limit))
  {
    StructuredQualifies(k, b.cal, store, filters, limit);
    FulltextQualifies(k, b, store, query, filters, limit);
    VectorQualifies(k, b, store, query, filters, limit);
  }

  lemma StructuredQualifies(k: Kind, cal: Calendar, store: Store, filters: seq<Clause>, limit: nat)
    ensures HitsQualify(k, cal, store, filters, StructuredAnswer(store, Compile(k, cal, filters), limit))
  {
    var compiled := Compile(k, cal, filters);
    if compiled.Ok? {
      var conds := compiled.value;
      RankingQualifies(k, cal, store, filters, r => Passes(conds, r), RecencyKey(store), limit, StructuredAt);
    }
  }

  lemma FulltextQualifies(k: Kind, b: Backend, store: Store, query: string, filters: seq<Clause>, limit: nat)
    ensures HitsQualify(k, b.cal, store, filters, FulltextAnswer(b, store, Compile(k, b.cal, filters), query, limit))
  {
    var compiled := Compile(k, b.cal, filters);
    if compiled.Ok? {
      var conds := compiled.value;
      RankingQualifies(k, b.cal, store, filters, r => TextMatch(b, conds, query, r), RankKey(b, store, query), limit,
                       (i: nat, id: int) => FulltextScore(RankOf(b, store, query, id)));
    }
  }

  lemma VectorQualifies(k: Kind, b: Backend, store: Store, query: string, filters: seq<Clause>, limit: nat)
    ensures HitsQualify(k, b.cal, store, filters, VectorAnswer(b, store, Compile(k, b.cal, filters), query, limit))
  {
    var compiled := Compile(k, b.cal, filters);
    if compiled.Ok? {
      var conds := compiled.value;
      match EncodeQuery(b.encoder, query)
      case Raised =>
      case Answered(qv) =>
        if HasNonZero(qv) && |qv| == EMBEDDING_DIM {
          RankingQualifies(k, b.cal, store, filters, r => Embedded(conds, r), NearnessKey(b, store, qv), limit,
                           (i: nat, id: int) => VectorScore(DistanceOf(b, store, qv, id)));
        }
    }
  }

  /** Every item a search returns is a stored row that is not soft-deleted
      and satisfies every filter clause. */
  lemma SearchSound(k: Kind, b: Backend, store: Store, query: string, methods: Option<seq<string>>,
                    filters: seq<Clause>, topK: nat)
    ensures var out := Search(k, b, store, query, methods, filters, topK);
      forall i :: 0 <= i < |out.results| ==> Qualifies(k, b.cal, store, filters, out.results[i].id)
  {
    var compiled := Compile(k, b.cal, filters);
    var limit := topK * 2;
    var s := StructuredAnswer(store, compiled, limit);
    var f := FulltextAnswer(b, store, compiled, query, limit);
    var v := VectorAnswer(b, store, compiled, query, limit);
    AnswersQualify(k, b, store, query, filters, limit);
    CombineQualifies(k, b.cal, store, filters, query, methods, topK, s, f, v);
    SearchIsCombine(k, b, store, query, methods, filters, topK);
  }

  /** Fusing answers whose hits all qualify yields items that all qualify. */
  lemma CombineQualifies(k: Kind, cal: Calendar, store: Store, filters: seq<Clause>,
                         query: string, methods: Option<seq<string>>, topK: nat,
                         s: Answer<seq<Hit>>, f: Answer<seq<Hit>>, v: Answer<seq<Hit>>)
    requires HitsQualify(k, cal, store, filters, s)
    requires HitsQualify(k, cal, store, filters, f)
    requires HitsQualify(k, cal, store, filters, v)
    ensures forall i :: 0 <= i < |Combine(query, methods, topK, s, f, v).results| ==>
      Qualifies(k, cal, store, filters, Combine(query, methods, topK, s, f, v).results[i].id)
  {
    var ok := id => Qualifies(k, cal, store, filters, id);
    forall m, h | Pick(m, s, f, v).Answered? && h in Pick(m, s, f, v).value ensures ok(h.id) {
      assert HitsQualify(k, cal, store, filters, Pick(m, s, f, v));
    }
    CombineKeepsIds(query, methods, topK, s, f, v, ok);
  }

  /** A malformed date filter makes every sub-query raise (or, for the vector
      query, find nothing): the search returns no items and no executed
      methods but still reports the timing of every method it attempted. */
  lemma SearchMalformedFilter(k: Kind, b: Backend, store: Store, query: string, methods: Option<seq<string>>,
                              filters: seq<Clause>, topK: nat)
    requires exists i :: 0 <= i < |filters| && Malformed(k, b.cal, filters[i])
    ensures var out := Search(k, b, store, query, methods, filters, topK);
      out.results == [] && out.executed == []
      && forall m :: Name(m) in out.timing <==> Runs(m, Requested(methods), query)
  {
    var compiled := Compile(k, b.cal, filters);
    var limit := topK * 2;
    var s := StructuredAnswer(store, compiled, limit);
    var f := FulltextAnswer(b, store, compiled, query, limit);
    var v := VectorAnswer(b, store, compiled, query, limit);
    CombineNothing(query, methods, topK, s, f, v);
    CombineTiming(query, methods, topK, s, f, v);
    SearchIsCombine(k, b, store, query, methods, filters, topK);
  }

  /** A query whose embedding is empty or all zeros never credits the
      vector method. */
  lemma ZeroEmbeddingSkipsVector(k: Kind, b: Backend, store: Store, query: string, methods: Option<seq<string>>,
                                 filters: seq<Clause>, topK: nat)
    requires EncodeQuery(b.encoder, query).Answered? && !HasNonZero(EncodeQuery(b.encoder, query).value)
    ensures var out := Search(k, b, store, query, methods, filters, topK);
      Vector !in out.executed && forall i :: 0 <= i < |out.results| ==> Vector !in out.results[i].methods
  {
    var compiled := Compile(k, b.cal, filters);
    var limit := topK * 2;
    var v := VectorAnswer(b, store, compiled, query, limit);
    VectorSkipped(b, store, compiled, query, limit);
    NoVectorHits(query, methods, topK, StructuredAnswer(store, compiled, limit),
                 FulltextAnswer(b, store, compiled, query, limit), v);
    SearchIsCombine(k, b, store, query, methods, filters, topK);
    assert NotCredited(Search(k, b, store, query, methods, filters, topK), Vector);
  }

  lemma NoVectorHits(query: string, methods: Option<seq<string>>, topK: nat,
                     s: Answer<seq<Hit>>, f: Answer<seq<Hit>>, v: Answer<seq<Hit>>)
    requires !(v.Answered? && v.value != [])
    ensures NotCredited(Combine(query, methods, topK, s, f, v), Vector)
  {
    CombineWithout(query, methods, topK, s, f, v, Vector);
  }

  /** A query embedding of the wrong length makes the vector sub-query
      raise: the method is timed but never credited. */
  lemma WrongDimensionSkipsVector(k: Kind, b: Backend, store: Store, query: string, methods: Option<seq<string>>,
                                  filters: seq<Clause>, topK: nat)
    requires EncodeQuery(b.encoder, query).Answered? && |EncodeQuery(b.encoder, query).value| != EMBEDDING_DIM
    ensures var out := Search(k, b, store, query, methods, filters, topK);
      Vector !in out.executed && forall i :: 0 <= i < |out.results| ==> Vector !in out.results[i].methods
  {
    var compiled := Compile(k, b.cal, filters);
    var limit := topK * 2;
    var v := VectorAnswer(b, store, compiled, query, limit);
    VectorRaisesOrEmpty(b, store, compiled, query, limit);
    NoVectorHits(query, methods, topK, StructuredAnswer(store, compiled, limit),
                 FulltextAnswer(b, store, compiled, query, limit), v);
    SearchIsCombine(k, b, store, query, methods, filters, topK);
    assert NotCredited(Search(k, b, store, query, methods, filters, topK), Vector);
  }

  lemma VectorRaisesOrEmpty(b: Backend, store: Store, compiled: Result<seq<Cond>>, query: string, limit: nat)
    requires EncodeQuery(b.encoder, query).Answered? && |EncodeQuery(b.encoder, query).value| != EMBEDDING_DIM
    ensures !(VectorAnswer(b, store, compiled, query, limit).Answered? && VectorAnswer(b, store, compiled, query, limit).value != [])
  {
  }

  lemma VectorSkipped(b: Backend, store: Store, compiled: Result<seq<Cond>>, query: string, limit: nat)
    requires EncodeQuery(b.encoder, query).Answered? && !HasNonZero(EncodeQuery(b.encoder, query).value)
    ensures VectorAnswer(b, store, compiled, query, limit) == Answered([])
  {
  }

  lemma ScoredBounded(ranked: seq<int>, score: (nat, int) -> real, lo: real, hi: real)
    requires forall i, id :: lo <= score(i, id) <= hi
    ensures forall h :: h in Scored(ranked, score) ==> lo <= h.score <= hi
  {
  }

  predicate ScoresWithin(ans: Answer<seq<Hit>>, lo: real, hi: real)
  {
    ans.Answered? ==> forall h :: h in ans.value ==> lo <= h.score <= hi
  }

  /** Structured hits score in [0.3, 1], full-text hits in [0.1, 1] and
      vector hits in [0, 1]. */
  lemma AnswersBounded(b: Backend, store: Store, compiled: Result<seq<Cond>>, query: string, limit: nat)
    ensures ScoresWithin(StructuredAnswer(store, compiled, limit), 0.3, 1.0)
    ensures ScoresWithin(FulltextAnswer(b, store, compiled, query, limit), 0.1, 1.0)
    ensures ScoresWithin(VectorAnswer(b, store, compiled, query, limit), 0.0, 1.0)
  {
    StructuredBounded(store, compiled, limit);
    FulltextBounded(b, store, compiled, query, limit);
    VectorBounded(b, store, compiled, query, limit);
  }

  lemma StructuredBounded(store: Store, compiled: Result<seq<Cond>>, limit: nat)
    ensures ScoresWithin(StructuredAnswer(store, compiled, limit), 0.3, 1.0)
  {
    if compiled.Ok? {
      var conds := compiled.value;
      ScoredBounded(Ranking(store, r => Passes(conds, r), RecencyKey(store), limit),
                    StructuredAt, 0.3, 1.0);
    }
  }

  lemma FulltextBounded(b: Backend, store: Store, compiled: Result<seq<Cond>>, query: string, limit: nat)
    ensures ScoresWithin(FulltextAnswer(b, store, compiled, query, limit), 0.1, 1.0)
  {
    if compiled.Ok? {
      var conds := compiled.value;
      ScoredBounded(Ranking(store, r => TextMatch(b, conds, query, r), RankKey(b, store, query), limit),
                    (i: nat, id: int) => FulltextScore(RankOf(b, store, query, id)), 0.1, 1.0);
    }
  }

  lemma VectorBounded(b: Backend, store: Store, compiled: Result<seq<Cond>>, query: string, limit: nat)
    ensures ScoresWithin(VectorAnswer(b, store, compiled, query, limit), 0.0, 1.0)
  {
    if compiled.Ok? {
      var conds := compiled.value;
      match EncodeQuery(b.encoder, query)
      case Raised =>
      case Answered(qv) =>
        if HasNonZero(qv) && |qv| == EMBEDDING_DIM {
          var ranked := Ranking(store, r => Embedded(conds, r), NearnessKey(b, store, qv), limit);
          var score := (i: nat, id: int) => VectorScore(DistanceOf(b, store, qv, id));
          assert VectorAnswer(b, store, compiled, query, limit) == Answered(Scored(ranked, score));
          assert forall i, id :: 0.0 <= score(i, id) <= 1.0;
          ScoredBounded(ranked, score, 0.0, 1.0);
        }
    }
  }

  /** Every score an item carries lies in [0, 1], and so does its fused
      score. */
  lemma SearchScoresBounded(k: Kind, b: Backend, store: Store, query: string, methods: Option<seq<string>>,
                            filters: seq<Clause>, topK: nat)
    ensures var out := Search(k, b, store, query, methods, filters, topK);
      forall i :: 0 <= i < |out.results| ==>
        (forall m :: m in out.results[i].scores ==> 0.0 <= out.results[i].scores[m] <= 1.0)
        && 0.0 <= FinalScore(out.results[i]) <= 1.0
  {
    var compiled := Compile(k, b.cal, filters);
    var limit := topK * 2;
    var s := StructuredAnswer(store, compiled, limit);
    var f := FulltextAnswer(b, store, compiled, query, limit);
    var v := VectorAnswer(b, store, compiled, query, limit);
    AnswersBounded(b, store, compiled, query, limit);
    Widen(s, 0.3, 1.0, 0.0, 1.0);
    Widen(f, 0.1, 1.0, 0.0, 1.0);
    PickWithin(s, f, v, 0.0, 1.0);
    CombineKeepsScores(query, methods, topK, s, f, v, 0.0, 1.0);
    SearchIsCombine(k, b, store, query, methods, filters, topK);
  }

  lemma SearchIsCombine(k: Kind, b: Backend, store: Store, query: string, methods: Option<seq<string>>,
                        filters: seq<Clause>, topK: nat)
    ensures var compiled := Compile(k, b.cal, filters);
      Search(k, b, store, query, methods, filters, topK)
      == Combine(query, methods, topK, StructuredAnswer(store, compiled, topK * 2),
                 FulltextAnswer(b, store, compiled, query, topK * 2), VectorAnswer(b, store, compiled, query, topK * 2))
  {
  }

  lemma Widen(a: Answer<seq<Hit>>, lo: real, hi: real, lo2: real, hi2: real)
    requires ScoresWithin(a, lo, hi) && lo2 <= lo && hi <= hi2
    ensures ScoresWithin(a, lo2, hi2)
  {
  }

  lemma PickWithin(s: Answer<seq<Hit>>, f: Answer<seq<Hit>>, v: Answer<seq<Hit>>, lo: real, hi: real)
    requires ScoresWithin(s, lo, hi) && ScoresWithin(f, lo, hi) && ScoresWithin(v, lo, hi)
    ensures forall m, h :: Pick(m, s, f, v).Answered? && h in Pick(m, s, f, v).value ==> lo <= h.score <= hi
  {
    forall m, h | Pick(m, s, f, v).Answered? && h in Pick(m, s, f, v).value ensures lo <= h.score <= hi {
      match m
      case Structured =>
      case Fulltext =>
      case Vector =>
    }
  }

  /** A structured score is at least 0.3 and a full-text score at least 0.1. */
  lemma SearchScoreFloors(k: Kind, b: Backend, store: Store, query: string, methods: Option<seq<string>>,
                          filters: seq<Clause>, topK: nat)
    ensures var out := Search(k, b, store, query, methods, filters, topK);
      forall i :: 0 <= i < |out.results| ==>
        (Structured in out.results[i].scores ==> out.results[i].scores[Structured] >= 0.3)
        && (Fulltext in out.results[i].scores ==> out.results[i].scores[Fulltext] >= 0.1)
  {
    var compiled := Compile(k, b.cal, filters);
    var limit := topK * 2;
    var s := StructuredAnswer(store, compiled, limit);
    var f := FulltextAnswer(b, store, compiled, query, limit);
    var v := VectorAnswer(b, store, compiled, query, limit);
    AnswersBounded(b, store, compiled, query, limit);
    WithinFloor(s, 0.3, 1.0);
    WithinFloor(f, 0.1, 1.0);
    assert Pick(Structured, s, f, v) == s && Pick(Fulltext, s, f, v) == f;
    CombineMethodFloor(query, methods, topK, s, f, v, Structured, 0.3);
    CombineMethodFloor(query, methods, topK, s, f, v, Fulltext, 0.1);
    SearchIsCombine(k, b, store, query, methods, filters, topK);
    var out := Search(k, b, store, query, methods, filters, topK);
    assert MethodFloor(out.results, Structured, 0.3) && MethodFloor(out.results, Fulltext, 0.1);
  }

  lemma WithinFloor(a: Answer<seq<Hit>>, lo: real, hi: real)
    requires ScoresWithin(a, lo, hi)
    ensures Floor(a, lo)
  {
  }

  // ---------------------------------------------------------------- count

  /** The rows a filter set admits, defined clause by clause. */
  function Matching(k: Kind, cal: Calendar, store: Store, filters: seq<Clause>): set<int>
  {
    set id | id in store && Qualifies(k, cal, store, filters, id)
  }

  lemma AdmittedCount(k: Kind, cal: Calendar, store: Store, filters: seq<Clause>)
    requires Compile(k, cal, filters).Ok?
    ensures |Select(store, r => Passes(Compile(k, cal, filters).value, r))| == |Matching(k, cal, store, filters)|
  {
    var conds := Compile(k, cal, filters).value;
    var admitted := r => Passes(conds, r);
    var m := Matching(k, cal, store, filters);
    forall id ensures id in m <==> id in store && admitted(store[id]) {
      if id in store {
        CompileSound(k, cal, filters, store[id]);
      }
    }
    SelectCount(store, admitted, m);
  }

  /** `count(filters)`: the number of rows that are not soft-deleted and pass
      every clause; a malformed date raises. */
  function Count(k: Kind, cal: Calendar, store: Store, filters: seq<Clause>): (r: Result<nat>)
    ensures r.Err? <==> exists i :: 0 <= i < |filters| && Malformed(k, cal, filters[i])
    ensures r.Ok? ==> r.value == |Matching(k, cal, store, filters)|
  {
    match Compile(k, cal, filters)
    case Err(e) => Err(e)
    case Ok(conds) =>
      AdmittedCount(k, cal, store, filters);
      Ok(|Select(store, r => Passes(conds, r))|)
  }

  // ---------------------------------------------------------------- aggregate

  /** One `{"group_value": …, "count": …}` entry. */
  datatype Group = Group(value: string, count: nat)

  /** A row that takes part in the grouping: admitted, with a label that is
      neither NULL nor empty. */
  predicate Grouped(conds: seq<Cond>, r: Record)
  {
    Passes(conds, r) && r.Label().Some? && r.Label().value != ""
  }

  function LabelOf(store: Store, id: int): string
  {
    if id in store then OrEmpty(store[id].Label()) else ""
  }

  /** The admitted rows labelled `v`. */
  function GroupIds(store: Store, conds: seq<Cond>, v: string): set<int>
  {
    set id | id in store && Passes(conds, store[id]) && store[id].Label() == Some(v)
  }

  /** The labels of the grouped rows. */
  function Labels(store: Store, conds: seq<Cond>): set<string>
  {
    set id | id in store && Grouped(conds, store[id]) :: LabelOf(store, id)
  }

  /** The distinct labels of the grouped rows, in order of first appearance. */
  function GroupValues(store: Store, conds: seq<Cond>): (vs: seq<string>)
    ensures Distinct(vs)
    ensures forall v :: v in vs <==> v in Labels(store, conds)
  {
    var ids := Select(store, r => Grouped(conds, r));
    var labels := MapSeq(ids, id => LabelOf(store, id));
    LabelsListed(store, conds, ids, labels);
    Dedup(labels)
  }

  lemma LabelsListed(store: Store, conds: seq<Cond>, ids: seq<int>, labels: seq<string>)
    requires forall id :: id in ids <==> id in store && Grouped(conds, store[id])
    requires |labels| == |ids| && forall i :: 0 <= i < |ids| ==> labels[i] == LabelOf(store, ids[i])
    ensures forall v :: v in labels <==> v in Labels(store, conds)
  {
    forall v ensures v in labels <==> v in Labels(store, conds) {
      if v in labels {
        var i :| 0 <= i < |labels| && labels[i] == v;
        assert ids[i] in ids;
      }
      if v in Labels(store, conds) {
        var id :| id in store && Grouped(conds, store[id]) && LabelOf(store, id) == v;
        var i :| 0 <= i < |ids| && ids[i] == id;
        assert labels[i] == v;
      }
    }
  }

  function CountKey(g: Group): Key
  {
    Key(g.count as real, None)
  }

  /** `aggregate(group_by, filters, top_n)`: for the kind's own label field,
      the `top_n` largest groups of admitted rows by label; any other field
      yields no groups without looking at the filters. */
  function Aggregate(k: Kind, cal: Calendar, store: Store, groupBy: string, filters: seq<Clause>, topN: nat): (r: Result<seq<Group>>)
    ensures groupBy != LabelField(k) ==> r == Ok([])
    ensures groupBy == LabelField(k) ==> (r.Err? <==> exists i :: 0 <= i < |filters| && Malformed(k, cal, filters[i]))
    ensures r.Ok? ==> |r.value| <= topN
  {
    if groupBy != LabelField(k) then Ok([])
    else
      match Compile(k, cal, filters)
      case Err(e) => Err(e)
      case Ok(conds) => Ok(Take(SortDesc(Groups(store, conds), CountKey), topN))
  }

  /** One group per distinct label, with its row count. */
  function Groups(store: Store, conds: seq<Cond>): seq<Group>
  {
    Tally(GroupValues(store, conds), v => GroupSize(store, conds, v))
  }

  function GroupSize(store: Store, conds: seq<Cond>, v: string): nat
  {
    |GroupIds(store, conds, v)|
  }

  /** One group per value, each with the count `count` gives it. */
  function Tally(vs: seq<string>, count: string -> nat): seq<Group>
  {
    MapSeq(vs, v => Group(v, count(v)))
  }

  /** Tallying distinct values gives distinct groups, one per value. */
  lemma TallyShape(vs: seq<string>, count: string -> nat)
    requires Distinct(vs)
    ensures var gs := Tally(vs, count);
      && Distinct(gs)
      && (forall g :: g in gs ==> g.value in vs && g.count == count(g.value))
      && (forall g1, g2 :: g1 in gs && g2 in gs && g1.value == g2.value ==> g1 == g2)
      && (forall v :: v in vs ==> exists g :: g in gs && g.value == v)
  {
    var gs := Tally(vs, count);
    forall i, j | 0 <= i < j < |gs| ensures gs[i] != gs[j] {
      assert gs[i].value == vs[i] && gs[j].value == vs[j];
    }
    forall g | g in gs ensures g.value in vs && g.count == count(g.value) {
      var i :| 0 <= i < |gs| && gs[i] == g;
      assert vs[i] in vs;
    }
    forall v | v in vs ensures exists g :: g in gs && g.value == v {
      var i :| 0 <= i < |vs| && vs[i] == v;
      assert gs[i] in gs;
    }
  }

  /** The rows labelled `v` that the filters admit, defined clause by clause. */
  function Members(k: Kind, cal: Calendar, store: Store, filters: seq<Clause>, v: string): set<int>
  {
    set id | id in store && Qualifies(k, cal, store, filters, id) && store[id].Label() == Some(v)
  }

  /** A label value counted by the aggregation: non-empty and carried by some
      admitted row. */
  predicate IsGroupValue(k: Kind, cal: Calendar, store: Store, filters: seq<Clause>, v: string)
  {
    v != "" && exists id :: id in Members(k, cal, store, filters, v)
  }

  /** Some returned group has label `v`. */
  predicate Listed(r: seq<Group>, v: string)
  {
    exists i :: 0 <= i < |r| && r[i].value == v
  }

  /** `ORDER BY count DESC LIMIT top_n` keeps the largest groups: a label
      value left out has no more admitted rows than any group returned. */
  ghost predicate LargestKept(k: Kind, cal: Calendar, store: Store, filters: seq<Clause>, r: seq<Group>)
  {
    forall v, i :: IsGroupValue(k, cal, store, filters, v) && !Listed(r, v) && 0 <= i < |r| ==>
      |Members(k, cal, store, filters, v)| <= r[i].count
  }

  /** The aggregation of the kind's own label field: one group per label
      value, counting exactly the admitted rows with that label, no value
      twice, counts non-increasing, no label left out larger than a group
      returned, at most `top_n` groups, and every label value present
      unless `top_n` groups were returned. */
  lemma AggregateGroups(k: Kind, cal: Calendar, store: Store, filters: seq<Clause>, topN: nat)
    requires Compile(k, cal, filters).Ok?
    ensures var r := Aggregate(k, cal, store, LabelField(k), filters, topN).value;
      && (forall i, j :: 0 <= i < j < |r| ==> r[i].count >= r[j].count)
      && (forall i, j :: 0 <= i < j < |r| ==> r[i].value != r[j].value)
      && (forall i :: 0 <= i < |r| ==>
            IsGroupValue(k, cal, store, filters, r[i].value) && r[i].count == |Members(k, cal, store, filters, r[i].value)|)
      && LargestKept(k, cal, store, filters, r)
      && (|r| < topN ==> forall v :: IsGroupValue(k, cal, store, filters, v) ==> Listed(r, v))
  {
    var r := Take(SortDesc(Groups(store, Compile(k, cal, filters).value), CountKey), topN);
    assert Aggregate(k, cal, store, LabelField(k), filters, topN) == Ok(r);
    GroupsCounted(k, cal, store, filters, topN, r);
  }

  lemma GroupsCounted(k: Kind, cal: Calendar, store: Store, filters: seq<Clause>, topN: nat, r: seq<Group>)
    requires Compile(k, cal, filters).Ok?
    requires r == Take(SortDesc(Groups(store, Compile(k, cal, filters).value), CountKey), topN)
    ensures (forall i, j :: 0 <= i < j < |r| ==> r[i].count >= r[j].count)
      && (forall i, j :: 0 <= i < j < |r| ==> r[i].value != r[j].value)
      && (forall i :: 0 <= i < |r| ==>
            IsGroupValue(k, cal, store, filters, r[i].value) && r[i].count == |Members(k, cal, store, filters, r[i].value)|)
      && LargestKept(k, cal, store, filters, r)
      && (|r| < topN ==> forall v :: IsGroupValue(k, cal, store, filters, v) ==> Listed(r, v))
  {
    var gs := Groups(store, Compile(k, cal, filters).value);
    GroupsAreCounted(k, cal, store, filters);
    RankedGroups(gs, topN);
    forall i | 0 <= i < |r|
      ensures IsGroupValue(k, cal, store, filters, r[i].value) && r[i].count == |Members(k, cal, store, filters, r[i].value)|
    {
      assert r[i] in gs;
    }
    forall v, i | IsGroupValue(k, cal, store, filters, v) && !Listed(r, v) && 0 <= i < |r|
      ensures |Members(k, cal, store, filters, v)| <= r[i].count
    {
      var g :| g in gs && g.value == v;
      assert g !in r;
    }
    if |r| < topN {
      forall v | IsGroupValue(k, cal, store, filters, v) ensures Listed(r, v) {
        var g :| g in gs && g.value == v;
        assert exists i :: 0 <= i < |r| && r[i].value == g.value;
      }
    }
  }

  /** The unsorted groups in terms of the filter clauses: each counts the
      admitted rows of its value, and every label value has a group. */
  lemma GroupsAreCounted(k: Kind, cal: Calendar, store: Store, filters: seq<Clause>)
    requires Compile(k, cal, filters).Ok?
    ensures var gs := Groups(store, Compile(k, cal, filters).value);
      && Distinct(gs)
      && (forall g1, g2 :: g1 in gs && g2 in gs && g1.value == g2.value ==> g1 == g2)
      && (forall g :: g in gs ==>
            IsGroupValue(k, cal, store, filters, g.value) && g.count == |Members(k, cal, store, filters, g.value)|)
      && (forall v :: IsGroupValue(k, cal, store, filters, v) ==> exists g :: g in gs && g.value == v)
  {
    var conds := Compile(k, cal, filters).value;
    var gs := Groups(store, conds);
    var vs := GroupValues(store, conds);
    GroupsShape(store, conds);
    forall g | g in gs
      ensures IsGroupValue(k, cal, store, filters, g.value) && g.count == |Members(k, cal, store, filters, g.value)|
    {
      assert g.value in vs;
      LabelsAreGroupValues(k, cal, store, filters, g.value);
      GroupIdsAreMembers(k, cal, store, filters, g.value);
    }
    forall v | IsGroupValue(k, cal, store, filters, v) ensures exists g :: g in gs && g.value == v {
      LabelsAreGroupValues(k, cal, store, filters, v);
      assert v in vs;
    }
  }

  /** No group cut away counts more rows than a group kept. */
  lemma LargestGroupsKept(gs: seq<Group>, topN: nat)
    ensures var r := Take(SortDesc(gs, CountKey), topN);
      forall g, i :: g in gs && g !in r && 0 <= i < |r| ==> g.count <= r[i].count
  {
    var r := Take(SortDesc(gs, CountKey), topN);
    CutKeepsBest(gs, CountKey, topN);
    forall g, i | g in gs && g !in r && 0 <= i < |r| ensures g.count <= r[i].count {
      assert AtLeast(CountKey(r[i]), CountKey(g));
    }
  }

  /** Sorting the groups by count and cutting at `top_n` keeps them
      distinct, keeps the largest, and keeps every value when nothing is
      cut. */
  lemma RankedGroups(gs: seq<Group>, topN: nat)
    requires Distinct(gs)
    requires forall g1, g2 :: g1 in gs && g2 in gs && g1.value == g2.value ==> g1 == g2
    ensures var r := Take(SortDesc(gs, CountKey), topN);
      && (forall i :: 0 <= i < |r| ==> r[i] in gs)
      && (forall i, j :: 0 <= i < j < |r| ==> r[i].count >= r[j].count)
      && (forall i, j :: 0 <= i < j < |r| ==> r[i].value != r[j].value)
      && (forall g, i :: g in gs && g !in r && 0 <= i < |r| ==> g.count <= r[i].count)
      && (|r| < topN ==> forall g :: g in gs ==> exists i :: 0 <= i < |r| && r[i].value == g.value)
  {
    var r := Take(SortDesc(gs, CountKey), topN);
    TopOf(gs, CountKey, topN);
    LargestGroupsKept(gs, topN);
    forall i, j | 0 <= i < j < |r| ensures r[i].count >= r[j].count {
      assert AtLeast(CountKey(r[i]), CountKey(r[j]));
    }
    forall i, j | 0 <= i < j < |r| ensures r[i].value != r[j].value {
      assert r[i] in gs && r[j] in gs && r[i] != r[j];
    }
    if |r| < topN {
      forall g | g in gs ensures exists i :: 0 <= i < |r| && r[i].value == g.value {
        var i :| 0 <= i < |r| && r[i] == g;
      }
    }
  }

  /** The groups before sorting: one per label value, each with its count,
      no group twice and no value in two groups. */
  lemma GroupsShape(store: Store, conds: seq<Cond>)
    ensures var gs := Groups(store, conds);
      var vs := GroupValues(store, conds);
      && Distinct(gs)
      && (forall g :: g in gs ==> g.value in vs && g.count == GroupSize(store, conds, g.value))
      && (forall g1, g2 :: g1 in gs && g2 in gs && g1.value == g2.value ==> g1 == g2)
      && (forall v :: v in vs ==> exists g :: g in gs && g.value == v)
  {
    TallyShape(GroupValues(store, conds), v => GroupSize(store, conds, v));
  }

  lemma GroupIdsAreMembers(k: Kind, cal: Calendar, store: Store, filters: seq<Clause>, v: string)
    requires Compile(k, cal, filters).Ok?
    ensures GroupIds(store, Compile(k, cal, filters).value, v) == Members(k, cal, store, filters, v)
  {
    forall id | id in store ensures Passes(Compile(k, cal, filters).value, store[id]) <==> Qualifies(k, cal, store, filters, id) {
      CompileSound(k, cal, filters, store[id]);
    }
  }

  lemma LabelsAreGroupValues(k: Kind, cal: Calendar, store: Store, filters: seq<Clause>, v: string)
    requires Compile(k, cal, filters).Ok?
    ensures v in Labels(store, Compile(k, cal, filters).value) <==> IsGroupValue(k, cal, store, filters, v)
  {
    var conds := Compile(k, cal, filters).value;
    GroupIdsAreMembers(k, cal, store, filters, v);
    if v in Labels(store, conds) {
      var id :| id in store && Grouped(conds, store[id]) && LabelOf(store, id) == v;
      assert id in GroupIds(store, conds, v);
    }
    if IsGroupValue(k, cal, store, filters, v) {
      var id :| id in Members(k, cal, store, filters, v);
      assert id in GroupIds(store, conds, v);
      assert Grouped(conds, store[id]) && LabelOf(store, id) == v;
    }
  }
}

=== FILE: sync.dfy ===
/** Ingestion into the two tables: the keyed upserts and the embedding
    backfill. A table is its rows plus the next id the sequence hands out;
    the upsert is a fold over the input rows in which each row sees the
    effect of the rows before it. */
module Sync {
  import opened Basics
  import opened Text
  import opened Ordering
  import opened Models
  import opened Identity

  // ------------------------------------------------------------ embedding text

  /** `_text_for_embedding`: the non-empty parts among title, url and extra,
      joined by single spaces and stripped, or the url when that is empty. */
  function TextForEmbedding(title: Option<string>, url: string, extra: string): string
  {
    var joined := Strip(JoinNonEmpty([OrEmpty(title), url, extra]));
    if joined == "" then url else joined
  }

  /** The embedded text is never empty for a non-empty url; with neither
      title nor extra it is the stripped url; with all three parts present
      and no outer whitespace it is the three joined by single spaces. */
  lemma TextForEmbeddingShape(title: Option<string>, url: string, extra: string)
    ensures url != "" ==> TextForEmbedding(title, url, extra) != ""
    ensures OrEmpty(title) == "" && extra == "" ==>
      TextForEmbedding(title, url, extra) == if Strip(url) == "" then url else Strip(url)
    ensures OrEmpty(title) != "" && url != "" && extra != "" && !IsSpace(OrEmpty(title)[0]) && !IsSpace(extra[|extra| - 1]) ==>
      TextForEmbedding(title, url, extra) == OrEmpty(title) + " " + url + " " + extra
  {
    var t := OrEmpty(title);
    if t == "" && extra == "" {
      assert [t, url, extra][1..] == [url, extra];
      assert [url, extra][1..] == [extra];
      assert [extra][1..] == [];
      assert JoinNonEmpty([extra]) == "";
      assert JoinNonEmpty([url, extra]) == url;
      assert JoinNonEmpty([t, url, extra]) == url;
    }
    if t != "" && url != "" && extra != "" && !IsSpace(t[0]) && !IsSpace(extra[|extra| - 1]) {
      assert [t, url, extra][1..] == [url, extra];
      assert [url, extra][1..] == [extra];
      assert [extra][1..] == [];
      var s := t + " " + url + " " + extra;
      assert JoinNonEmpty([extra]) == extra;
      assert JoinNonEmpty([url, extra]) == url + " " + extra;
      assert JoinNonEmpty([t, url, extra]) == t + " " + (url + " " + extra) == s;
      assert s[0] == t[0] && s[|s| - 1] == extra[|extra| - 1];
      StripUntrimmed(s);
    }
  }

  // ------------------------------------------------------------------- upsert

  /** One input row: the dictionary the reader produced, an absent key being `None`. */
  datatype Incoming = Incoming(
    url: string,
    title: Option<string>,
    domain: Option<string>,
    lastVisitTime: Option<Instant>,
    visitCount: Option<int>,
    folder: Option<string>,
    addedAt: Option<Instant>)

  /** A table and the next value of its id sequence. */
  datatype Table = Table(rows: Store, nextId: int)

  /** Every row is stored under its id, and every id is below the next one. */
  predicate Valid(t: Table)
  {
    WellKeyed(t.rows) && forall id :: id in t.rows ==> id < t.nextId
  }

  /** What an upsert looks a row up by: the url and, for bookmarks, the
      folder (`None` for history, whose key has no folder). */
  datatype SyncKey = SyncKey(url: string, folder: Option<string>)

  function RowKey(k: Kind, row: Incoming): SyncKey
  {
    SyncKey(row.url, if k == History then None else Normalize(row.folder))
  }

  function RecordKey(k: Kind, rec: Record): SyncKey
  {
    SyncKey(rec.url, if k == History then None else Folder(rec))
  }

  /** A row written by this ingester. */
  predicate Ours(rec: Record)
  {
    rec.browser == Some(BROWSER)
  }

  /** The rows the lookup query returns: browser "vivaldi", the same url
      digest and, for bookmarks, `folder IS NULL` or `folder = :folder`. */
  function Matches(k: Kind, rows: Store, key: SyncKey): set<int>
  {
    set id | id in rows && Ours(rows[id]) && RecordKey(k, rows[id]) == key
  }

  /** `r.get("visit_count", 0)`. */
  function VisitCountOf(row: Incoming): int
  {
    match row.visitCount
    case None => 0
    case Some(n) => n
  }

  /** The update of a matched row. */
  function Refresh(k: Kind, rec: Record, row: Incoming, now: Instant): Record
  {
    if k == History then
      rec.(title := row.title, detail := Visit(Normalize(row.domain), row.lastVisitTime, VisitCountOf(row)), updatedAt := now)
    else
      rec.(title := row.title, detail := Saved(Folder(rec), row.addedAt), updatedAt := now)
  }

  /** The row inserted when nothing matches. */
  function Create(k: Kind, id: int, row: Incoming, now: Instant): Record
  {
    var detail := if k == History then Visit(Normalize(row.domain), row.lastVisitTime, VisitCountOf(row))
                  else Saved(Normalize(row.folder), row.addedAt);
    Record(id, row.url, row.title, None, detail, Some(BROWSER), None, None, now, now, None)
  }

  /** Two records agree on everything an upsert never writes. */
  predicate SameIdentity(k: Kind, a: Record, b: Record)
  {
    a.id == b.id && a.url == b.url && a.browser == b.browser && RecordKey(k, a) == RecordKey(k, b)
    && a.snippet == b.snippet && a.embedding == b.embedding && a.embeddingComputedAt == b.embeddingComputedAt
    && a.createdAt == b.createdAt && a.deletedAt == b.deletedAt
  }

  /** An update writes only the mutable columns: title and the visit columns
      for history, title and `added_at` for bookmarks, and `updated_at`. */
  lemma RefreshKeepsIdentity(k: Kind, rec: Record, row: Incoming, now: Instant)
    requires k == Bookmarks ==> rec.detail.Saved?
    ensures SameIdentity(k, rec, Refresh(k, rec, row, now))
    ensures Refresh(k, rec, row, now).title == row.title && Refresh(k, rec, row, now).updatedAt == now
    ensures k == History ==> Refresh(k, rec, row, now).detail == Visit(Normalize(row.domain), row.lastVisitTime, VisitCountOf(row))
    ensures k == Bookmarks ==> Refresh(k, rec, row, now).detail == Saved(rec.detail.folder, row.addedAt)
  {
  }

  /** One iteration of the loop. Two matching rows make
      `scalar_one_or_none` raise SQLAlchemy's `MultipleResultsFound`. */
  function Step(k: Kind, t: Table, row: Incoming, now: Instant): Result<Table>
  {
    var m := Matches(k, t.rows, RowKey(k, row));
    if |m| > 1 then Err("Multiple rows were found when one or none was required")
    else if m != {} then
      var id := Least(m);
      Ok(Table(t.rows[id := Refresh(k, t.rows[id], row, now)], t.nextId))
    else
      Ok(Table(t.rows[t.nextId := Create(k, t.nextId, row, now)], t.nextId + 1))
  }

  /** The loop over the rows, in order. */
  function Fold(k: Kind, t: Table, rows: seq<Incoming>, now: Instant): Result<Table>
    decreases |rows|
  {
    if rows == [] then Ok(t)
    else
      match Step(k, t, rows[0], now)
      case Err(e) => Err(e)
      case Ok(t1) => Fold(k, t1, rows[1..], now)
  }

  datatype Upserted = Upserted(table: Table, count: nat)

  /** `upsert_history` (`k == History`) and `upsert_bookmarks`; the count is
      `len(rows)` whatever mix of updates and inserts happened. */
  function Upsert(k: Kind, t: Table, rows: seq<Incoming>, now: Instant): (r: Result<Upserted>)
    ensures r.Ok? ==> r.value.count == |rows|
  {
    match Fold(k, t, rows, now)
    case Err(e) => Err(e)
    case Ok(t1) => Ok(Upserted(t1, |rows|))
  }

  /** No two of our rows share a lookup key, so a lookup finds at most one. */
  predicate Unique(k: Kind, rows: Store)
  {
    forall a, b :: a in rows && b in rows && Ours(rows[a]) && Ours(rows[b]) && RecordKey(k, rows[a]) == RecordKey(k, rows[b]) ==> a == b
  }

  /** Every bookmark row has a bookmark detail. */
  predicate Shaped(k: Kind, rows: Store)
  {
    k == Bookmarks ==> forall id :: id in rows ==> rows[id].detail.Saved?
  }

  /** All rows of `t` are still in `u` with the same identity. */
  predicate Kept(k: Kind, t: Table, u: Table)
  {
    t.nextId <= u.nextId
    && forall id :: id in t.rows ==> id in u.rows && SameIdentity(k, t.rows[id], u.rows[id])
  }

  /** The invariant of the loop. */
  predicate Good(k: Kind, t: Table)
  {
    Valid(t) && Unique(k, t.rows) && Shaped(k, t.rows)
  }

  lemma MatchesAtMostOne(k: Kind, rows: Store, key: SyncKey)
    requires Unique(k, rows)
    ensures |Matches(k, rows, key)| <= 1
  {
    var m := Matches(k, rows, key);
    if m != {} {
      var x := Least(m);
      forall y | y in m ensures y == x { }
      assert m == {x};
    }
  }

  /** One step keeps the invariant, never raises, keeps every row's identity
      and leaves a row for the input's key; it inserts only when no row had
      that key. */
  lemma StepFacts(k: Kind, t: Table, row: Incoming, now: Instant)
    requires Good(k, t)
    ensures Step(k, t, row, now).Ok?
    ensures var u := Step(k, t, row, now).value;
      && Good(k, u) && Kept(k, t, u)
      && Matches(k, u.rows, RowKey(k, row)) != {}
      && (Matches(k, t.rows, RowKey(k, row)) != {} ==> u.rows.Keys == t.rows.Keys)
  {
    var key := RowKey(k, row);
    var m := Matches(k, t.rows, key);
    MatchesAtMostOne(k, t.rows, key);
    var u := Step(k, t, row, now).value;
    if m != {} {
      var id := Least(m);
      RefreshKeepsIdentity(k, t.rows[id], row, now);
      assert id in Matches(k, u.rows, key);
      forall a, b | a in u.rows && b in u.rows && Ours(u.rows[a]) && Ours(u.rows[b]) && RecordKey(k, u.rows[a]) == RecordKey(k, u.rows[b])
        ensures a == b
      {
        assert SameIdentity(k, t.rows[a], u.rows[a]) && SameIdentity(k, t.rows[b], u.rows[b]);
      }
    } else {
      var n := t.nextId;
      assert n in Matches(k, u.rows, key);
      forall a, b | a in u.rows && b in u.rows && Ours(u.rows[a]) && Ours(u.rows[b]) && RecordKey(k, u.rows[a]) == RecordKey(k, u.rows[b])
        ensures a == b
      {
        NewKeyFresh(k, t, u, key, a);
        NewKeyFresh(k, t, u, key, b);
        assert a != n ==> u.rows[a] == t.rows[a];
        assert b != n ==> u.rows[b] == t.rows[b];
      }
    }
  }

  /** Before an insert no row of ours had the new row's key. */
  lemma NewKeyFresh(k: Kind, t: Table, u: Table, key: SyncKey, a: int)
    requires Valid(t) && Matches(k, t.rows, key) == {}
    requires t.nextId in u.rows && u.rows == t.rows[t.nextId := u.rows[t.nextId]]
    requires a in u.rows && Ours(u.rows[a])
    ensures a != t.nextId ==> RecordKey(k, u.rows[a]) != key
  {
    assert a != t.nextId ==> a in t.rows && u.rows[a] == t.rows[a] && a !in Matches(k, t.rows, key);
  }

  lemma KeptTransitive(k: Kind, t: Table, u: Table, v: Table)
    requires Kept(k, t, u) && Kept(k, u, v)
    ensures Kept(k, t, v)
  {
  }

  /** A key with a row keeps having one. */
  lemma KeptMatches(k: Kind, t: Table, u: Table, key: SyncKey)
    requires Kept(k, t, u) && Matches(k, t.rows, key) != {}
    ensures Matches(k, u.rows, key) != {}
  {
    if forall id :: id !in Matches(k, t.rows, key) {
      assert false;
    }
    var id :| id in Matches(k, t.rows, key);
    assert id in Matches(k, u.rows, key);
  }

  /** Every input row's key has a row of ours in `t`. */
  predicate Covered(k: Kind, t: Table, rows: seq<Incoming>)
  {
    forall i :: 0 <= i < |rows| ==> Matches(k, t.rows, RowKey(k, rows[i])) != {}
  }

  /** On a table whose keys are unique the upsert never raises; it keeps the
      invariant and every existing row's identity, and afterwards every input
      row's key has exactly one row. */
  lemma {:induction false} UpsertFacts(k: Kind, t: Table, rows: seq<Incoming>, now: Instant)
    requires Good(k, t)
    ensures Fold(k, t, rows, now).Ok?
    ensures var u := Fold(k, t, rows, now).value;
      Good(k, u) && Kept(k, t, u) && Covered(k, u, rows)
    decreases |rows|
  {
    if rows != [] {
      StepFacts(k, t, rows[0], now);
      var t1 := Step(k, t, rows[0], now).value;
      UpsertFacts(k, t1, rows[1..], now);
      var u := Fold(k, t1, rows[1..], now).value;
      KeptTransitive(k, t, t1, u);
      KeptMatches(k, t1, u, RowKey(k, rows[0]));
      forall i | 0 <= i < |rows| ensures Matches(k, u.rows, RowKey(k, rows[i])) != {} {
        if i > 0 { assert rows[i] == rows[1..][i - 1]; }
      }
    }
  }

  /** When every input key already has a row, the upsert inserts nothing. */
  lemma {:induction false} UpsertCoveredInsertsNothing(k: Kind, t: Table, rows: seq<Incoming>, now: Instant)
    requires Good(k, t) && Covered(k, t, rows)
    ensures Fold(k, t, rows, now).Ok? && Fold(k, t, rows, now).value.rows.Keys == t.rows.Keys
    decreases |rows|
  {
    if rows != [] {
      StepFacts(k, t, rows[0], now);
      var t1 := Step(k, t, rows[0], now).value;
      forall i | 0 <= i < |rows[1..]| ensures Matches(k, t1.rows, RowKey(k, rows[1..][i])) != {} {
        assert rows[1..][i] == rows[i + 1];
        KeptMatches(k, t, t1, RowKey(k, rows[i + 1]));
      }
      UpsertCoveredInsertsNothing(k, t1, rows[1..], now);
    }
  }

  /** Idempotence: upserting the same rows again adds no row. */
  lemma UpsertIdempotent(k: Kind, t: Table, rows: seq<Incoming>, now: Instant, later: Instant)
    requires Good(k, t)
    ensures Upsert(k, t, rows, now).Ok?
    ensures var u := Upsert(k, t, rows, now).value.table;
      Upsert(k, u, rows, later).Ok? && Upsert(k, u, rows, later).value.table.rows.Keys == u.rows.Keys
  {
    UpsertFacts(k, t, rows, now);
    var u := Fold(k, t, rows, now).value;
    UpsertCoveredInsertsNothing(k, u, rows, later);
  }

  /** A table the migration has deduplicated satisfies the loop invariant. */
  lemma IndexGivesUnique(k: Kind, rows: Store)
    requires k == History ==> HistoryIndexAdmits(rows)
    requires k == Bookmarks ==> BookmarkIndexAdmits(rows)
    ensures Unique(k, rows)
  {
    forall a, b | a in rows && b in rows && Ours(rows[a]) && Ours(rows[b]) && RecordKey(k, rows[a]) == RecordKey(k, rows[b])
      ensures a == b
    {
      if k == Bookmarks {
        assert BookmarkKeyOf(rows[a]) == BookmarkKeyOf(rows[b]);
      }
    }
  }

  /** None of our bookmark rows has the empty folder the upsert itself never writes. */
  predicate NoEmptyFolder(rows: Store)
  {
    forall id :: id in rows && Ours(rows[id]) ==> Folder(rows[id]) != Some("")
  }

  /** The unique index of the table (for bookmarks together with the absence
      of empty folders among our rows). */
  predicate IndexOk(k: Kind, rows: Store)
  {
    if k == History then HistoryIndexAdmits(rows) else BookmarkIndexAdmits(rows) && NoEmptyFolder(rows)
  }

  /** An insert happens only when no row of ours has the key, so the new row
      cannot violate the unique index at flush time. */
  lemma StepKeepsIndex(k: Kind, t: Table, row: Incoming, now: Instant)
    requires Good(k, t) && IndexOk(k, t.rows)
    ensures Step(k, t, row, now).Ok? && IndexOk(k, Step(k, t, row, now).value.rows)
  {
    StepFacts(k, t, row, now);
    var u := Step(k, t, row, now).value;
    var key := RowKey(k, row);
    if Matches(k, t.rows, key) != {} {
      assert u.rows.Keys == t.rows.Keys;
      forall id | id in u.rows ensures SameIdentity(k, t.rows[id], u.rows[id]) && IndexKeyOf(k, u.rows[id]) == IndexKeyOf(k, t.rows[id]) {
      }
      KeysPreserveIndex(k, t.rows, u.rows);
    } else {
      var n := t.nextId;
      forall id | id in u.rows && id != n ensures u.rows[id] == t.rows[id] && id in t.rows { }
      forall id | id in t.rows ensures NewRowDistinct(k, t.rows, u.rows[n], row, id) {
        FreshIndexKey(k, t.rows, u.rows[n], row, id, now, n);
      }
      InsertKeepsIndex(k, t.rows, u.rows, n, row);
    }
  }

  /** What the unique index of the table compares. */
  datatype IndexKey = HistoryIndexKey(hurl: string, hbrowser: Option<string>) | BookmarkIndexKey(bkey: BookmarkKey)

  function IndexKeyOf(k: Kind, r: Record): IndexKey
  {
    if k == History then HistoryIndexKey(r.url, r.browser) else BookmarkIndexKey(BookmarkKeyOf(r))
  }

  /** The new row does not clash in the index with existing row `id`. */
  predicate NewRowDistinct(k: Kind, rows: Store, inserted: Record, row: Incoming, id: int)
    requires id in rows
  {
    (k == History ==> !(rows[id].url == inserted.url && rows[id].browser == inserted.browser))
    && (k == Bookmarks ==> BookmarkKeyOf(rows[id]) != BookmarkKeyOf(inserted))
  }

  lemma FreshIndexKey(k: Kind, rows: Store, inserted: Record, row: Incoming, id: int, now: Instant, n: int)
    requires inserted == Create(k, n, row, now)
    requires Matches(k, rows, RowKey(k, row)) == {}
    requires IndexOk(k, rows)
    requires id in rows
    ensures NewRowDistinct(k, rows, inserted, row, id)
  {
    var r := rows[id];
    assert id !in Matches(k, rows, RowKey(k, row));
    if k == Bookmarks {
      assert BookmarkKeyOf(inserted) == BookmarkKey(row.url, OrEmpty(Normalize(row.folder)), BROWSER);
      OrEmptyTell(Folder(r), Normalize(row.folder));
      BrowserTell(r.browser);
    }
  }

  /** On folders that are never `Some("")`, `COALESCE(folder, '')` loses nothing. */
  lemma OrEmptyTell(a: Option<string>, b: Option<string>)
    ensures a != Some("") && b != Some("") && OrEmpty(a) == OrEmpty(b) ==> a == b
  {
  }

  lemma BrowserTell(a: Option<string>)
    ensures OrEmpty(a) == BROWSER ==> a == Some(BROWSER)
  {
  }

  lemma KeysPreserveIndex(k: Kind, rows: Store, next: Store)
    requires IndexOk(k, rows) && rows.Keys == next.Keys
    requires forall id :: id in next ==> SameIdentity(k, rows[id], next[id]) && IndexKeyOf(k, next[id]) == IndexKeyOf(k, rows[id])
    ensures IndexOk(k, next)
  {
    if k == Bookmarks {
      forall a, b | a in next && b in next && a != b ensures BookmarkKeyOf(next[a]) != BookmarkKeyOf(next[b]) {
        assert IndexKeyOf(k, next[a]) == IndexKeyOf(k, rows[a]);
        assert IndexKeyOf(k, next[b]) == IndexKeyOf(k, rows[b]);
      }
      forall id | id in next && Ours(next[id]) ensures Folder(next[id]) != Some("") {
        assert RecordKey(k, next[id]) == RecordKey(k, rows[id]);
      }
    } else {
      forall a, b | a in next && b in next && a != b && next[a].url == next[b].url && next[a].browser.Some?
        ensures next[a].browser != next[b].browser
      {
        assert IndexKeyOf(k, next[a]) == IndexKeyOf(k, rows[a]);
        assert IndexKeyOf(k, next[b]) == IndexKeyOf(k, rows[b]);
      }
    }
  }

  lemma InsertKeepsIndex(k: Kind, rows: Store, next: Store, n: int, row: Incoming)
    requires IndexOk(k, rows) && n !in rows && n in next
    requires next.Keys == rows.Keys + {n}
    requires forall id :: id in next && id != n ==> next[id] == rows[id]
    requires forall id :: id in rows ==> NewRowDistinct(k, rows, next[n], row, id)
    requires Ours(next[n]) && Folder(next[n]) != Some("")
    ensures IndexOk(k, next)
  {
    if k == Bookmarks {
      forall a, b | a in next && b in next && a != b ensures BookmarkKeyOf(next[a]) != BookmarkKeyOf(next[b]) {
        if a == n { assert NewRowDistinct(k, rows, next[n], row, b); }
        if b == n { assert NewRowDistinct(k, rows, next[n], row, a); }
      }
    } else {
      forall a, b | a in next && b in next && a != b && next[a].url == next[b].url && next[a].browser.Some?
        ensures next[a].browser != next[b].browser
      {
        if a == n { assert NewRowDistinct(k, rows, next[n], row, b); }
        if b == n { assert NewRowDistinct(k, rows, next[n], row, a); }
      }
    }
  }

  /** A whole upsert keeps the unique index satisfied. */
  lemma {:induction false} UpsertKeepsIndex(k: Kind, t: Table, rows: seq<Incoming>, now: Instant)
    requires Good(k, t) && IndexOk(k, t.rows)
    ensures Fold(k, t, rows, now).Ok? && IndexOk(k, Fold(k, t, rows, now).value.rows)
    decreases |rows|
  {
    if rows != [] {
      StepFacts(k, t, rows[0], now);
      StepKeepsIndex(k, t, rows[0], now);
      UpsertKeepsIndex(k, Step(k, t, rows[0], now).value, rows[1..], now);
    }
  }

  /** A bookmark row of ours with an empty folder is invisible to the lookup
      for a NULL folder, yet collides with it in the coalescing index: the
      upsert inserts a second row and the flush would be refused. */
  lemma EmptyFolderCollides(x: Record, row: Incoming, now: Instant)
    requires x.id == 0 && Ours(x) && x.detail.Saved? && x.detail.folder == Some("")
    requires row.url == x.url && Normalize(row.folder) == None
    ensures var t := Table(map[0 := x], 1);
      Step(Bookmarks, t, row, now).Ok? && !BookmarkIndexAdmits(Step(Bookmarks, t, row, now).value.rows)
  {
    var t := Table(map[0 := x], 1);
    assert Matches(Bookmarks, t.rows, RowKey(Bookmarks, row)) == {};
    var u := Step(Bookmarks, t, row, now).value;
    assert BookmarkKeyOf(u.rows[0]) == BookmarkKeyOf(u.rows[1]);
  }

  // ---------------------------------------------------------------- embedding

  /** What `encode_sync` hands back for a batch of texts: an exception, a
      value that is not a list, or a list whose items are vectors (`Some`)
      or anything else (`None`). */
  datatype Reply = Failed | NotAList | Vectors(items: seq<Option<seq<real>>>)

  /** A row the backfill still has to embed. */
  predicate Eligible(rec: Record)
  {
    Ours(rec) && rec.embedding.None? && rec.deletedAt.None?
  }

  function EligibleIds(store: Store): set<int>
  {
    set id | id in store && Eligible(store[id])
  }

  function EmbeddedIds(store: Store): set<int>
  {
    set id | id in store && store[id].embedding.Some?
  }

  /** The rows one batch selects: at most `batchSize` eligible rows, in id
      order (the query has no `ORDER BY`). */
  function Batch(store: Store, batchSize: nat): (ids: seq<int>)
    ensures |ids| <= batchSize
    ensures forall i :: 0 <= i < |ids| ==> ids[i] in store && Eligible(store[ids[i]])
    ensures forall i, j :: 0 <= i < j < |ids| ==> ids[i] < ids[j]
    ensures batchSize > 0 && EligibleIds(store) != {} ==> ids != []
  {
    var all := Select(store, Eligible);
    var ids := Take(all, batchSize);
    BatchFacts(store, all, ids, batchSize);
    ids
  }

  lemma BatchFacts(store: Store, all: seq<int>, ids: seq<int>, batchSize: nat)
    requires forall i, j :: 0 <= i < j < |all| ==> all[i] < all[j]
    requires forall id :: id in all <==> id in store && Eligible(store[id])
    requires ids == Take(all, batchSize)
    ensures forall i :: 0 <= i < |ids| ==> ids[i] in store && Eligible(store[ids[i]])
    ensures forall i, j :: 0 <= i < j < |ids| ==> ids[i] < ids[j]
    ensures batchSize > 0 && EligibleIds(store) != {} ==> ids != []
  {
    forall i | 0 <= i < |ids| ensures ids[i] in store && Eligible(store[ids[i]]) {
      assert ids[i] == all[i] && all[i] in all;
    }
    var e := EligibleIds(store);
    if e != {} {
      if forall y :: y !in e { assert false; }
      var x :| x in e;
      assert x in all;
    }
  }

  /** The text embedded for a row: title and url, plus the folder for bookmarks. */
  function TextFor(k: Kind, rec: Record): string
  {
    TextForEmbedding(rec.title, rec.url, if k == History then "" else OrEmpty(Folder(rec)))
  }

  function Texts(k: Kind, store: Store, ids: seq<int>): (texts: seq<string>)
    requires forall i :: 0 <= i < |ids| ==> ids[i] in store
    ensures |texts| == |ids|
  {
    seq(|ids|, i requires 0 <= i < |ids| => TextFor(k, store[ids[i]]))
  }

  /** A reply item that is written: a list of exactly `EMBEDDING_DIM` numbers. */
  predicate Writable(item: Option<seq<real>>)
  {
    item.Some? && |item.value| == EMBEDDING_DIM
  }

  /** The `zip(entries, vectors)` loop: each writable vector is stored with
      the batch's timestamp; other rows stay as they are. */
  function WriteVectors(store: Store, ids: seq<int>, items: seq<Option<seq<real>>>, now: Instant): (r: Store)
    requires |items| == |ids|
    requires forall i :: 0 <= i < |ids| ==> ids[i] in store
    ensures r.Keys == store.Keys
    decreases |ids|
  {
    if ids == [] then store
    else
      var id := ids[0];
      var next := if Writable(items[0]) then store[id := store[id].(embedding := items[0], embeddingComputedAt := Some(now))] else store;
      WriteVectors(next, ids[1..], items[1..], now)
  }

  /** The outcome of one batch: the table after it and the number returned. */
  datatype Batched = Batched(store: Store, count: nat)

  /** The reply one batch gets: the encoder is only called when rows were selected. */
  function ReplyFor(k: Kind, store: Store, encode: seq<string> -> Reply, ids: seq<int>): Reply
    requires forall i :: 0 <= i < |ids| ==> ids[i] in store
  {
    if ids == [] then Failed else encode(Texts(k, store, ids))
  }

  /** What a batch does with the selected rows and the reply, as written:
      the number returned is the number of rows selected. */
  function Apply(store: Store, ids: seq<int>, reply: Reply, now: Instant): (b: Batched)
    requires forall i :: 0 <= i < |ids| ==> ids[i] in store
    ensures b.store.Keys == store.Keys
    ensures b.count <= |ids|
  {
    if ids == [] || !reply.Vectors? || |reply.items| != |ids| then Batched(store, 0)
    else Batched(WriteVectors(store, ids, reply.items, now), |ids|)
  }

  /** `embed_history_batch` / `embed_bookmarks_batch`, as written. */
  function EmbedBatch(k: Kind, store: Store, encode: seq<string> -> Reply, batchSize: nat, now: Instant): (b: Batched)
    ensures b.count <= batchSize
    ensures b.store.Keys == store.Keys
  {
    var ids := Batch(store, batchSize);
    Apply(store, ids, ReplyFor(k, store, encode, ids), now)
  }

  /** How one row fares in a batch: untouched, or given a writable vector
      and the batch's timestamp. */
  predicate RowOutcome(before: Record, after: Record, now: Instant)
  {
    after == before
    || (Eligible(before) && Writable(after.embedding)
        && after == before.(embedding := after.embedding, embeddingComputedAt := Some(now)))
  }

  /** Every row of the result is the input row, or an eligible row that got
      a vector of the right length and the shared timestamp. */
  lemma {:induction false} WriteVectorsRows(store: Store, ids: seq<int>, items: seq<Option<seq<real>>>, now: Instant)
    requires |items| == |ids|
    requires forall i :: 0 <= i < |ids| ==> ids[i] in store && Eligible(store[ids[i]])
    requires forall i, j :: 0 <= i < j < |ids| ==> ids[i] < ids[j]
    ensures var r := WriteVectors(store, ids, items, now);
      && (forall id :: id in store ==> RowOutcome(store[id], r[id], now))
      && (forall id :: id in store && id !in ids ==> r[id] == store[id])
      && (forall i :: 0 <= i < |ids| ==> (Writable(items[i]) <==> r[ids[i]].embedding.Some?))
    decreases |ids|
  {
    if ids != [] {
      var id := ids[0];
      var next := if Writable(items[0]) then store[id := store[id].(embedding := items[0], embeddingComputedAt := Some(now))] else store;
      forall i | 0 <= i < |ids[1..]| ensures ids[1..][i] in next && Eligible(next[ids[1..][i]]) {
        assert ids[1..][i] == ids[i + 1] && ids[0] < ids[i + 1];
      }
      WriteVectorsRows(next, ids[1..], items[1..], now);
      var r := WriteVectors(store, ids, items, now);
      assert r == WriteVectors(next, ids[1..], items[1..], now);
      forall x | x in store ensures RowOutcome(store[x], r[x], now) {
        assert RowOutcome(next[x], r[x], now);
        if x == id && Writable(items[0]) {
          assert x !in ids[1..] by { NotLater(ids, 0); }
          assert r[x] == next[x];
        }
      }
      forall i | 0 <= i < |ids| ensures Writable(items[i]) <==> r[ids[i]].embedding.Some? {
        if i == 0 {
          NotLater(ids, 0);
          assert ids[0] !in ids[1..] && r[ids[0]] == next[ids[0]];
        } else {
          assert ids[i] == ids[1..][i - 1] && items[i] == items[1..][i - 1];
        }
      }
    }
  }

  /** The number of reply items the loop writes. */
  function CountWritable(items: seq<Option<seq<real>>>): (n: nat)
    ensures n <= |items|
  {
    if items == [] then 0 else (if Writable(items[0]) then 1 else 0) + CountWritable(items[1..])
  }

  /** Each written vector takes one row off the eligible set and adds none. */
  lemma {:induction false} WriteVectorsCount(store: Store, ids: seq<int>, items: seq<Option<seq<real>>>, now: Instant)
    requires |items| == |ids|
    requires forall i :: 0 <= i < |ids| ==> ids[i] in store && Eligible(store[ids[i]])
    requires forall i, j :: 0 <= i < j < |ids| ==> ids[i] < ids[j]
    ensures var r := WriteVectors(store, ids, items, now);
      EligibleIds(r) <= EligibleIds(store) && |EligibleIds(r)| + CountWritable(items) == |EligibleIds(store)|
    decreases |ids|
  {
    if ids != [] {
      var id := ids[0];
      var next := if Writable(items[0]) then store[id := store[id].(embedding := items[0], embeddingComputedAt := Some(now))] else store;
      forall i | 0 <= i < |ids[1..]| ensures ids[1..][i] in next && Eligible(next[ids[1..][i]]) {
        assert ids[1..][i] == ids[i + 1] && ids[0] < ids[i + 1];
      }
      WriteVectorsCount(next, ids[1..], items[1..], now);
      if Writable(items[0]) {
        assert EligibleIds(next) == EligibleIds(store) - {id};
      } else {
        assert EligibleIds(next) == EligibleIds(store);
      }
    }
  }

  /** The facts of one batch as written: it returns 0 and changes nothing
      when no row is selected, the encoder raises, the reply is not a list
      or has the wrong length; otherwise it returns the number of rows
      selected, however many vectors it wrote. Rows are only ever given a
      vector of the right length, so the embedded set only grows. */
  lemma EmbedBatchFacts(k: Kind, store: Store, encode: seq<string> -> Reply, batchSize: nat, now: Instant)
    ensures var b := EmbedBatch(k, store, encode, batchSize, now);
      var ids := Batch(store, batchSize);
      var reply := ReplyFor(k, store, encode, ids);
      && (b.count == 0 <==> ids == [] || !reply.Vectors? || |reply.items| != |ids|)
      && (b.count == 0 ==> b.store == store)
      && (b.count > 0 ==> b.count == |ids|)
      && (forall id :: id in store ==> RowOutcome(store[id], b.store[id], now))
      && (forall id :: id in store && id !in ids ==> b.store[id] == store[id])
      && EligibleIds(b.store) <= EligibleIds(store)
  {
    var ids := Batch(store, batchSize);
    ApplyFacts(store, ids, ReplyFor(k, store, encode, ids), now);
  }

  lemma ApplyFacts(store: Store, ids: seq<int>, reply: Reply, now: Instant)
    requires forall i :: 0 <= i < |ids| ==> ids[i] in store && Eligible(store[ids[i]])
    requires forall i, j :: 0 <= i < j < |ids| ==> ids[i] < ids[j]
    ensures var b := Apply(store, ids, reply, now);
      && (b.count == 0 <==> ids == [] || !reply.Vectors? || |reply.items| != |ids|)
      && (b.count == 0 ==> b.store == store)
      && (b.count > 0 ==> b.count == |ids|)
      && (forall id :: id in store ==> RowOutcome(store[id], b.store[id], now))
      && (forall id :: id in store && id !in ids ==> b.store[id] == store[id])
      && EligibleIds(b.store) <= EligibleIds(store)
      && (b.count > 0 ==> |EligibleIds(b.store)| + CountWritable(reply.items) == |EligibleIds(store)|)
  {
    if ids != [] && reply.Vectors? && |reply.items| == |ids| {
      WriteVectorsRows(store, ids, reply.items, now);
      WriteVectorsCount(store, ids, reply.items, now);
    }
  }

  /** Rows never lose an embedding: a row is only ever given one. */
  lemma EmbeddedGrows(store: Store, next: Store, now: Instant)
    requires store.Keys == next.Keys
    requires forall id :: id in store ==> RowOutcome(store[id], next[id], now)
    ensures EmbeddedIds(store) <= EmbeddedIds(next)
  {
    forall id | id in EmbeddedIds(store) ensures id in EmbeddedIds(next) {
      assert RowOutcome(store[id], next[id], now);
    }
  }

  /** A batch that returns 0 changes nothing, and no batch removes an embedding. */
  lemma EmbedBatchMonotone(k: Kind, store: Store, encode: seq<string> -> Reply, batchSize: nat, now: Instant)
    ensures var b := EmbedBatch(k, store, encode, batchSize, now);
      (b.count == 0 ==> b.store == store) && EmbeddedIds(store) <= EmbeddedIds(b.store)
  {
    EmbedBatchFacts(k, store, encode, batchSize, now);
    var b := EmbedBatch(k, store, encode, batchSize, now);
    EmbeddedGrows(store, b.store, now);
  }

  /** The evidently intended batch: the same writes, returning the number of
      rows updated, as the functions' docstrings promise. */
  function EmbedBatchFixed(k: Kind, store: Store, encode: seq<string> -> Reply, batchSize: nat, now: Instant): (b: Batched)
  {
    var ids := Batch(store, batchSize);
    var b := Apply(store, ids, ReplyFor(k, store, encode, ids), now);
    if b.count == 0 then b else Batched(b.store, CountWritable(ReplyFor(k, store, encode, ids).items))
  }

  /** The corrected batch makes the same writes; its count is exactly the
      number of rows it embedded, never more than the as-written count. */
  lemma EmbedBatchFixedCounts(k: Kind, store: Store, encode: seq<string> -> Reply, batchSize: nat, now: Instant)
    ensures var b := EmbedBatchFixed(k, store, encode, batchSize, now);
      && b.store == EmbedBatch(k, store, encode, batchSize, now).store
      && EligibleIds(b.store) <= EligibleIds(store)
      && b.count == |EligibleIds(store)| - |EligibleIds(b.store)|
      && b.count <= EmbedBatch(k, store, encode, batchSize, now).count
  {
    var ids := Batch(store, batchSize);
    var reply := ReplyFor(k, store, encode, ids);
    ApplyFacts(store, ids, reply, now);
  }

  /** The result of draining one table: the table and the sum of the batch returns. */
  datatype Drained = Drained(store: Store, total: nat)

  /** One batch of table `k`, as written, as a step of the loop. */
  function BatchAsWritten(k: Kind, encode: seq<string> -> Reply, batchSize: nat, now: Instant): Store -> Batched
  {
    s => EmbedBatch(k, s, encode, batchSize, now)
  }

  /** The same with the corrected count. */
  function BatchFixed(k: Kind, encode: seq<string> -> Reply, batchSize: nat, now: Instant): Store -> Batched
  {
    s => EmbedBatchFixed(k, s, encode, batchSize, now)
  }

  /** A `while True` loop that calls `step` until it returns 0, summing the
      returns; `fuel` bounds the number of calls, and `None` means it ran out. */
  function Loop(step: Store -> Batched, store: Store, fuel: nat): Option<Drained>
    decreases fuel
  {
    if fuel == 0 then None
    else
      var b := step(store);
      if b.count == 0 then Some(Drained(b.store, 0))
      else
        match Loop(step, b.store, fuel - 1)
        case None => None
        case Some(d) => Some(Drained(d.store, d.total + b.count))
  }

  /** A step that returns 0 changes nothing, and no step removes an embedding. */
  ghost predicate Monotone(step: Store -> Batched)
  {
    forall s :: (step(s).count == 0 ==> step(s).store == s) && EmbeddedIds(s) <= EmbeddedIds(step(s).store)
  }

  /** Every step that returns more than 0 embeds a row. */
  ghost predicate Shrinks(step: Store -> Batched)
  {
    forall s :: step(s).count > 0 ==> |EligibleIds(step(s).store)| < |EligibleIds(s)|
  }

  /** A step returns exactly the number of rows it embedded. */
  ghost predicate Counts(step: Store -> Batched)
  {
    forall s :: EligibleIds(step(s).store) <= EligibleIds(s) && step(s).count == |EligibleIds(s)| - |EligibleIds(step(s).store)|
  }

  /** When the loop ends, it ended on a step that returned 0, and it has
      only ever added embeddings. */
  lemma {:induction false} LoopFacts(step: Store -> Batched, store: Store, fuel: nat)
    requires Monotone(step)
    ensures var r := Loop(step, store, fuel);
      r.Some? ==> step(r.value.store).count == 0 && EmbeddedIds(store) <= EmbeddedIds(r.value.store)
    decreases fuel
  {
    if fuel > 0 && step(store).count > 0 {
      LoopFacts(step, step(store).store, fuel - 1);
    }
  }

  /** A step that returns a positive count and leaves the table as it is
      keeps the loop going for ever. */
  lemma {:induction false} LoopNeverStops(step: Store -> Batched, store: Store, n: nat, fuel: nat)
    requires n > 0 && step(store) == Batched(store, n)
    ensures Loop(step, store, fuel).None?
    decreases fuel
  {
    if fuel > 0 {
      LoopNeverStops(step, store, n, fuel - 1);
    }
  }

  /** The corrected loop needs no fuel: every step that does not end it
      embeds a row. */
  function LoopFixed(step: Store -> Batched, store: Store): Drained
    requires Shrinks(step)
    decreases |EligibleIds(store)|
  {
    var b := step(store);
    if b.count == 0 then Drained(b.store, 0)
    else
      var d := LoopFixed(step, b.store);
      Drained(d.store, d.total + b.count)
  }

  lemma {:induction false} LoopFixedFacts(step: Store -> Batched, store: Store)
    requires Shrinks(step) && Counts(step) && Monotone(step)
    ensures var d := LoopFixed(step, store);
      && EligibleIds(d.store) <= EligibleIds(store)
      && d.total == |EligibleIds(store)| - |EligibleIds(d.store)|
      && step(d.store).count == 0
    decreases |EligibleIds(store)|
  {
    if step(store).count > 0 {
      LoopFixedFacts(step, step(store).store);
    }
  }

  lemma BatchAsWrittenMonotone(k: Kind, encode: seq<string> -> Reply, batchSize: nat, now: Instant)
    ensures Monotone(BatchAsWritten(k, encode, batchSize, now))
  {
    forall s ensures var b := EmbedBatch(k, s, encode, batchSize, now);
      (b.count == 0 ==> b.store == s) && EmbeddedIds(s) <= EmbeddedIds(b.store)
    {
      EmbedBatchMonotone(k, s, encode, batchSize, now);
    }
  }

  lemma BatchFixedProps(k: Kind, encode: seq<string> -> Reply, batchSize: nat, now: Instant)
    ensures var step := BatchFixed(k, encode, batchSize, now);
      Monotone(step) && Shrinks(step) && Counts(step)
  {
    forall s ensures var b := EmbedBatchFixed(k, s, encode, batchSize, now);
      (b.count == 0 ==> b.store == s) && EmbeddedIds(s) <= EmbeddedIds(b.store)
    {
      EmbedBatchFixedSettles(k, s, encode, batchSize, now);
    }
    forall s ensures var b := EmbedBatchFixed(k, s, encode, batchSize, now);
      EligibleIds(b.store) <= EligibleIds(s) && b.count == |EligibleIds(s)| - |EligibleIds(b.store)|
    {
      EmbedBatchFixedCounts(k, s, encode, batchSize, now);
    }
  }

  /** A corrected batch that returns 0 wrote nothing; no corrected batch
      removes an embedding. */
  lemma EmbedBatchFixedSettles(k: Kind, store: Store, encode: seq<string> -> Reply, batchSize: nat, now: Instant)
    ensures var b := EmbedBatchFixed(k, store, encode, batchSize, now);
      (b.count == 0 ==> b.store == store) && EmbeddedIds(store) <= EmbeddedIds(b.store)
  {
    EmbedBatchMonotone(k, store, encode, batchSize, now);
    var ids := Batch(store, batchSize);
    var reply := ReplyFor(k, store, encode, ids);
    var a := Apply(store, ids, reply, now);
    assert EmbedBatch(k, store, encode, batchSize, now) == a;
    if a.count > 0 && CountWritable(reply.items) == 0 {
      NothingWritable(reply.items);
      WriteVectorsSame(store, ids, reply.items, now);
    }
  }

  /** No item counted means no item writable. */
  lemma {:induction false} NothingWritable(items: seq<Option<seq<real>>>)
    requires CountWritable(items) == 0
    ensures forall i :: 0 <= i < |items| ==> !Writable(items[i])
  {
    if items != [] {
      NothingWritable(items[1..]);
      forall i | 0 < i < |items| ensures !Writable(items[i]) {
        assert items[i] == items[1..][i - 1];
      }
    }
  }

  /** One `while True` loop of `run_embedding_backfill`, as written. */
  function Drain(k: Kind, store: Store, encode: seq<string> -> Reply, batchSize: nat, now: Instant, fuel: nat): Option<Drained>
  {
    Loop(BatchAsWritten(k, encode, batchSize, now), store, fuel)
  }

  /** When the loop ends, it ended on a batch that returned 0 (the loop exits
      on the first 0), and it has only ever added embeddings. */
  lemma DrainFacts(k: Kind, store: Store, encode: seq<string> -> Reply, batchSize: nat, now: Instant, fuel: nat)
    ensures var r := Drain(k, store, encode, batchSize, now, fuel);
      r.Some? ==> EmbedBatch(k, r.value.store, encode, batchSize, now).count == 0
                  && EmbeddedIds(store) <= EmbeddedIds(r.value.store)
  {
    BatchAsWrittenMonotone(k, encode, batchSize, now);
    LoopFacts(BatchAsWritten(k, encode, batchSize, now), store, fuel);
  }

  /** An encoder that answers every batch with one vector per text, each of
      the wrong length (empty). */
  function WrongLength(texts: seq<string>): Reply
  {
    Vectors(seq(|texts|, _ => Some([])))
  }

  /** One batch with the wrong-length encoder writes nothing, yet returns
      the number of rows it selected. */
  lemma WrongLengthStuck(k: Kind, store: Store, batchSize: nat, now: Instant)
    ensures var ids := Batch(store, batchSize);
      EmbedBatch(k, store, WrongLength, batchSize, now) == Batched(store, |ids|)
  {
    var ids := Batch(store, batchSize);
    var reply := ReplyFor(k, store, WrongLength, ids);
    assert EmbedBatch(k, store, WrongLength, batchSize, now) == Apply(store, ids, reply, now);
    if ids != [] {
      WrongLengthUnwritable(Texts(k, store, ids));
      ApplyUnwritable(store, ids, reply, now);
    }
  }

  lemma WrongLengthUnwritable(texts: seq<string>)
    ensures WrongLength(texts).Vectors? && |WrongLength(texts).items| == |texts|
    ensures forall i :: 0 <= i < |texts| ==> !Writable(WrongLength(texts).items[i])
  {
  }

  /** A reply of the right length none of whose items is writable changes
      nothing, and the batch still counts every row it selected. */
  lemma ApplyUnwritable(store: Store, ids: seq<int>, reply: Reply, now: Instant)
    requires forall i :: 0 <= i < |ids| ==> ids[i] in store
    requires ids != [] && reply.Vectors? && |reply.items| == |ids|
    requires forall i :: 0 <= i < |ids| ==> !Writable(reply.items[i])
    ensures Apply(store, ids, reply, now) == Batched(store, |ids|)
  {
    WriteVectorsSame(store, ids, reply.items, now);
  }

  /** Writing only unwritable items leaves the table as it is. */
  lemma {:induction false} WriteVectorsSame(store: Store, ids: seq<int>, items: seq<Option<seq<real>>>, now: Instant)
    requires |items| == |ids|
    requires forall i :: 0 <= i < |ids| ==> ids[i] in store
    requires forall i :: 0 <= i < |items| ==> !Writable(items[i])
    ensures WriteVectors(store, ids, items, now) == store
    decreases |ids|
  {
    if ids != [] {
      assert !Writable(items[0]);
      WriteVectorsSame(store, ids[1..], items[1..], now);
    }
  }

  /** As written, such an encoder keeps the loop going: every batch selects
      the same rows, writes nothing and returns their number, so no amount
      of fuel reaches a batch that returns 0. */
  lemma DrainNeverStops(k: Kind, store: Store, batchSize: nat, now: Instant, fuel: nat)
    requires batchSize > 0 && EligibleIds(store) != {}
    ensures Drain(k, store, WrongLength, batchSize, now, fuel).None?
  {
    WrongLengthStuck(k, store, batchSize, now);
    var step := BatchAsWritten(k, WrongLength, batchSize, now);
    assert step(store) == Batched(store, |Batch(store, batchSize)|);
    LoopNeverStops(step, store, |Batch(store, batchSize)|, fuel);
  }

  /** The corrected loop: the same batches with the corrected count. */
  function DrainFixed(k: Kind, store: Store, encode: seq<string> -> Reply, batchSize: nat, now: Instant): Drained
  {
    BatchFixedProps(k, encode, batchSize, now);
    LoopFixed(BatchFixed(k, encode, batchSize, now), store)
  }

  /** The corrected loop reports exactly the rows it embedded and stops on a
      batch that embeds nothing. */
  lemma DrainFixedFacts(k: Kind, store: Store, encode: seq<string> -> Reply, batchSize: nat, now: Instant)
    ensures var d := DrainFixed(k, store, encode, batchSize, now);
      && EligibleIds(d.store) <= EligibleIds(store)
      && d.total == |EligibleIds(store)| - |EligibleIds(d.store)|
      && EmbedBatchFixed(k, d.store, encode, batchSize, now).count == 0
  {
    BatchFixedProps(k, encode, batchSize, now);
    LoopFixedFacts(BatchFixed(k, encode, batchSize, now), store);
  }

  /** With the wrong-length encoder the corrected loop stops at once and
      leaves the table as it is. */
  lemma DrainFixedWrongLength(k: Kind, store: Store, batchSize: nat, now: Instant)
    ensures DrainFixed(k, store, WrongLength, batchSize, now) == Drained(store, 0)
  {
    var ids := Batch(store, batchSize);
    WrongLengthStuck(k, store, batchSize, now);
    if ids != [] {
      var texts := Texts(k, store, ids);
      assert ReplyFor(k, store, WrongLength, ids) == WrongLength(texts);
      WrongLengthUnwritable(texts);
      NoneWritable(WrongLength(texts).items);
    }
    BatchFixedProps(k, WrongLength, batchSize, now);
    assert BatchFixed(k, WrongLength, batchSize, now)(store) == Batched(store, 0);
  }

  lemma {:induction false} NoneWritable(items: seq<Option<seq<real>>>)
    requires forall i :: 0 <= i < |items| ==> !Writable(items[i])
    ensures CountWritable(items) == 0
  {
    if items != [] {
      assert !Writable(items[0]);
      NoneWritable(items[1..]);
    }
  }

  /** The two tables after a backfill and the two totals. */
  datatype Backfilled = Backfilled(history: Store, bookmarks: Store, historyTotal: nat, bookmarksTotal: nat)

  /** `run_embedding_backfill` as written: history is drained first, then
      bookmarks; `None` when either loop runs out of fuel. */
  function Backfill(history: Store, bookmarks: Store, encode: seq<string> -> Reply, batchSize: nat, now: Instant, fuel: nat): Option<Backfilled>
  {
    match Drain(History, history, encode, batchSize, now, fuel)
    case None => None
    case Some(h) =>
      match Drain(Bookmarks, bookmarks, encode, batchSize, now, fuel)
      case None => None
      case Some(b) => Some(Backfilled(h.store, b.store, h.total, b.total))
  }

  /** The corrected backfill, which always finishes. */
  function BackfillFixed(history: Store, bookmarks: Store, encode: seq<string> -> Reply, batchSize: nat, now: Instant): Backfilled
  {
    var h := DrainFixed(History, history, encode, batchSize, now);
    var b := DrainFixed(Bookmarks, bookmarks, encode, batchSize, now);
    Backfilled(h.store, b.store, h.total, b.total)
  }

  /** Each corrected total counts exactly the rows embedded in its table, and
      afterwards neither table has a batch left that would embed anything. */
  lemma BackfillFixedFacts(history: Store, bookmarks: Store, encode: seq<string> -> Reply, batchSize: nat, now: Instant)
    ensures var r := BackfillFixed(history, bookmarks, encode, batchSize, now);
      && r.historyTotal == |EligibleIds(history)| - |EligibleIds(r.history)|
      && r.bookmarksTotal == |EligibleIds(bookmarks)| - |EligibleIds(r.bookmarks)|
      && EmbedBatchFixed(History, r.history, encode, batchSize, now).count == 0
      && EmbedBatchFixed(Bookmarks, r.bookmarks, encode, batchSize, now).count == 0
  {
    DrainFixedFacts(History, history, encode, batchSize, now);
    DrainFixedFacts(Bookmarks, bookmarks, encode, batchSize, now);
  }

  /** As written, a wrong-length encoder and one pending history row keep
      the backfill from finishing, whatever the fuel. */
  lemma BackfillNeverStops(history: Store, bookmarks: Store, batchSize: nat, now: Instant, fuel: nat)
    requires batchSize > 0 && EligibleIds(history) != {}
    ensures Backfill(history, bookmarks, WrongLength, batchSize, now, fuel).None?
  {
    DrainNeverStops(History, history, batchSize, now, fuel);
  }

  /** In a strictly increasing list an element does not recur later. */
  lemma NotLater(ids: seq<int>, i: int)
    requires 0 <= i < |ids|
    requires forall a, b :: 0 <= a < b < |ids| ==> ids[a] < ids[b]
    ensures ids[i] !in ids[i + 1..]
  {
    var later := ids[i + 1..];
    forall j | 0 <= j < |later| ensures later[j] != ids[i] {
      assert later[j] == ids[i + j + 1];
    }
  }
}

=== FILE: text.dfy ===
/** String operations the Python code uses: `str.strip`, `str.isdigit` with
    `int()`, `" ".join`, `str.replace` and the case-insensitive substring test
    that SQL `ILIKE '%v%'` performs. Strings are `seq<char>`. */
module Text {

  /** Python's `str.isspace` on one character: the characters `str.strip()` removes. */
  predicate IsSpace(c: char)
  {
    || c == ' ' || ('\U{9}' <= c <= '\U{D}') || ('\U{1C}' <= c <= '\U{1F}')
    || c == '\U{85}' || c == '\U{A0}' || c == '\U{1680}'
    || ('\U{2000}' <= c <= '\U{200A}')
    || c == '\U{2028}' || c == '\U{2029}' || c == '\U{202F}' || c == '\U{205F}' || c == '\U{3000}'
  }

  /** Number of whitespace characters at the front of `s`. */
  function LeadingSpaces(s: string): (n: nat)
    ensures n <= |s|
    ensures forall i :: 0 <= i < n ==> IsSpace(s[i])
    ensures n < |s| ==> !IsSpace(s[n])
  {
    if s == [] || !IsSpace(s[0]) then 0 else 1 + LeadingSpaces(s[1..])
  }

  /** Length of `s` once its trailing whitespace is cut off. */
  function TrailingStart(s: string): (n: nat)
    ensures n <= |s|
    ensures forall i :: n <= i < |s| ==> IsSpace(s[i])
    ensures n > 0 ==> !IsSpace(s[n - 1])
  {
    if s == [] || !IsSpace(s[|s| - 1]) then |s| else TrailingStart(s[..|s| - 1])
  }

  /** Python `s.strip()`. */
  function Strip(s: string): (r: string)
    ensures |r| <= |s|
    ensures r == [] || (!IsSpace(r[0]) && !IsSpace(r[|r| - 1]))
    ensures forall c :: c in r ==> c in s
  {
    var t := s[LeadingSpaces(s)..];
    t[..TrailingStart(t)]
  }

  /** True when `s.strip()` is empty, i.e. `s` holds nothing but whitespace. */
  predicate IsBlank(s: string)
  {
    Strip(s) == []
  }

  lemma BlankIffAllSpace(s: string)
    ensures IsBlank(s) <==> forall i :: 0 <= i < |s| ==> IsSpace(s[i])
  {
    var k := LeadingSpaces(s);
    var t := s[k..];
    if forall i :: 0 <= i < |s| ==> IsSpace(s[i]) {
      assert k == |s|;
    } else {
      assert k < |s|;
      assert t[0] == s[k];
      assert TrailingStart(t) > 0;
    }
  }

  lemma StripIdempotent(s: string)
    ensures Strip(Strip(s)) == Strip(s)
  {
    var r := Strip(s);
    assert LeadingSpaces(r) == 0;
    var t := r[LeadingSpaces(r)..];
    assert t == r;
    assert TrailingStart(t) == |t|;
  }

  /** ASCII lower-casing of one character. */
  function LowerChar(c: char): char
  {
    if 'A' <= c <= 'Z' then (c as int + 32) as char else c
  }

  function Lower(s: string): (r: string)
    ensures |r| == |s|
    ensures forall i :: 0 <= i < |s| ==> r[i] == LowerChar(s[i])
  {
    if s == [] then [] else [LowerChar(s[0])] + Lower(s[1..])
  }

  /** `needle` occurs in `hay` as a contiguous block. */
  predicate HasSubstring(hay: string, needle: string)
  {
    exists i :: 0 <= i <= |hay| - |needle| && OccursAt(hay, needle, i)
  }

  /** `needle` is found in `hay` starting at position `i`. */
  predicate OccursAt(hay: string, needle: string, i: int)
    requires 0 <= i <= |hay| - |needle|
  {
    hay[i..i + |needle|] == needle
  }

  /** SQL `hay ILIKE '%' || needle || '%'` (wildcards inside `needle` are taken literally). */
  predicate ContainsIgnoringCase(hay: string, needle: string)
  {
    HasSubstring(Lower(hay), Lower(needle))
  }

  predicate IsAsciiDigit(c: char) { '0' <= c <= '9' }

  /** Python `s.isdigit()` restricted to ASCII digits: non-empty and all digits. */
  predicate AllDigits(s: string)
  {
    |s| > 0 && forall i :: 0 <= i < |s| ==> IsAsciiDigit(s[i])
  }

  /** Python `int(s)` on a string of ASCII digits. */
  function DigitsValue(s: string): (v: nat)
    requires forall i :: 0 <= i < |s| ==> IsAsciiDigit(s[i])
    decreases |s|
  {
    if s == [] then 0
    else
      assert IsAsciiDigit(s[|s| - 1]);
      10 * DigitsValue(s[..|s| - 1]) + (s[|s| - 1] as int - '0' as int)
  }

  /** A string with no whitespace at either end is its own `strip()`. */
  lemma StripUntrimmed(s: string)
    requires s != [] && !IsSpace(s[0]) && !IsSpace(s[|s| - 1])
    ensures Strip(s) == s
  {
    assert LeadingSpaces(s) == 0;
    assert s[0..] == s;
    assert TrailingStart(s) == |s|;
  }

  /** Python `" ".join(p for p in parts if p)`. */
  function JoinNonEmpty(parts: seq<string>): string
  {
    if parts == [] then ""
    else if parts[0] == "" then JoinNonEmpty(parts[1..])
    else
      var rest := JoinNonEmpty(parts[1..]);
      if rest == "" then parts[0] else parts[0] + " " + rest
  }

  /** Python `s.replace(from, to)` for a one-character `from`. */
  function ReplaceChar(s: string, from: char, to: string): (r: string)
    ensures from !in to ==> from !in r
    ensures from !in s ==> r == s
  {
    if s == [] then []
    else (if s[0] == from then to else [s[0]]) + ReplaceChar(s[1..], from, to)
  }
}

=== FILE: tool.dfy ===
/** `search_browser_unified_tool`: the strict front end. Exactly one of the
    two tables must be selected; the request then becomes a count, a
    grouped aggregate or a search of that table alone. */
module Tool {
  import opened Basics
  import opened Text
  import opened Ordering
  import opened Models
  import opened Filters
  import opened Fusion
  import opened Retrieval

  /** The three shapes of a successful reply. */
  datatype Reply =
    | Counted(count: nat)
    | Aggregated(groups: seq<Group>)
    | Searched(results: seq<Fused>, totalAvailable: nat, executed: seq<Method>, timing: set<string>)

  const SourceRule: string := "Exactly one browser source"
  const SourceError: string := SourceRule + " must be selected (search_history xor search_bookmarks)."

  /** The name the error messages give a table. */
  function SourceName(k: Kind): string
  {
    if k == History then "history" else "bookmarks"
  }

  function UnsupportedGroup(groupBy: string, k: Kind): string
  {
    "group_by='" + groupBy + "' is not supported for selected source '" + SourceName(k) + "'"
  }

  /** The tool. A `ValueError` it raises, or one the engine raises on a
      malformed date, is an `Err` carrying the message. */
  function UnifiedTool(b: Backend, history: Store, bookmarks: Store, query: string,
                       methods: Option<seq<string>>, filters: seq<Clause>, topK: int,
                       searchHistory: bool, searchBookmarks: bool, mode: string,
                       groupBy: Option<string>, aggregateTopN: int): (r: Result<Reply>)
    ensures searchHistory == searchBookmarks ==> r == Err(SourceError)
  {
    if searchHistory == searchBookmarks then Err(SourceError)
    else
      var k := if searchHistory then History else Bookmarks;
      var store := if searchHistory then history else bookmarks;
      if mode == "count" then
        match Count(k, b.cal, store, filters)
        case Ok(n) => Ok(Counted(n))
        case Err(e) => Err(e)
      else if mode == "aggregate" && Truthy(groupBy) then
        if groupBy.value == LabelField(k) then
          match Aggregate(k, b.cal, store, LabelField(k), filters, CapLimit(aggregateTopN))
          case Ok(groups) => Ok(Aggregated(groups))
          case Err(e) => Err(e)
        else Err(UnsupportedGroup(groupBy.value, k))
      else
        var out := Search(k, b, store, query, methods, filters, CapLimit(topK));
        Ok(Searched(out.results, |out.results|, out.executed, out.timing))
  }

  /** The table a valid request selects. */
  function Selected(searchHistory: bool): Kind
  {
    if searchHistory then History else Bookmarks
  }

  /** Both or neither table selected: the request is refused with a message
      naming the rule, before anything is read. */
  lemma ToolRejectsSources(b: Backend, history: Store, bookmarks: Store, query: string,
                           methods: Option<seq<string>>, filters: seq<Clause>, topK: int,
                           selected: bool, mode: string, groupBy: Option<string>, aggregateTopN: int)
    ensures var r := UnifiedTool(b, history, bookmarks, query, methods, filters, topK, selected, selected,
                                 mode, groupBy, aggregateTopN);
      r.Err? && HasSubstring(r.message, SourceRule)
  {
    assert SourceError[..|SourceRule|] == SourceRule;
    assert OccursAt(SourceError, SourceRule, 0);
  }

  /** Count mode answers with the number of live rows of the selected table
      that satisfy every filter, or fails on a malformed filter. */
  lemma ToolCount(b: Backend, history: Store, bookmarks: Store, query: string,
                  methods: Option<seq<string>>, filters: seq<Clause>, topK: int,
                  searchHistory: bool, groupBy: Option<string>, aggregateTopN: int)
    ensures var k := Selected(searchHistory);
      var store := if searchHistory then history else bookmarks;
      var r := UnifiedTool(b, history, bookmarks, query, methods, filters, topK, searchHistory, !searchHistory,
                           "count", groupBy, aggregateTopN);
      && (r.Err? <==> exists i :: 0 <= i < |filters| && Malformed(k, b.cal, filters[i]))
      && (r.Ok? ==> r.value == Counted(|Matching(k, b.cal, store, filters)|))
  {
    var k := Selected(searchHistory);
    var store := if searchHistory then history else bookmarks;
    var c := Count(k, b.cal, store, filters);
    assert UnifiedTool(b, history, bookmarks, query, methods, filters, topK, searchHistory, !searchHistory,
                       "count", groupBy, aggregateTopN)
      == if c.Ok? then Ok(Counted(c.value)) else Err(c.message);
  }

  /** Aggregate mode with a field the selected table cannot be grouped by is
      refused with a message naming the field and the table. */
  lemma ToolRejectsGroupBy(b: Backend, history: Store, bookmarks: Store, query: string,
                           methods: Option<seq<string>>, filters: seq<Clause>, topK: int,
                           searchHistory: bool, groupBy: string, aggregateTopN: int)
    requires groupBy != "" && groupBy != LabelField(Selected(searchHistory))
    ensures UnifiedTool(b, history, bookmarks, query, methods, filters, topK, searchHistory, !searchHistory,
                        "aggregate", Some(groupBy), aggregateTopN)
      == Err(UnsupportedGroup(groupBy, Selected(searchHistory)))
  {
  }

  /** Aggregate mode with the table's own field: at most the clamped
      `aggregate_top_n` groups, largest first, each a distinct label with its
      number of matching rows, none left out larger than one returned, and
      every label present when fewer groups come back. */
  lemma ToolAggregate(b: Backend, history: Store, bookmarks: Store, query: string,
                      methods: Option<seq<string>>, filters: seq<Clause>, topK: int,
                      searchHistory: bool, aggregateTopN: int)
    requires Compile(Selected(searchHistory), b.cal, filters).Ok?
    ensures var k := Selected(searchHistory);
      var store := if searchHistory then history else bookmarks;
      var r := UnifiedTool(b, history, bookmarks, query, methods, filters, topK, searchHistory, !searchHistory,
                           "aggregate", Some(LabelField(k)), aggregateTopN);
      r.Ok? && r.value.Aggregated?
      && |r.value.groups| <= CapLimit(aggregateTopN)
      && (forall i, j :: 0 <= i < j < |r.value.groups| ==> r.value.groups[i].count >= r.value.groups[j].count)
      && (forall i, j :: 0 <= i < j < |r.value.groups| ==> r.value.groups[i].value != r.value.groups[j].value)
      && (forall i :: 0 <= i < |r.value.groups| ==>
            IsGroupValue(k, b.cal, store, filters, r.value.groups[i].value)
            && r.value.groups[i].count == |Members(k, b.cal, store, filters, r.value.groups[i].value)|)
      && LargestKept(k, b.cal, store, filters, r.value.groups)
      && (|r.value.groups| < CapLimit(aggregateTopN) ==>
            forall v :: IsGroupValue(k, b.cal, store, filters, v) ==> Listed(r.value.groups, v))
  {
    var k := Selected(searchHistory);
    var store := if searchHistory then history else bookmarks;
    ToolAggregateIs(b, history, bookmarks, query, methods, filters, topK, searchHistory, aggregateTopN);
    AggregateGroups(k, b.cal, store, filters, CapLimit(aggregateTopN));
  }

  /** Aggregate mode with the table's own field is the engine's aggregation. */
  lemma ToolAggregateIs(b: Backend, history: Store, bookmarks: Store, query: string,
                        methods: Option<seq<string>>, filters: seq<Clause>, topK: int,
                        searchHistory: bool, aggregateTopN: int)
    requires Compile(Selected(searchHistory), b.cal, filters).Ok?
    ensures var k := Selected(searchHistory);
      var store := if searchHistory then history else bookmarks;
      var a := Aggregate(k, b.cal, store, LabelField(k), filters, CapLimit(aggregateTopN));
      a.Ok? && UnifiedTool(b, history, bookmarks, query, methods, filters, topK, searchHistory, !searchHistory,
                           "aggregate", Some(LabelField(k)), aggregateTopN) == Ok(Aggregated(a.value))
  {
    var k := Selected(searchHistory);
    var store := if searchHistory then history else bookmarks;
    var n := CapLimit(aggregateTopN);
    var groups := Take(SortDesc(Groups(store, Compile(k, b.cal, filters).value), CountKey), n);
    assert Aggregate(k, b.cal, store, LabelField(k), filters, n) == Ok(groups);
    assert "aggregate" != "count";
    assert Truthy(Some(LabelField(k)));
  }

  /** Any other mode, or aggregate without a field, searches the selected
      table alone and returns the engine's results unchanged: at most the
      clamped `top_k`, each a live row of that table satisfying every
      filter, with `total_available` their number. */
  lemma ToolSearch(b: Backend, history: Store, bookmarks: Store, query: string,
                   methods: Option<seq<string>>, filters: seq<Clause>, topK: int,
                   searchHistory: bool, mode: string, groupBy: Option<string>, aggregateTopN: int)
    requires mode != "count" && !(mode == "aggregate" && Truthy(groupBy))
    ensures var k := Selected(searchHistory);
      var store := if searchHistory then history else bookmarks;
      var out := Search(k, b, store, query, methods, filters, CapLimit(topK));
      var r := UnifiedTool(b, history, bookmarks, query, methods, filters, topK, searchHistory, !searchHistory,
                           mode, groupBy, aggregateTopN);
      && r == Ok(Searched(out.results, |out.results|, out.executed, out.timing))
      && r.value.totalAvailable <= CapLimit(topK)
      && forall i :: 0 <= i < |r.value.results| ==> Qualifies(k, b.cal, store, filters, r.value.results[i].id)
  {
    var k := Selected(searchHistory);
    var store := if searchHistory then history else bookmarks;
    SearchSound(k, b, store, query, methods, filters, CapLimit(topK));
  }
}

=== FILE: unified.dfy ===
/** `unified_search` of the MCP server: the permissive front end that runs
    the history engine, the bookmark engine or both with one clamped
    `top_k`, concatenates their items (history first), re-ranks them by a
    weighted average of the per-method scores and keeps the first `top_k`. */
module Unified {
  import opened Basics
  import opened Ordering
  import opened Models
  import opened Filters
  import opened Fusion
  import opened Retrieval

  /** One item of the merged list: the engine it came from and its entry. */
  datatype Item = Item(source: Kind, entry: Fused)

  /** What the tool returns: the JSON payload on success, or the error. */
  datatype Response =
    | Success(results: seq<Item>, totalAvailable: nat, executed: seq<Method>, timing: set<string>)
    | Failure(error: string)

  /** `weights.get(m, 0.5)`; every score key is one of the three methods, so
      the 0.5 default is never used. */
  function Weight(m: Method): real
  {
    match m
    case Structured => 1.0
    case Fulltext => 0.85
    case Vector => 0.7
  }

  const AllMethods: seq<Method> := [Structured, Fulltext, Vector]

  /** The weight an item's score map gives method `m`: `Weight(m)` when
      the item was found by `m`, nothing otherwise. */
  function WeightOf(scores: map<Method, real>, m: Method): real
  {
    if m in scores then Weight(m) else 0.0
  }

  /** Method `m`'s weighted contribution to an item's score. */
  function Term(scores: map<Method, real>, m: Method): real
  {
    if m in scores then scores[m] * Weight(m) else 0.0
  }

  /** `sum(weights.get(m, 0.5) for m in scores)`. */
  function TotalWeight(scores: map<Method, real>): real
  {
    WeightOf(scores, Structured) + WeightOf(scores, Fulltext) + WeightOf(scores, Vector)
  }

  /** `_fused_score`: the weighted average of an item's scores, 0.0 without any. */
  function FusedScore(scores: map<Method, real>): real
  {
    if scores == map[] then 0.0
    else
      var w := TotalWeight(scores);
      var t := Term(scores, Structured) + Term(scores, Fulltext) + Term(scores, Vector);
      if w > 0.0 then t / w else 0.0
  }

  lemma TermBounds(scores: map<Method, real>, m: Method, lo: real, hi: real)
    requires forall x :: x in scores ==> lo <= scores[x] <= hi
    ensures lo * WeightOf(scores, m) <= Term(scores, m) <= hi * WeightOf(scores, m)
  {
    if m in scores {
      assert lo <= scores[m] <= hi;
    }
  }

  lemma TotalWeightPositive(scores: map<Method, real>)
    requires scores != map[]
    ensures TotalWeight(scores) > 0.0
  {
    if forall x :: x !in scores { assert false; }
    var m :| m in scores;
    assert WeightOf(scores, m) > 0.0;
  }

  lemma QuotientBounds(t: real, w: real, lo: real, hi: real)
    requires w > 0.0 && lo * w <= t <= hi * w
    ensures lo <= t / w <= hi
  {
    var q := t / w;
    assert q * w == t;
  }

  /** The fused score is a weighted average: any bounds on an item's scores
      bound its fused score, so it lies between the smallest and the largest. */
  lemma FusedScoreBetween(scores: map<Method, real>, lo: real, hi: real)
    requires scores != map[]
    requires forall m :: m in scores ==> lo <= scores[m] <= hi
    ensures lo <= FusedScore(scores) <= hi
  {
    TotalWeightPositive(scores);
    TermBounds(scores, Structured, lo, hi);
    TermBounds(scores, Fulltext, lo, hi);
    TermBounds(scores, Vector, lo, hi);
    WeightedMean(Term(scores, Structured), Term(scores, Fulltext), Term(scores, Vector),
                 WeightOf(scores, Structured), WeightOf(scores, Fulltext), WeightOf(scores, Vector), lo, hi);
  }

  /** A weighted mean lies within any bounds on its terms. */
  lemma WeightedMean(t1: real, t2: real, t3: real, w1: real, w2: real, w3: real, lo: real, hi: real)
    requires w1 + w2 + w3 > 0.0
    requires lo * w1 <= t1 <= hi * w1 && lo * w2 <= t2 <= hi * w2 && lo * w3 <= t3 <= hi * w3
    ensures lo <= (t1 + t2 + t3) / (w1 + w2 + w3) <= hi
  {
    assert lo * (w1 + w2 + w3) == lo * w1 + lo * w2 + lo * w3;
    assert hi * (w1 + w2 + w3) == hi * w1 + hi * w2 + hi * w3;
    QuotientBounds(t1 + t2 + t3, w1 + w2 + w3, lo, hi);
  }

  /** An item found by a single method keeps that method's score. */
  lemma FusedScoreSingle(m: Method, x: real)
    ensures FusedScore(map[m := x]) == x
  {
    assert m in map[m := x];
    FusedScoreBetween(map[m := x], x, x);
  }

  function ItemKey(it: Item): Key
  {
    Key(FusedScore(it.entry.scores), None)
  }

  function Tag(k: Kind, entries: seq<Fused>): (items: seq<Item>)
    ensures |items| == |entries|
    ensures forall i :: 0 <= i < |items| ==> items[i] == Item(k, entries[i])
  {
    seq(|entries|, i requires 0 <= i < |entries| => Item(k, entries[i]))
  }

  /** The timing keys of one engine under a prefix. */
  function Prefixed(p: string, keys: set<string>): set<string>
  {
    set k | k in keys :: p + k
  }

  /** What an engine that is not searched contributes. */
  const Skipped: Outcome := Outcome([], {}, [])

  /** The merged list before the cut: history items, then bookmark items. */
  function Merge(h: Outcome, m: Outcome): seq<Item>
  {
    Tag(History, h.results) + Tag(Bookmarks, m.results)
  }

  /** The response built from the two engines' outcomes and the clamped `top_k`. */
  function Assemble(h: Outcome, m: Outcome, k: nat): (r: Response)
    ensures r.Success? && |r.results| <= k
  {
    var all := Merge(h, m);
    Success(Take(SortDesc(all, ItemKey), k), |all|, Dedup(h.executed + m.executed),
            Prefixed("history_", h.timing) + Prefixed("bookmarks_", m.timing))
  }

  /** The ranking: `total_available` counts the merged list before the cut;
      the results are its best `k` items by fused score, equal scores in
      merged order (history before bookmarks), and every merged item is kept
      when the merged list fits. */
  lemma AssembleRanking(h: Outcome, m: Outcome, k: nat)
    ensures var r := Assemble(h, m, k);
      var all := Merge(h, m);
      && r.totalAvailable == |all| == |h.results| + |m.results|
      && |r.results| == Min(k, |all|)
      && SortedDesc(r.results, ItemKey)
      && (forall i :: 0 <= i < |r.results| ==> r.results[i] in all)
      && KeepsBest(r.results, all, ItemKey)
      && (|all| <= k ==> multiset(r.results) == multiset(all))
      && (forall key :: IsPrefix(WithKey(r.results, ItemKey, key), WithKey(all, ItemKey, key)))
  {
    assert Assemble(h, m, k).results == Take(SortDesc(Merge(h, m), ItemKey), k);
    CutOf(Merge(h, m), ItemKey, k);
  }

  /** In the merged list the history engine's items come first, each tagged
      with its engine and carrying that engine's entry unchanged. */
  lemma MergeOrder(h: Outcome, m: Outcome)
    ensures var all := Merge(h, m);
      && (forall i :: 0 <= i < |h.results| ==> all[i] == Item(History, h.results[i]))
      && (forall i :: 0 <= i < |m.results| ==> all[|h.results| + i] == Item(Bookmarks, m.results[i]))
      && (forall i :: 0 <= i < |all| ==> (all[i].source == History <==> i < |h.results|))
  {
  }

  /** `methods_executed`: each method once, every method either engine ran,
      the first engine's methods first in their order, then the second
      engine's other methods in theirs. */
  lemma AssembleMethods(h: Outcome, m: Outcome, k: nat)
    requires Distinct(h.executed) && Distinct(m.executed)
    ensures var r := Assemble(h, m, k);
      && Distinct(r.executed)
      && (forall x :: x in r.executed <==> x in h.executed || x in m.executed)
      && r.executed == h.executed + Without(m.executed, h.executed)
  {
    assert Assemble(h, m, k).executed == Dedup(h.executed + m.executed);
    DedupAppendDistinct(h.executed, m.executed);
  }

  /** `unified_search`. `fault` is the message of an exception raised while
      opening the session or constructing the embedder. */
  function UnifiedSearch(b: Backend, history: Store, bookmarks: Store, query: string,
                         methods: Option<seq<string>>, filters: seq<Clause>, topK: int,
                         searchHistory: bool, searchBookmarks: bool, fault: Option<string>): (r: Response)
    ensures fault.Some? ==> r == Failure("Search failed: " + fault.value)
    ensures fault.None? ==> r.Success? && |r.results| <= CapLimit(topK) <= 100
  {
    if fault.Some? then Failure("Search failed: " + fault.value)
    else
      Assemble(HistoryOutcome(b, history, query, methods, filters, topK, searchHistory),
               BookmarksOutcome(b, bookmarks, query, methods, filters, topK, searchBookmarks),
               CapLimit(topK))
  }

  /** The two engines' outcomes, as `UnifiedSearch` obtains them. */
  function HistoryOutcome(b: Backend, history: Store, query: string, methods: Option<seq<string>>,
                          filters: seq<Clause>, topK: int, searchHistory: bool): Outcome
  {
    if searchHistory then Search(History, b, history, query, methods, filters, CapLimit(topK)) else Skipped
  }

  function BookmarksOutcome(b: Backend, bookmarks: Store, query: string, methods: Option<seq<string>>,
                            filters: seq<Clause>, topK: int, searchBookmarks: bool): Outcome
  {
    if searchBookmarks then Search(Bookmarks, b, bookmarks, query, methods, filters, CapLimit(topK)) else Skipped
  }

  /** Every item of the response came from an engine that was asked. */
  lemma UnifiedSources(b: Backend, history: Store, bookmarks: Store, query: string,
                       methods: Option<seq<string>>, filters: seq<Clause>, topK: int,
                       searchHistory: bool, searchBookmarks: bool)
    ensures var r := UnifiedSearch(b, history, bookmarks, query, methods, filters, topK, searchHistory, searchBookmarks, None);
      forall i :: 0 <= i < |r.results| ==>
        (r.results[i].source == History ==> searchHistory)
        && (r.results[i].source == Bookmarks ==> searchBookmarks)
  {
    var h := HistoryOutcome(b, history, query, methods, filters, topK, searchHistory);
    var m := BookmarksOutcome(b, bookmarks, query, methods, filters, topK, searchBookmarks);
    var k := CapLimit(topK);
    assert UnifiedSearch(b, history, bookmarks, query, methods, filters, topK, searchHistory, searchBookmarks, None)
      == Assemble(h, m, k);
    AssembleRanking(h, m, k);
    MergeOrder(h, m);
    var all := Merge(h, m);
    assert !searchHistory ==> |h.results| == 0;
    assert !searchBookmarks ==> |all| == |h.results|;
  }

  /** Searching both tables reports each executed method once, history's first. */
  lemma UnifiedMethods(b: Backend, history: Store, bookmarks: Store, query: string,
                       methods: Option<seq<string>>, filters: seq<Clause>, topK: int,
                       searchHistory: bool, searchBookmarks: bool)
    ensures var r := UnifiedSearch(b, history, bookmarks, query, methods, filters, topK, searchHistory, searchBookmarks, None);
      var h := HistoryOutcome(b, history, query, methods, filters, topK, searchHistory);
      var m := BookmarksOutcome(b, bookmarks, query, methods, filters, topK, searchBookmarks);
      && Distinct(r.executed)
      && (forall x :: x in r.executed <==> x in h.executed || x in m.executed)
      && r.executed == h.executed + Without(m.executed, h.executed)
  {
    var h := HistoryOutcome(b, history, query, methods, filters, topK, searchHistory);
    var m := BookmarksOutcome(b, bookmarks, query, methods, filters, topK, searchBookmarks);
    assert UnifiedSearch(b, history, bookmarks, query, methods, filters, topK, searchHistory, searchBookmarks, None)
      == Assemble(h, m, CapLimit(topK));
    if searchHistory {
      ExecutedDistinct(History, b, history, query, methods, filters, CapLimit(topK));
    }
    if searchBookmarks {
      ExecutedDistinct(Bookmarks, b, bookmarks, query, methods, filters, CapLimit(topK));
    }
    AssembleMethods(h, m, CapLimit(topK));
  }

  /** Every merged item's fused score lies in [0, 1]: the engines' scores do. */
  lemma UnifiedScoresBounded(b: Backend, history: Store, bookmarks: Store, query: string,
                             methods: Option<seq<string>>, filters: seq<Clause>, topK: int,
                             searchHistory: bool, searchBookmarks: bool)
    ensures var r := UnifiedSearch(b, history, bookmarks, query, methods, filters, topK, searchHistory, searchBookmarks, None);
      forall i :: 0 <= i < |r.results| ==> 0.0 <= FusedScore(r.results[i].entry.scores) <= 1.0
  {
    var h := HistoryOutcome(b, history, query, methods, filters, topK, searchHistory);
    var m := BookmarksOutcome(b, bookmarks, query, methods, filters, topK, searchBookmarks);
    var k := CapLimit(topK);
    var r := Assemble(h, m, k);
    assert UnifiedSearch(b, history, bookmarks, query, methods, filters, topK, searchHistory, searchBookmarks, None) == r;
    EngineInUnit(History, b, history, query, methods, filters, topK, searchHistory);
    EngineInUnit(Bookmarks, b, bookmarks, query, methods, filters, topK, searchBookmarks);
    OutcomeScoresBounded(h, m);
    AssembleRanking(h, m, k);
    forall i | 0 <= i < |r.results| ensures 0.0 <= FusedScore(r.results[i].entry.scores) <= 1.0 {
      assert r.results[i] in Merge(h, m);
    }
  }

  /** Every score of every entry of an outcome lies in [0, 1]. */
  predicate InUnit(o: Outcome)
  {
    forall i :: 0 <= i < |o.results| ==> forall x :: x in o.results[i].scores ==> 0.0 <= o.results[i].scores[x] <= 1.0
  }

  lemma EngineInUnit(k: Kind, b: Backend, store: Store, query: string, methods: Option<seq<string>>,
                     filters: seq<Clause>, topK: int, on: bool)
    ensures InUnit(if on then Search(k, b, store, query, methods, filters, CapLimit(topK)) else Skipped)
  {
    if on { SearchScoresBounded(k, b, store, query, methods, filters, CapLimit(topK)); }
  }

  lemma OutcomeScoresBounded(h: Outcome, m: Outcome)
    requires InUnit(h) && InUnit(m)
    ensures forall it :: it in Merge(h, m) ==> 0.0 <= FusedScore(it.entry.scores) <= 1.0
  {
    var all := Merge(h, m);
    MergeOrder(h, m);
    forall j | 0 <= j < |all| ensures 0.0 <= FusedScore(all[j].entry.scores) <= 1.0 {
      if j < |h.results| {
        EntryScoreBounded(h.results[j]);
      } else {
        EntryScoreBounded(m.results[j - |h.results|]);
      }
    }
  }

  /** Sub-scores in [0, 1] give a fused score in [0, 1]. */
  lemma EntryScoreBounded(e: Fused)
    requires forall x :: x in e.scores ==> 0.0 <= e.scores[x] <= 1.0
    ensures 0.0 <= FusedScore(e.scores) <= 1.0
  {
    if e.scores != map[] {
      FusedScoreBetween(e.scores, 0.0, 1.0);
    }
  }

  /** The timing dictionary has a `history_total` entry exactly when the
      history table was searched, and a `bookmarks_total` one exactly when
      the bookmarks were. */
  lemma UnifiedTiming(b: Backend, history: Store, bookmarks: Store, query: string,
                      methods: Option<seq<string>>, filters: seq<Clause>, topK: int,
                      searchHistory: bool, searchBookmarks: bool)
    ensures var r := UnifiedSearch(b, history, bookmarks, query, methods, filters, topK, searchHistory, searchBookmarks, None);
      && ("history_total" in r.timing <==> searchHistory)
      && ("bookmarks_total" in r.timing <==> searchBookmarks)
  {
    var h := HistoryOutcome(b, history, query, methods, filters, topK, searchHistory);
    var m := BookmarksOutcome(b, bookmarks, query, methods, filters, topK, searchBookmarks);
    assert UnifiedSearch(b, history, bookmarks, query, methods, filters, topK, searchHistory, searchBookmarks, None)
      == Assemble(h, m, CapLimit(topK));
    PrefixedMember("history_", "total", h.timing);
    PrefixedMember("bookmarks_", "total", m.timing);
    PrefixedHead("bookmarks_", "history_total", m.timing);
    PrefixedHead("history_", "bookmarks_total", h.timing);
    assert searchHistory ==> "total" in h.timing;
    assert searchBookmarks ==> "total" in m.timing;
    assert "history_" + "total" == "history_total";
    assert "bookmarks_" + "total" == "bookmarks_total";
  }

  lemma PrefixedMember(p: string, x: string, keys: set<string>)
    ensures p + x in Prefixed(p, keys) <==> x in keys
  {
    if p + x in Prefixed(p, keys) {
      var c :| c in keys && p + x == p + c;
      assert x == (p + x)[|p|..] && c == (p + c)[|p|..];
    }
  }

  lemma PrefixedHead(p: string, y: string, keys: set<string>)
    requires |p| > 0 && |y| > 0 && y[0] != p[0]
    ensures y !in Prefixed(p, keys)
  {
    forall c | c in keys ensures p + c != y {
      assert (p + c)[0] == p[0];
    }
  }

  /** The methods one engine reports are distinct, as they follow execution order. */
  lemma ExecutedDistinct(k: Kind, b: Backend, store: Store, query: string, methods: Option<seq<string>>,
                         filters: seq<Clause>, topK: nat)
    ensures Distinct(Search(k, b, store, query, methods, filters, topK).executed)
  {
    var compiled := Compile(k, b.cal, filters);
    var limit := topK * 2;
    CombineExecuted(query, methods, topK, StructuredAnswer(store, compiled, limit),
                    FulltextAnswer(b, store, compiled, query, limit), VectorAnswer(b, store, compiled, query, limit));
    var ms := Search(k, b, store, query, methods, filters, topK).executed;
    forall i, j | 0 <= i < j < |ms| ensures ms[i] != ms[j] {
      assert Rank(ms[i]) < Rank(ms[j]);
    }
  }

  /** De-duplicating `a + b` for lists without repeats keeps `a` and then
      the elements of `b` not in `a`, in their order. */
  lemma {:induction false} DedupAppendDistinct<T(!new)>(a: seq<T>, b: seq<T>)
    requires Distinct(a) && Distinct(b)
    ensures Dedup(a + b) == a + Without(b, a)
    decreases |b|
  {
    if b == [] {
      assert a + b == a;
      DedupDistinct(a);
    } else {
      var init, x := b[..|b| - 1], b[|b| - 1];
      var w := Without(init, a);
      assert b == init + [x];
      assert a + b == (a + init) + [x];
      DedupAppendDistinct(a, init);
      DedupSnoc(a + init, x);
      WithoutAppend(init, [x], a);
      WithoutSingle(x, a);
      WithoutMembers(init, a);
      assert x !in init;
      SnocCases(a, w, x);
    }
  }

  /** The two cases of appending `x`: already kept through `a`, or new. */
  lemma SnocCases<T>(a: seq<T>, w: seq<T>, x: T)
    requires x in a || x !in w
    ensures (if x in a + w then a + w else (a + w) + [x]) == a + (w + if x in a then [] else [x])
  {
    if x in a {
      assert x in a + w;
      assert w + [] == w;
    } else {
      assert x !in a + w;
    }
  }

  /** Appending one element to `Dedup`'s input appends it to the output
      unless it is already there. */
  lemma DedupSnoc<T(!new)>(s: seq<T>, x: T)
    ensures Dedup(s + [x]) == if x in Dedup(s) then Dedup(s) else Dedup(s) + [x]
  {
    var t := s + [x];
    assert t[..|t| - 1] == s;
  }

  lemma WithoutSingle<T>(x: T, drop: seq<T>)
    ensures Without([x], drop) == if x in drop then [] else [x]
  {
    assert [x][1..] == [];
  }

  lemma {:induction false} WithoutAppend<T>(s: seq<T>, t: seq<T>, drop: seq<T>)
    ensures Without(s + t, drop) == Without(s, drop) + Without(t, drop)
  {
    if s == [] {
      assert s + t == t;
    } else {
      assert (s + t)[1..] == s[1..] + t;
      WithoutAppend(s[1..], t, drop);
    }
  }

  lemma {:induction false} WithoutMembers<T>(s: seq<T>, drop: seq<T>)
    ensures forall x :: x in Without(s, drop) <==> x in s && x !in drop
  {
    if s != [] {
      WithoutMembers(s[1..], drop);
      assert s == [s[0]] + s[1..];
    }
  }

  /** De-duplicating a list without repeats changes nothing. */
  lemma {:induction false} DedupDistinct<T(!new)>(s: seq<T>)
    requires Distinct(s)
    ensures Dedup(s) == s
  {
    if s != [] {
      var init := s[..|s| - 1];
      DedupDistinct(init);
      assert s[|s| - 1] !in init;
      assert s == init + [s[|s| - 1]];
    }
  }

  /** The two engines' timing keys are namespaced apart: no key can come
      from both, and prefixing loses no key. */
  lemma TimingDisjoint(hk: set<string>, bk: set<string>)
    ensures Prefixed("history_", hk) * Prefixed("bookmarks_", bk) == {}
    ensures |Prefixed("history_", hk) + Prefixed("bookmarks_", bk)| == |hk| + |bk|
  {
    var hs, bs := Prefixed("history_", hk), Prefixed("bookmarks_", bk);
    forall x, y | x in hs && y in bs ensures x != y {
      var a :| a in hk && x == "history_" + a;
      var c :| c in bk && y == "bookmarks_" + c;
      assert x[0] == 'h' && y[0] == 'b';
    }
    assert hs * bs == {};
    PrefixInjective("history_", hk);
    PrefixInjective("bookmarks_", bk);
  }

  lemma {:induction false} PrefixInjective(p: string, keys: set<string>)
    ensures |Prefixed(p, keys)| == |keys|
    decreases |keys|
  {
    if keys != {} {
      if forall y :: y !in keys { assert false; }
      var x :| x in keys;
      var rest := keys - {x};
      PrefixInjective(p, rest);
      forall y | y in Prefixed(p, keys) ensures y in Prefixed(p, rest) + {p + x} {
        var c :| c in keys && y == p + c;
        if c != x { assert c in rest; }
      }
      forall y | y in Prefixed(p, rest) ensures y != p + x {
        var c :| c in rest && y == p + c;
        assert c == (p + c)[|p|..];
        assert x == (p + x)[|p|..];
      }
      assert Prefixed(p, keys) == Prefixed(p, rest) + {p + x};
    }
  }
}
